=== FILE: README.md ===
# Brokerage ledger backend — a Dafny model

The system is the Flask backend of a small brokerage. Advisors (Assessor) manage clients (Cliente). Each client owns a cash account (Conta), portfolios (Portfolio) holding positions (Posicao) in financial products, and a history of suitability-questionnaire answers. Clients can be grouped into economic groups (GrupoEconomico). Every HTTP route is one sequential transaction over these tables. It either answers with an error status and leaves the tables as they were, or commits an exact update.

The model keeps that shape:

- **Tables.** `Models.Tables` is one `map` from primary key to row per table. `Tables.Valid()` states the schema's uniqueness and foreign-key constraints plus the ledger invariants:
  - no balance is negative;
  - every stored position holds a positive quantity;
  - there is at most one position per (portfolio, product).
- **Database.** `Models.Database` is the mutable database a request works on. It has one field, `tables`, which a route replaces when it commits.
- **Routes that write.** Each is a pure function from the tables before the request to an `Outcome` (status, tables after), plus a method on the `Database`. The method is proved to do exactly what the function says, and to keep `Valid()`.
- **Routes that only read.** Each is a function returning `Checked` (a failing status or the answer).
- **Loops.** The valuation loop and the consolidation loop become methods with loop invariants. So does the suitability loop over the chosen options.

Decimal amounts are exact `real`s. Ids, dates and timestamps are integers.

The request context is a set of parameters:

- the decoded JSON body, where every key is `Absent`, `Null` or `Given`;
- the JWT claims (`Requests.Claims`): `int(get_jwt_identity())` or `None` when that raises, and the `role` claim;
- the current time, where a route stamps a row with it.

Python exceptions map to statuses as the source does:

- a handler in the route itself, or otherwise
- the application-wide handlers registered at `client_portal_routes.py:249-254` (ValueError 400, PermissionError 403, LookupError 404), or otherwise
- 500 for anything uncaught.

The modules are:

| module | what it covers |
|---|---|
| `Models` | `models.py`: the entities, the constraints, and the queries the routes share |
| `OrderRoutes` | `order_routes.py` |
| `ClientPortalRoutes` | `client_portal_routes.py` |
| `PortfolioRoutes` | `portfolio_routes.py` |
| `GrupoRoutes` | `grupo_routes.py` |
| `ClientRoutes` | `client_routes.py` |
| `SuitabilityRoutes` | `suitability_routes.py` |
| `AuthRoutes` | `auth_routes.py` |
| `Valuation` | the mark-to-market loop that two routes share |
| `Text` | `strip().capitalize()` and the `C-%07d` account number |
| `Bcrypt` | what bcrypt hashes of a password: its UTF-8 encoding cut to 72 bytes |
| `Requests` | bodies, claims and statuses |
| `Rows` | sums over tables |
| `Sets` | maximum and minimum of a key set |
| `Wrappers` | `Option` |

## Model

| member | source | states |
|---|---|---|
| `Models.HashPassword` | backend/app/models.py:16-17 | Hashing fails (bcrypt raises) exactly for the empty password. |
| `Models.Assessor.SetPassword` | backend/app/models.py:16-17 | An advisor's password can be set exactly when it is not empty. |
| `Models.Assessor.CheckPassword` | backend/app/models.py:18-19 | The advisor check raises exactly when the stored hash is null (it has no null guard). |
| `Models.Cliente.SetPassword` | backend/app/models.py:38-39 | A client's password can be set exactly when it is not empty. |
| `Models.Cliente.CheckPassword` | backend/app/models.py:41-44 | A client with a null hash is never accepted; an accepted password matches the stored hash. |
| `Models.HashAccepts` | backend/app/models.py:16-19 | A hash accepts its own password. Among passwords of at most 72 UTF-8 bytes it accepts no other. A hash of a password of 72 bytes or more accepts every extension of it. |
| `Models.AdvisorPasswordRoundTrip` | backend/app/models.py:16-19 | After `set_password(p)` the advisor check accepts `p`. For passwords of at most 72 bytes it accepts `q` exactly when `q == p`. For a longer `p` it also accepts `p + q`. Only the hash changed. |
| `Models.ClientPasswordRoundTrip` | backend/app/models.py:38-44 | The same for a client: `p` is accepted; for passwords of at most 72 bytes exactly `p`; for a longer `p` also `p + q`. Only the hash changed. |
| `Bcrypt.EncodeChar` | backend/app/models.py:16-17 | The UTF-8 encoding of a character: one to four bytes, every byte after the first in 0x80..0xBF. |
| `Bcrypt.Utf8` | backend/app/models.py:16-17 | The UTF-8 encoding of a password: at least one byte per character. |
| `Bcrypt.Key` | backend/app/models.py:16-19 | The bytes bcrypt hashes: at most 72; the whole encoding when it fits, otherwise its first 72 bytes. |
| `Bcrypt.DecodeEncodeChar` | backend/app/models.py:16-17 | Decoding an encoded character gives back its code point. |
| `Bcrypt.EncodeCharPrefixFree` | backend/app/models.py:16-17 | No character's encoding is a prefix of another's: equal encodings followed by bytes mean equal characters and equal bytes. |
| `Bcrypt.Utf8Append` | backend/app/models.py:16-17 | Encoding distributes over concatenation. |
| `Bcrypt.Utf8Injective` | backend/app/models.py:16-17 | Distinct passwords have distinct UTF-8 encodings. |
| `Bcrypt.ShortKeysIdentify` | backend/app/models.py:16-19 | Two passwords of at most 72 bytes have the same key exactly when they are equal. |
| `Bcrypt.LongKeyIgnoresTail` | backend/app/models.py:16-19 | A password of 72 bytes or more has the same key as every extension of it. |
| `Models.NewAccount` | backend/app/models.py:222-225 | A new account belongs to the client, has balance 0 and is numbered `C-` plus the id in seven digits. |
| `Models.OpenClientEffect` | backend/app/routes/client_portal_routes.py:50-59 | Opening a client adds exactly the client under a new id, one account and one portfolio of that client under new keys; nothing else changes. |
| `Models.OpenClientValid` | backend/app/models.py:28-34 | Opening a client with an existing advisor, a new email, a new CPF/CNPJ and a free account number keeps every constraint. |
| `Models.AccountInsertValid` | backend/app/models.py:224-225 | An account with a free number and a non-negative balance keeps account numbers unique and balances non-negative. |
| `Models.Database.Commit` | backend/app/routes/order_routes.py:215 | After a commit the tables are exactly the staged ones. |
| `Models.Database.CommitLedger` | backend/app/routes/order_routes.py:215 | A ledger commit replaces the four ledger tables and nothing else. |
| `Models.FreshKey` | backend/app/models.py:30 | A new identity value is positive and above every existing key. |
| `Models.ClientByEmail` | backend/app/routes/client_portal_routes.py:45 | None exactly when no client has the email; otherwise a client with it, the first by key. |
| `Models.ClientByCpf` | backend/app/routes/client_portal_routes.py:47 | None exactly when no client has the CPF/CNPJ; otherwise a client with it, the first by key. |
| `Models.AdvisorByEmail` | backend/app/routes/auth_routes.py:16 | None exactly when no advisor has the email; otherwise an advisor with it, the first by key. |
| `Models.FirstAccountOf` | backend/app/routes/order_routes.py:139 | None exactly when the client has no account; otherwise one of its accounts, the first by key. |
| `Models.FirstPortfolioOf` | backend/app/routes/client_portal_routes.py:101-103 | None exactly when the client has no portfolio; otherwise one of its portfolios, the first by key. |
| `Models.PositionAt` | backend/app/routes/order_routes.py:155 | None exactly when no position exists for (portfolio, product); otherwise that position. |
| `Models.PositionsOf` | backend/app/routes/portfolio_routes.py:58 | Exactly the positions of the portfolio, unchanged. |
| `Models.LatestPriceRow` | backend/app/routes/portfolio_routes.py:87-105 | None exactly when the product has no price; otherwise a price row of the product on its latest date. |
| `Models.LatestPrices` | backend/app/routes/portfolio_routes.py:107 | The price map holds exactly the held products with a history; lookups with default 0 give the latest closing price or 0. |
| `Models.LatestPriceUnique` | backend/app/models.py:204 | With one price per (product, day), any row on the product's latest date is the one the query picks. |
| `Requests.ParseDecimal` | backend/app/routes/order_routes.py:107-111 | A number is read exactly when the field is given as decimal text, and then has that value. |
| `Text.Strip` | backend/app/routes/order_routes.py:105 | The result has no leading or trailing whitespace and is a slice of the input. Everything dropped before and after it is whitespace. It is empty only for all-whitespace input. |
| `Text.Capitalize` | backend/app/routes/order_routes.py:105 | Same length; the first character is upper-cased and the rest lower-cased. |
| `Text.NormalizeWordMatches` | backend/app/routes/order_routes.py:105 | `strip().capitalize()` yields a capitalised word `w` exactly when the stripped input spells `w` ignoring case. |
| `Text.Digits` | backend/app/routes/client_portal_routes.py:54 | The decimal digits of `n`, without leading zeros (exactly "0" for 0), denoting `n`. |
| `Text.ZeroPad` | backend/app/routes/client_portal_routes.py:54 | Digits denoting `n`, left-padded with zeros to the width. |
| `Text.AccountNumber` | backend/app/routes/client_portal_routes.py:54 | Starts with `C-`; nine characters for ids below ten million. |
| `Text.AccountNumberRoundTrip` | backend/app/routes/client_routes.py:59 | The client id can be read back from its account number. |
| `Text.AccountNumberInjective` | backend/app/routes/client_routes.py:59 | Distinct clients get distinct account numbers. |
| `Valuation.ProductsOf` | backend/app/routes/portfolio_routes.py:85 | Every held product is in the list of products whose prices are looked up. |
| `Valuation.LatestValuation` | backend/app/routes/portfolio_routes.py:107-123 | Valued with the latest-price map, each position is valued at its product's latest closing price, or 0 without history. |
| `Valuation.ValuePortfolio` | backend/app/routes/portfolio_routes.py:109-129 | The loop values every position; the market-value total is the sum of the position values; the result total is that total minus total cost, and equals the sum of the position results. Both totals are 0 for no positions. |
| `Valuation.ValuationStep` | backend/app/routes/portfolio_routes.py:112-126 | One iteration adds one valued position and adds its value and cost to the running sums. |
| `Valuation.ValuationTotals` | backend/app/routes/portfolio_routes.py:125-129 | Over a valuation, total cost is the portfolio's cost and the results sum to value minus cost. |
| `Valuation.ValueStoredPortfolio` | backend/app/routes/portfolio_routes.py:79-129 | The answer is the portfolio marked to market at the latest prices, with its two totals. |
| `Valuation.ValuedViewPrices` | backend/app/routes/portfolio_routes.py:112-123 | The answer shows every position of the portfolio, each at quantity × latest price (0 without history), with result = value − quantity × average cost. |
| `Valuation.ValuedViewTotals` | backend/app/routes/portfolio_routes.py:79-83 | The result total is the sum of the position results; without positions both totals are 0. |
| `OrderRoutes.ParseOrder` | backend/app/routes/order_routes.py:90-114 | Rejections:<br>• a missing body or field is 400;<br>• a non-integer identity is 400;<br>• a null order type is 500;<br>• unparsable or non-positive numbers are 400.<br>It passes exactly for positive parsed numbers, the role defaulting to 'cliente' and the type normalised. |
| `OrderRoutes.Locate` | backend/app/routes/order_routes.py:116-141 | A missing portfolio is 404. A portfolio the requester may not trade (own for a client, a client's for an advisor) is 403. A tradeable portfolio with a missing product is 404. A missing owner row is 500: always for an advisor, and for a client once the product exists. For an existing owner who may be traded for and an existing product, the lookup passes exactly when the owner has an account; otherwise it is 404. A pass names an existing portfolio, product and owner, the owner's first account, and a requester who may trade. |
| `OrderRoutes.WeightedAverageCost` | backend/app/routes/order_routes.py:195-199 | New quantity × new average cost = old quantity × old cost + qty × price. |
| `OrderRoutes.WeightedAverageBetween` | backend/app/routes/order_routes.py:195-199 | The new average cost lies between the old average cost and the price paid. |
| `OrderRoutes.BuyHolding` | backend/app/routes/order_routes.py:192-208 | A buy raises the holding by qty and its cost by qty × price. It keeps one positive row per (portfolio, product) and leaves other holdings alone. |
| `OrderRoutes.SellHolding` | backend/app/routes/order_routes.py:210-213 | A sell lowers the holding by qty at unchanged average cost and deletes the row at exactly zero. It keeps quantities positive and leaves other holdings alone. |
| `OrderRoutes.Execute` | backend/app/routes/order_routes.py:86-223 | Any status other than 201 leaves every table unchanged. A missing body or field is 400. A 201 needs a parsed, located order of type Compra or Venda. |
| `OrderRoutes.ExecuteOnlyForOwnerOrAdvisor` | backend/app/routes/order_routes.py:99-131 | A 201 happens only for the owner (role 'cliente' or no role) or for the owner's advisor (any other role). |
| `OrderRoutes.ExecuteSettles` | backend/app/routes/order_routes.py:133-165 | A 201 settles against the owner's account, for an existing portfolio and product, with positive quantity and price. |
| `OrderRoutes.ExecuteBuy` | backend/app/routes/order_routes.py:143-208 | A successful buy:<br>• the balance was at least qty × price and drops by exactly that;<br>• one 'Aplicacao' movement out of the account is added, and one order linked to it;<br>• the holding grows by qty and its cost by qty × price;<br>• no other account or holding changes. |
| `OrderRoutes.SettleBuy` | backend/app/routes/order_routes.py:143-208 | The same effect, stated for the settlement step. |
| `OrderRoutes.ExecuteSell` | backend/app/routes/order_routes.py:154-213 | A successful sell:<br>• the holding was at least qty;<br>• the balance rises by exactly qty × price;<br>• one 'Resgate' movement into the account is added, and one order linked to it;<br>• the holding drops by qty;<br>• no other account or holding changes. |
| `OrderRoutes.ExecuteAccepts` | backend/app/routes/order_routes.py:143-165 | The converse of `ExecuteBuy` and `ExecuteSell`: once an order is parsed and located, a Compra is 201 exactly when the balance covers qty × price, and a Venda exactly when the holding is at least qty. Any other type is 400. |
| `OrderRoutes.SettleSell` | backend/app/routes/order_routes.py:154-213 | The same effect, stated for the settlement step. |
| `OrderRoutes.ExecutePreservesValid` | backend/app/routes/order_routes.py:143-216 | An order keeps every constraint: balances non-negative, positions positive and unique, references valid. |
| `OrderRoutes.SettlePreservesValid` | backend/app/routes/order_routes.py:143-216 | A successful settlement keeps every constraint. |
| `OrderRoutes.ExecuteOrder` | backend/app/routes/order_routes.py:86-223 | The method answers and commits exactly what `Execute` says, and keeps the tables valid. |
| `OrderRoutes.SettleOrder` | backend/app/routes/order_routes.py:143-216 | The settlement against the database is exactly `Settle`. |
| `OrderRoutes.SettleBuyOrder` | backend/app/routes/order_routes.py:143-208 | The buy against the database is exactly `Settle`; a failed average-cost division commits nothing. |
| `OrderRoutes.SettleSellOrder` | backend/app/routes/order_routes.py:154-216 | The sell against the database is exactly `Settle`. |
| `ClientPortalRoutes.AuthenticatedClient` | backend/app/routes/client_portal_routes.py:30-37 | A role other than 'cliente' is PermissionError; a non-integer identity is ValueError. Authentication succeeds exactly for an existing client id, as that client. |
| `ClientPortalRoutes.Register` | backend/app/routes/client_portal_routes.py:39-64 | 400 exactly when the body or one of the four keys is missing. With all keys present, an email or CPF/CNPJ already registered is 409. 500 exactly when both are new and the password is empty or null. Any status other than 201 leaves the tables unchanged. |
| `ClientPortalRoutes.RegisterAccepts` | backend/app/routes/client_portal_routes.py:42-59 | 201 exactly when:<br>• all four fields are given and the password is not empty;<br>• the email and the CPF/CNPJ are new;<br>• advisor 1 exists;<br>• the account number is free. |
| `ClientPortalRoutes.RegisterCreatesClient` | backend/app/routes/client_portal_routes.py:50-58 | The new client is 'Pendente', under advisor 1, with the given fields and password, and comes with its account and portfolio. |
| `ClientPortalRoutes.RegisterPreservesValid` | backend/app/routes/client_portal_routes.py:49-62 | Registration keeps every constraint. |
| `ClientPortalRoutes.ClientRegister` | backend/app/routes/client_portal_routes.py:39-64 | The method is exactly `Register` and keeps the tables valid. |
| `ClientPortalRoutes.GetMyPortfolio` | backend/app/routes/client_portal_routes.py:96-162 | 200 exactly for an authenticated client with a portfolio, showing the first portfolio marked to market; every other case is 500. |
| `ClientPortalRoutes.SelectedOptionIds` | backend/app/routes/client_portal_routes.py:185 | Fails exactly when some answer is not an object; the selected ids are never 0. |
| `ClientPortalRoutes.QuestionsOfVersion` | backend/app/routes/client_portal_routes.py:202 | The questions of a version. |
| `ClientPortalRoutes.TallyMeaning` | backend/app/routes/client_portal_routes.py:192-198 | In any order, the loop runs through exactly when every option answers an existing question and none repeats. It then adds the points, the questions and the versions. |
| `ClientPortalRoutes.SplitOptions` | backend/app/routes/client_portal_routes.py:192-197 | Taking one option out of a set splits its questions, versions, existence and distinctness. |
| `ClientPortalRoutes.Profile` | backend/app/routes/client_portal_routes.py:204-206 | The profile is one of the three. |
| `ClientPortalRoutes.ProfileMonotone` | backend/app/routes/client_portal_routes.py:204-206 | A higher score never gives a more conservative profile. |
| `ClientPortalRoutes.ProfileBands` | backend/app/routes/client_portal_routes.py:204-206 | Conservador iff score < 50; Moderado iff 50 ≤ score ≤ 80; Agressivo iff score > 80. |
| `ClientPortalRoutes.RecordAnswers` | backend/app/routes/client_portal_routes.py:183-210 | Any status other than 201 leaves the tables unchanged. |
| `ClientPortalRoutes.ChosenOptions` | backend/app/routes/client_portal_routes.py:187 | Exactly the existing options among the selected ids. |
| `ClientPortalRoutes.Submit` | backend/app/routes/client_portal_routes.py:174-214 | Any status other than 201 leaves the tables unchanged. |
| `ClientPortalRoutes.RecordAnswersScores` | backend/app/routes/client_portal_routes.py:183-210 | A recorded answer:<br>• is the client's, stamped now, for the single version of all the options;<br>• the options answer every question of that version, each once;<br>• the score is the sum of the points, with that score's profile;<br>• nothing else changes. |
| `ClientPortalRoutes.RecordAnswersAccepts` | backend/app/routes/client_portal_routes.py:190-210 | The converse of `RecordAnswersScores`. Take existing options that answer questions of one existing version, no question twice and every question of that version. They are recorded (201) as an answer for that version. |
| `ClientPortalRoutes.SelectedCount` | backend/app/routes/client_portal_routes.py:185-189 | `n` answers select at most `n` option ids. They select exactly `n` only when each is an object naming a truthy id of its own. |
| `ClientPortalRoutes.DistinctSelectionsCount` | backend/app/routes/client_portal_routes.py:185-189 | Answers that each name a truthy id of their own select as many ids as there are answers. |
| `ClientPortalRoutes.SubmitAccepts` | backend/app/routes/client_portal_routes.py:174-214 | A submission is 201 exactly when the client is authenticated, the answers name distinct existing options, and `RecordAnswers` accepts those options. For such answers, `Submit` does exactly what `RecordAnswers` does. |
| `ClientPortalRoutes.SubmitCreatedChecks` | backend/app/routes/client_portal_routes.py:174-189 | A 201 passed every list check, so the answers were distinct and existing. |
| `ClientPortalRoutes.SubmitRecordsNamed` | backend/app/routes/client_portal_routes.py:174-210 | Distinct, existing answers pass the list checks and reach `RecordAnswers` with the options they name. |
| `ClientPortalRoutes.VersionQuestions` | backend/app/routes/client_portal_routes.py:199-203 | Options all of one version answer only questions of that version. |
| `ClientPortalRoutes.SubmitRejectsRepeatedQuestion` | backend/app/routes/client_portal_routes.py:195 | Two options of the same question are refused with 400. |
| `ClientPortalRoutes.SubmitPreservesValid` | backend/app/routes/client_portal_routes.py:174-214 | A submission keeps every constraint. |
| `ClientPortalRoutes.SubmitSuitabilityAnswers` | backend/app/routes/client_portal_routes.py:174-214 | The method is exactly `Submit` and keeps the tables valid. |
| `ClientPortalRoutes.RecordChosenAnswers` | backend/app/routes/client_portal_routes.py:190-210 | The loop and the insert are exactly `RecordAnswers`. |
| `ClientPortalRoutes.CheckCash` | backend/app/routes/client_portal_routes.py:219-223 | 403 exactly for an unauthenticated caller or a missing `valor`. 400 exactly for a readable amount ≤ 0. A pass happens exactly for an authenticated client with a readable positive amount and an account. A pass carries that amount and the client's first account. Every other case is 500. |
| `ClientPortalRoutes.Deposit` | backend/app/routes/client_portal_routes.py:216-230 | 200 exactly when `CheckCash` passes; otherwise `CheckCash`'s status, with the tables unchanged. |
| `ClientPortalRoutes.Withdraw` | backend/app/routes/client_portal_routes.py:232-247 | 200 exactly when `CheckCash` passes and the balance covers the amount; a failing check gives its status. Any status other than 200 leaves the tables unchanged. |
| `ClientPortalRoutes.DepositCredits` | backend/app/routes/client_portal_routes.py:221-228 | A deposit raises the client's account by exactly the positive amount and adds one 'Deposito' movement into it. Other accounts are unchanged; the sum of balances rises by the amount. |
| `ClientPortalRoutes.WithdrawalDebits` | backend/app/routes/client_portal_routes.py:237-245 | A withdrawal is 400 exactly when the balance is below the amount. Otherwise the balance drops by exactly the amount and stays non-negative, and one 'Saque' movement out of the account is added. |
| `ClientPortalRoutes.CashMoveValid` | backend/app/models.py:225 | A balance moved to a non-negative value, with a movement on existing accounts, keeps every constraint. |
| `ClientPortalRoutes.DepositPreservesValid` | backend/app/routes/client_portal_routes.py:216-230 | A deposit keeps every constraint. |
| `ClientPortalRoutes.WithdrawPreservesValid` | backend/app/routes/client_portal_routes.py:232-247 | A withdrawal keeps every constraint; balances stay non-negative. |
| `ClientPortalRoutes.ReadCashRequest` | backend/app/routes/client_portal_routes.py:220-223 | The method's checks are exactly `CheckCash`. |
| `ClientPortalRoutes.MakeDeposit` | backend/app/routes/client_portal_routes.py:216-230 | The method is exactly `Deposit` and keeps the tables valid. |
| `ClientPortalRoutes.MakeWithdrawal` | backend/app/routes/client_portal_routes.py:232-247 | The method is exactly `Withdraw` and keeps the tables valid. |
| `PortfolioRoutes.ClientPortfolios` | backend/app/routes/portfolio_routes.py:24-40 | 404 exactly when the client is not the advisor's; otherwise exactly that client's portfolios. |
| `PortfolioRoutes.PortfolioPositions` | backend/app/routes/portfolio_routes.py:42-60 | 404 exactly when the portfolio's owner is not the advisor's client; otherwise exactly the portfolio's positions. |
| `PortfolioRoutes.ListingsStayWithAdvisor` | backend/app/routes/portfolio_routes.py:30-58 | Every listed portfolio and position belongs to one of the requesting advisor's clients. |
| `PortfolioRoutes.GetPortfolioValorizado` | backend/app/routes/portfolio_routes.py:62-129 | 404 exactly under the ownership condition; otherwise the portfolio marked to market. |
| `GrupoRoutes.CreateGroup` | backend/app/routes/grupo_routes.py:25-48 | 400 exactly for a missing body or name; 401 exactly for an identity that is no advisor. Any status other than 201 leaves the tables unchanged. |
| `GrupoRoutes.CreateGroupInserts` | backend/app/routes/grupo_routes.py:38-44 | A 201 adds exactly one group with the name, under a new key; nothing else changes. |
| `GrupoRoutes.CreateGroupPreservesValid` | backend/app/routes/grupo_routes.py:38-44 | Creating a group keeps every constraint. |
| `GrupoRoutes.CreateGrupoEconomico` | backend/app/routes/grupo_routes.py:25-48 | The method is exactly `CreateGroup` and keeps the tables valid. |
| `GrupoRoutes.LinkClient` | backend/app/routes/grupo_routes.py:56-98 | 400 exactly for a missing identity, a missing body or a missing or zero `cliente_id`. Otherwise 404 exactly when the client is not the advisor's or the group does not exist. Any status other than 201 leaves the tables unchanged. |
| `GrupoRoutes.LinkClientEffect` | backend/app/routes/grupo_routes.py:62-94 | 201 exactly for the advisor's client, an existing group and a new pair. It adds that pair with the given role ('Membro' when the key is missing); an existing pair is 409. |
| `GrupoRoutes.LinkClientPreservesValid` | backend/app/routes/grupo_routes.py:81-94 | Linking keeps every constraint. |
| `GrupoRoutes.LinkClienteToGrupo` | backend/app/routes/grupo_routes.py:56-98 | The method is exactly `LinkClient` and keeps the tables valid. |
| `GrupoRoutes.GroupMembers` | backend/app/routes/grupo_routes.py:106-110 | Exactly the clients linked to the group. |
| `GrupoRoutes.ProductRows` | backend/app/routes/grupo_routes.py:127-128 | The positions of one product. |
| `GrupoRoutes.GroupByProduct` | backend/app/routes/grupo_routes.py:120-129 | One row per held product, with the sum of quantities and the sum of quantity × average cost. |
| `GrupoRoutes.Consolidate` | backend/app/routes/grupo_routes.py:158-182 | Each aggregated product is consolidated at its price:<br>• average cost = cost / quantity, or 0 when the quantity is not positive;<br>• market value = quantity × price;<br>• result = market value − cost. |
| `GrupoRoutes.GetGrupoPosicaoConsolidada` | backend/app/routes/grupo_routes.py:100-183 | 404 exactly for a group without links. 403 exactly when no member is the advisor's (one is enough). Otherwise every member's positions are consolidated at the latest prices; with no positions the answer is empty. |
| `GrupoRoutes.ConsolidatedCostsAddUp` | backend/app/routes/grupo_routes.py:120-165 | In valid tables each consolidated quantity is positive, and average cost × quantity is the product's total cost over all member positions. |
| `GrupoRoutes.MemberQuantitiesPositive` | backend/app/models.py:288 | The members' positions have positive quantities. |
| `GrupoRoutes.ConsolidatedRowCost` | backend/app/routes/grupo_routes.py:163-165 | Over positive positions, a consolidated row's average cost × quantity is its total cost. |
| `GrupoRoutes.AggregatePositive` | backend/app/routes/grupo_routes.py:120-129 | A product held in positive positions has a positive total quantity. |
| `GrupoRoutes.AverageCostTimesQuantity` | backend/app/routes/grupo_routes.py:163-165 | With a positive quantity, average cost × quantity is the total cost. |
| `GrupoRoutes.ConsolidationOfOneHolding` | backend/app/routes/grupo_routes.py:160-180 | A product held in one position consolidates to that position: same quantity and average cost, and the market value and result the portfolio valuation gives. |
| `ClientRoutes.ListClients` | backend/app/routes/client_routes.py:10-18 | Exactly the clients whose advisor is the requester, unchanged. |
| `ClientRoutes.GetClient` | backend/app/routes/client_routes.py:21-29 | 404 exactly for a client that is not the advisor's; otherwise that client. |
| `ClientRoutes.ReadsAgree` | backend/app/routes/client_routes.py:16-27 | Reading one client agrees with the listing; two advisors' listings are disjoint. |
| `ClientRoutes.CreateClient` | backend/app/routes/client_routes.py:32-85 | Statuses are 201, 400 or 409; any status other than 201 leaves the tables unchanged. |
| `ClientRoutes.CreateClientAccepts` | backend/app/routes/client_routes.py:39-85 | 201 exactly for an existing advisor, all fields given, a non-empty password, a new email and CPF/CNPJ, and a free account number. 409 exactly when the rest is in order but one of these is taken. |
| `ClientRoutes.CreateClientOpens` | backend/app/routes/client_routes.py:45-76 | The new client is the advisor's and 'Pendente', with the given fields, and accepts the password. It comes with its account and portfolio and is in the advisor's listing. |
| `ClientRoutes.CreateClientPreservesValid` | backend/app/routes/client_routes.py:45-76 | Creating a client keeps every constraint. |
| `ClientRoutes.CreateCliente` | backend/app/routes/client_routes.py:32-85 | The method is exactly `CreateClient` and keeps the tables valid. |
| `ClientRoutes.UpdateClient` | backend/app/routes/client_routes.py:88-102 | 400 exactly without an identity and 404 exactly for another advisor's client. 200 exactly when there is a body, neither value is null, and the resulting email is not another client's. Every other request is 500. Any status other than 200 leaves the tables unchanged. |
| `ClientRoutes.UpdateClientEffect` | backend/app/routes/client_routes.py:94-101 | Only that client's name and email change, each to the body's value or kept when the key is missing. Repeating the update changes nothing more. |
| `ClientRoutes.UpdateClientPreservesValid` | backend/app/routes/client_routes.py:94-101 | An update keeps every constraint. |
| `ClientRoutes.UpdateCliente` | backend/app/routes/client_routes.py:88-102 | The method is exactly `UpdateClient` and keeps the tables valid. |
| `ClientRoutes.DeleteClient` | backend/app/routes/client_routes.py:105-120 | 404 exactly for another advisor's client; 200 exactly when no row refers to the client. Any status other than 200 leaves the tables unchanged. |
| `ClientRoutes.DeleteClientPreservesValid` | backend/app/routes/client_routes.py:113-120 | A deletion keeps every constraint. |
| `ClientRoutes.CreatedClientIsKept` | backend/app/routes/client_routes.py:61-120 | A client opened by `create_cliente` can never be deleted (400): its account and portfolio refer to it. |
| `ClientRoutes.DeleteCliente` | backend/app/routes/client_routes.py:105-120 | The method is exactly `DeleteClient` and keeps the tables valid. |
| `ClientRoutes.UpdateCompliance` | backend/app/routes/client_routes.py:123-162 | 404 exactly for another advisor's client; any status other than 200 leaves the tables unchanged. |
| `ClientRoutes.UpdateComplianceAudits` | backend/app/routes/client_routes.py:134-157 | 200 exactly for one of the four statuses. Then exactly one audit row is added, recording the client, the advisor, the old and new status and the justification (default text when missing). The client's status becomes the new one and nothing else changes. |
| `ClientRoutes.UpdateCompliancePreservesValid` | backend/app/routes/client_routes.py:145-157 | A compliance change keeps every constraint. |
| `ClientRoutes.UpdateClienteCompliance` | backend/app/routes/client_routes.py:123-162 | The method is exactly `UpdateCompliance` and keeps the tables valid. |
| `SuitabilityRoutes.LatestVersion` | backend/app/routes/suitability_routes.py:24-29 | None exactly without versions; otherwise a version with the greatest DataVigencia. |
| `SuitabilityRoutes.ActiveQuestionnaire` | backend/app/routes/suitability_routes.py:21-34 | 404 exactly without versions; otherwise the latest version with exactly its questions and their options. |
| `SuitabilityRoutes.ActiveQuestionsAreTheVersions` | backend/app/routes/suitability_routes.py:24-34 | The questions shown are exactly those a complete submission must answer, and every option of them is shown. |
| `SuitabilityRoutes.Newest` | backend/app/routes/suitability_routes.py:55-56 | An answer no older than any other of the set. |
| `SuitabilityRoutes.NewestFirst` | backend/app/routes/suitability_routes.py:53-57 | Each answer of the set exactly once, and never one after an older one. |
| `SuitabilityRoutes.AnswersOf` | backend/app/routes/suitability_routes.py:53-54 | Exactly the client's answers. |
| `SuitabilityRoutes.History` | backend/app/routes/suitability_routes.py:36-58 | 401 exactly for a non-integer identity and 404 exactly for another advisor's client. Otherwise exactly that client's answers, each once, newest DataResposta first. |
| `SuitabilityRoutes.NewerAnswerComesFirst` | backend/app/routes/suitability_routes.py:53-57 | After a newer answer is inserted, the history starts with it, followed by exactly the earlier answers. |
| `SuitabilityRoutes.NewestFirstHead` | backend/app/routes/suitability_routes.py:55-56 | A strictly newest answer comes first, followed by all the others. |
| `AuthRoutes.RegisterAdvisor` | backend/app/routes/auth_routes.py:9-29 | 201 exactly when name, email and password are non-empty and the email is new; otherwise 400 with the tables unchanged. |
| `AuthRoutes.RegisterAdvisorEffect` | backend/app/routes/auth_routes.py:19-27 | Exactly one advisor is added, under a new id: the given name and email, level 'Junior', no superior, and a password check that accepts the given password. Among passwords of at most 72 bytes it accepts no other. A longer one also accepts its extensions. |
| `AuthRoutes.RegisterAdvisorPreservesValid` | backend/app/routes/auth_routes.py:16-27 | Registering an advisor keeps every constraint. |
| `AuthRoutes.RegisterAssessor` | backend/app/routes/auth_routes.py:9-29 | The method is exactly `RegisterAdvisor` and keeps the tables valid. |
| `AuthRoutes.TokenClaims` | backend/app/routes/auth_routes.py:42-57 | The token's identity is the id signed in and its role claim is the role. |
| `AuthRoutes.UnifiedLoginAsWritten` | backend/app/routes/auth_routes.py:31-63 | The login as written refuses with 400, 401 or 500. |
| `AuthRoutes.AdvisorAccepts` | backend/app/models.py:18-19 | The guarded advisor check agrees with `check_password` wherever it returns; it accepts nothing without a hash. |
| `AuthRoutes.UnifiedLogin` | backend/app/routes/auth_routes.py:31-63 | Refusals are 400 or 401; 400 exactly for a missing email or password. |
| `AuthRoutes.LoginGuardOnlyRemovesTheError` | backend/app/routes/auth_routes.py:40-41 | The guarded login equals the login as written except where that one is 500. That happens exactly when the advisor with the email has a null hash. |
| `AuthRoutes.LoginAsWrittenLocksOutClient` | backend/app/routes/auth_routes.py:40-53 | An advisor without a hash who shares an email with a client makes that client's correct login 500 as written. With the guard it logs the client in. |
| `AuthRoutes.LoginPrecedence` | backend/app/routes/auth_routes.py:40-62 | An advisor signs in exactly when the advisor with the email accepts the password. A client signs in exactly when that advisor does not and the client with the email does. Whoever signs in has the email and a matching hash. |
| `AuthRoutes.ClientTokenAuthenticates` | backend/app/routes/auth_routes.py:52-57 | A client's token authenticates on the client portal as that client. |
| `AuthRoutes.RegisteredAdvisorLogsIn` | backend/app/routes/auth_routes.py:19-50 | A newly registered advisor logs in as itself with the registered email and password. |
| `AuthRoutes.RegisteredClientLogsIn` | backend/app/routes/auth_routes.py:52-62 | A portal-registered client logs in as itself, unless an advisor with the same email accepts the same password. |
| `AuthRoutes.RegisteredClientIsFound` | backend/app/routes/client_portal_routes.py:45-59 | After registration the new client is the only client with that email and accepts the password; the advisors are unchanged. |
| `AuthRoutes.LoginFindsClient` | backend/app/routes/auth_routes.py:52-62 | A login with the email only one client has, and a password it accepts, signs that client in when no advisor takes precedence. |

## Left out

- Password hashing and tokens are abstract:
  - a bcrypt hash is modelled by its key, the first 72 bytes of the UTF-8 password; salt, cost and cipher are abstract. Hashing fails on the empty password;
  - JWT creation and verification are out; a token is its (identity, role) claims;
  - the response bodies (marshmallow serialisation) are out.
- Numeric rounding: amounts are exact rationals. The Numeric(18,2) and Numeric(18,8) storage rounding of Saldo, CustoMedio and Quantidade is not modelled. Decimal text is taken as already classified as a number or as unparsable.
- `Requests.ParseDecimal`: `Decimal` also reads "NaN", "sNaN" and "Infinity", and Flask's JSON accepts bare `NaN` and `Infinity`. The model has no case for these; it treats them as unparsable text. The source behaves differently for some of them:
  - An order with a NaN quantity or price passes the parse at backend/app/routes/order_routes.py:107-110. The test `<= 0` at :113 then raises InvalidOperation, so the answer is 500 where the model answers 400. An infinite amount passes the tests, and the balance or holding comparison refuses it with 400.
  - A withdrawal of "Infinity" reaches the balance comparison at backend/app/routes/client_portal_routes.py:239 and is refused with 400 where the model answers 500. A NaN amount gives 500 in the source and in the model.
- `ClientPortalRoutes.Deposit`: the precision of Numeric(18,2) (backend/app/models.py:225, 255) is not modelled. A deposit that takes Saldo to 10^16 or beyond, or an infinite amount, fails the commit with 500; the model answers 200 with the exact sum.
- `OrderRoutes.Execute`: a quantity of 10^10 or more in Numeric(18,8), or a price, total or average cost of 10^16 or more in Numeric(18,2) (backend/app/models.py:274-275, 288-289), fails the commit with 500; the model answers 201. The same holds for `OrderRoutes.ExecuteBuy` and `OrderRoutes.ExecuteSell`.
- Timestamps: DataUltimaAtualizacao, DataCriacao, DataHora and DataExecucao are not stored. The answer timestamp is a parameter (`now`).
- Row order:
  - an unordered `.first()` is modelled as the smallest primary key;
  - a list answer is a map keyed by primary key;
  - the consolidated rows are keyed by product rather than listed in database order;
  - among questionnaire versions or answers with equal dates, the tie is broken by the smallest id.
- `GrupoRoutes.LinkClient`: a `cliente_id` that is not an integer is not modelled (the body field is an integer).
- JSON bodies carry values of the expected type; a string field holding a number, or a body that is not an object, is not modelled.
- `ClientRoutes.CreateClient`: the database reports one violated constraint per failed insert. The model checks them in a fixed order: missing values, then UNIQUE (409), then the advisor foreign key (400).
- Concurrency and `with_for_update` row locks: each request runs alone.
- `Models.HashPassword`: follows bcrypt releases that silently key only the first 72 UTF-8 bytes. Releases from 5.0 raise ValueError for a longer password, so registration and password setting would then fail instead of succeeding. bcrypt's treatment of a NUL character inside a password is not modelled.
- `ClientPortalRoutes.RegisterAccepts`: column widths are not modelled. A name or email over 255 characters or a CPF/CNPJ over 14 (backend/app/models.py:32-34) fails the insert with a DataError, answered 500; the model answers 201.
- `ClientRoutes.CreateClientAccepts`: the same widths are not modelled; an over-wide value reaches the generic exception branch (400), where the model answers 201.
- `AuthRoutes.RegisterAdvisor`: a name or email over 255 characters (backend/app/models.py:12-13) makes the uncaught commit fail (500); the model answers 201.
- `ClientRoutes.UpdateClient`: a name or email over 255 characters makes the commit fail (500); the model answers 200.
- `ClientRoutes.UpdateCompliance`: a justification over 500 characters (backend/app/models.py:81) reaches the route's exception branch (500); the model answers 200.
- `GrupoRoutes.LinkClient`: a role over 100 characters (backend/app/models.py:68) reaches the route's exception branch (500); the model answers 201.
- `GrupoRoutes.CreateGroup`: a group name over 255 characters (backend/app/models.py:59) reaches the route's exception branch (500); the model answers 201.
- `Models.ClientByEmail`: emails and CPF/CNPJ values compare as exact strings. The database is SQL Server (backend/app/config.py:20), whose default collation compares case-insensitively and ignores trailing spaces. So the lookups by email and the UNIQUE constraints may treat more values as equal than the model does. The same holds for `Models.AdvisorByEmail`.
- `Text.Capitalize`: upper- and lower-cases ASCII letters only; Python's `capitalize()` also maps other Unicode letters. This does not change which inputs normalise to "Compra" or "Venda", but other order types may normalise differently. The same holds for `Text.Lower`.
- `Models.FreshKey`: a new row gets the largest existing key plus one. A SQL Server IDENTITY column never reuses a value, so after the row with the largest key is deleted the database and the model pick different ids. Only freshness and positivity are promised.
- `OrderRoutes.Execute`: the contract states what any 201 requires; that a located Compra with enough balance, or a Venda with enough holding, is accepted is stated by `OrderRoutes.ExecuteAccepts`.
- `OrderRoutes.ExecuteBuy`: states the effect of an accepted buy; its converse is `OrderRoutes.ExecuteAccepts`.
- `OrderRoutes.ExecuteSell`: states the effect of an accepted sell; its converse is `OrderRoutes.ExecuteAccepts`.
- `ClientPortalRoutes.RecordAnswers`: the contract states that a refusal changes nothing. What a 201 records is `ClientPortalRoutes.RecordAnswersScores`, and which option sets get a 201 is `ClientPortalRoutes.RecordAnswersAccepts`.
- `ClientPortalRoutes.Submit`: the contract states that a refusal changes nothing. Exactly which submissions get a 201, and that they do what `RecordAnswers` does, is `ClientPortalRoutes.SubmitAccepts`.
- The eager loading and the latest-price subquery are modelled by their result, not their SQL.
- backend/app/routes/product_routes.py and backend/app/schemas.py are not part of this model.
- The duplicate `create_cliente` at the top of order_routes.py is never registered, and is not part of this model.
- `GET /grupos` (grupo_routes.py:50-54) returns every group row to any token holder with no check. A contract for it could only repeat the table, so it has no member.
- The portal's own login, profile, account and history reads (`client_portal_routes.py:66-94`, `164-172`) are not part of this model.

## Findings

| source | as written | input that shows it | evidently intended | confidence | as-written member | corrected member |
|---|---|---|---|---|---|---|
| backend/app/models.py:18-19 with backend/app/routes/auth_routes.py:40-41 | `Assessor.check_password` calls bcrypt on a null SenhaHash (a nullable column), which raises. `unified_login` then fails with 500 before the client with the same email is tried. | Advisor 1 with email "ana@example.com" and no hash; client 7 with the same email and password "segredo"; login with that email and password. | The null guard that `Cliente.check_password` has (models.py:42-43): such an advisor accepts no password, and the client logs in. | not executed | `AuthRoutes.UnifiedLoginAsWritten`, `AuthRoutes.LoginAsWrittenLocksOutClient` | `AuthRoutes.UnifiedLogin`, `AuthRoutes.LoginGuardOnlyRemovesTheError` |

=== FILE: auth_routes.dfy ===
/**
 * Advisor registration and the unified login, which issues a token for an
 * advisor or a client from one email and password: the advisor with that
 * email is tried first, then the client with that email.
 */
module AuthRoutes {
  import opened Wrappers
  import opened Requests
  import opened Models
  import Bcrypt
  import ClientPortalRoutes

  // -------------------------------------------------------------- registration

  /** The JSON body of `POST /register`. */
  datatype AdvisorBody = AdvisorBody(nome: Field<string>, email: Field<string>, senha: Field<string>)

  /** The level every self-registered advisor starts at. */
  const NIVEL_INICIAL := "Junior"

  /** The advisor row registration builds, before its password is set: no superior, level "Junior". */
  function NewAdvisor(nome: string, email: string): Assessor {
    Assessor(None, nome, email, Some(NIVEL_INICIAL), None)
  }

  /**
   * `register`: a missing body or an empty or missing name, email or
   * password is 400, an email some advisor already has is 400; otherwise
   * the advisor is inserted with the password set.
   */
  function RegisterAdvisor(t: Tables, body: Option<AdvisorBody>): (r: Outcome)
    ensures r.status in {CREATED, BAD_REQUEST}
    ensures r.status != CREATED ==> r.after == t
    ensures r.status == CREATED <==>
              && body.Some? && TruthyString(body.value.email) && TruthyString(body.value.senha)
              && TruthyString(body.value.nome)
              && forall k :: k in t.assessores ==> t.assessores[k].email != body.value.email.value
  {
    if body.None? || !TruthyString(body.value.email) || !TruthyString(body.value.senha) || !TruthyString(body.value.nome) then
      Outcome(BAD_REQUEST, t)
    else if AdvisorByEmail(t.assessores, body.value.email.value).Some? then Outcome(BAD_REQUEST, t)
    else
      var a := NewAdvisor(body.value.nome.value, body.value.email.value).SetPassword(body.value.senha.value);
      Outcome(CREATED, t.(assessores := t.assessores[FreshKey(t.assessores) := a.value]))
  }

  /**
   * A registration adds exactly one advisor, under a new id: the given name
   * and email, level "Junior", no superior, and a password check that
   * accepts the given password and, among passwords of at most 72 UTF-8
   * bytes, no other (bcrypt keys only the first 72 bytes, so a longer one
   * also lets in its extensions).  No other row changes.
   */
  lemma RegisterAdvisorEffect(t: Tables, body: Option<AdvisorBody>, q: string)
    requires RegisterAdvisor(t, body).status == CREATED
    ensures var after := RegisterAdvisor(t, body).after; var id := FreshKey(t.assessores);
      && id !in t.assessores && after.assessores.Keys == t.assessores.Keys + {id}
      && (forall k :: k in t.assessores ==> after.assessores[k] == t.assessores[k])
      && after == t.(assessores := after.assessores)
      && after.assessores[id].nome == body.value.nome.value && after.assessores[id].email == body.value.email.value
      && after.assessores[id].nivel == Some(NIVEL_INICIAL) && after.assessores[id].superiorId.None?
      && after.assessores[id].CheckPassword(body.value.senha.value) == Some(true)
      && (|Bcrypt.Utf8(body.value.senha.value)| <= Bcrypt.MAX_KEY_BYTES && |Bcrypt.Utf8(q)| <= Bcrypt.MAX_KEY_BYTES
          ==> after.assessores[id].CheckPassword(q) == Some(q == body.value.senha.value))
      && (|Bcrypt.Utf8(body.value.senha.value)| >= Bcrypt.MAX_KEY_BYTES
          ==> after.assessores[id].CheckPassword(body.value.senha.value + q) == Some(true))
  {
    var b := body.value;
    AdvisorPasswordRoundTrip(NewAdvisor(b.nome.value, b.email.value), b.senha.value, q);
  }

  lemma RegisterAdvisorPreservesValid(t: Tables, body: Option<AdvisorBody>)
    requires t.Valid()
    ensures RegisterAdvisor(t, body).after.Valid()
  {
    var r := RegisterAdvisor(t, body);
    if r.status == CREATED {
      var as2 := r.after.assessores;
      assert UniqueAdvisorEmails(as2);
      assert SuperiorsExist(as2);
      assert ClientsHaveAdvisors(t.clientes, as2);
      assert AuditsReference(t.auditorias, t.clientes, as2);
    }
  }

  /** `POST /register`. */
  method RegisterAssessor(db: Database, body: Option<AdvisorBody>) returns (status: int)
    modifies db
    ensures Outcome(status, db.tables) == RegisterAdvisor(old(db.tables), body)
    ensures old(db.Valid()) ==> db.Valid()
  {
    var t := db.tables;
    if db.Valid() {
      RegisterAdvisorPreservesValid(t, body);
    }
    if body.None? || !TruthyString(body.value.email) || !TruthyString(body.value.senha) || !TruthyString(body.value.nome) {
      return BAD_REQUEST;
    }
    var b := body.value;
    if AdvisorByEmail(t.assessores, b.email.value).Some? {
      return BAD_REQUEST;
    }
    var novo := NewAdvisor(b.nome.value, b.email.value).SetPassword(b.senha.value);
    db.Commit(t.(assessores := t.assessores[FreshKey(t.assessores) := novo.value]));
    status := CREATED;
  }

  // ------------------------------------------------------------------- login

  /** The JSON body of `POST /unified-login`. */
  datatype LoginBody = LoginBody(email: Field<string>, senha: Field<string>)

  /** A login's answer: a token for a role and an id, or a refusal with its status. */
  datatype Login = LoggedIn(role: string, id: int) | Refused(status: int)

  /** The claims of the token a login issues: the id as identity and the role. */
  function TokenClaims(l: Login): (c: Claims)
    requires l.LoggedIn?
    ensures c.identity == Some(l.id) && c.role == Some(l.role)
  {
    Claims(Some(l.id), Some(l.role))
  }

  /**
   * `unified_login` as written.  An advisor whose stored hash is null makes
   * `Assessor.check_password` raise, and the request fails (500) before any
   * client with the same email is tried.
   */
  function UnifiedLoginAsWritten(t: Tables, body: Option<LoginBody>): (r: Login)
    ensures r.Refused? ==> r.status in {BAD_REQUEST, UNAUTHORIZED, SERVER_ERROR}
  {
    if body.None? || !TruthyString(body.value.email) || !TruthyString(body.value.senha) then Refused(BAD_REQUEST)
    else
      var e := body.value.email.value;
      var p := body.value.senha.value;
      var a := AdvisorByEmail(t.assessores, e);
      if a.Some? && t.assessores[a.value].CheckPassword(p).None? then Refused(SERVER_ERROR)
      else if a.Some? && t.assessores[a.value].CheckPassword(p) == Some(true) then LoggedIn(ASSESSOR_ROLE, a.value)
      else
        var c := ClientByEmail(t.clientes, e);
        if c.Some? && t.clientes[c.value].CheckPassword(p) then LoggedIn(CLIENTE_ROLE, c.value)
        else Refused(UNAUTHORIZED)
  }

  /**
   * The advisor password check with the null guard the client check has:
   * an advisor without a stored hash accepts no password.  It agrees with
   * `Assessor.check_password` wherever that returns.
   */
  function AdvisorAccepts(a: Assessor, p: string): (r: bool)
    ensures a.CheckPassword(p).Some? ==> (r <==> a.CheckPassword(p) == Some(true))
    ensures a.senhaHash.None? ==> !r
  {
    a.senhaHash.Some? && HashMatches(a.senhaHash.value, p)
  }

  /**
   * `unified_login` with the null-hash guard: the advisor with the email is
   * tried first, then the client with the email; a login that matches
   * neither is 401.
   */
  function UnifiedLogin(t: Tables, body: Option<LoginBody>): (r: Login)
    ensures r.Refused? ==> r.status in {BAD_REQUEST, UNAUTHORIZED}
    ensures r == Refused(BAD_REQUEST) <==> body.None? || !TruthyString(body.value.email) || !TruthyString(body.value.senha)
  {
    if body.None? || !TruthyString(body.value.email) || !TruthyString(body.value.senha) then Refused(BAD_REQUEST)
    else
      var e := body.value.email.value;
      var p := body.value.senha.value;
      var a := AdvisorByEmail(t.assessores, e);
      if a.Some? && AdvisorAccepts(t.assessores[a.value], p) then LoggedIn(ASSESSOR_ROLE, a.value)
      else
        var c := ClientByEmail(t.clientes, e);
        if c.Some? && t.clientes[c.value].CheckPassword(p) then LoggedIn(CLIENTE_ROLE, c.value)
        else Refused(UNAUTHORIZED)
  }

  /**
   * The two logins differ only where the login as written fails with 500,
   * and that happens exactly when the advisor with the email has no stored
   * hash.
   */
  lemma LoginGuardOnlyRemovesTheError(t: Tables, body: Option<LoginBody>)
    ensures UnifiedLoginAsWritten(t, body) != Refused(SERVER_ERROR) ==> UnifiedLogin(t, body) == UnifiedLoginAsWritten(t, body)
    ensures UnifiedLoginAsWritten(t, body) == Refused(SERVER_ERROR) <==>
              && body.Some? && TruthyString(body.value.email) && TruthyString(body.value.senha)
              && AdvisorByEmail(t.assessores, body.value.email.value).Some?
              && t.assessores[AdvisorByEmail(t.assessores, body.value.email.value).value].senhaHash.None?
  {
  }

  /**
   * An advisor without a password hash and a client sharing one email: the
   * client's correct password is refused with 500 as written, and logs the
   * client in with the guard.
   */
  lemma LoginAsWrittenLocksOutClient()
    ensures var e := "ana@example.com";
            var t := EmptyTables.(assessores := map[1 := Assessor(None, "Ana", e, None, None)],
                                  clientes := map[7 := Cliente(1, "12345678900", "Ana", e, HashPassword("segredo"), STATUS_PENDENTE)]);
            var body := Some(LoginBody(Given(e), Given("segredo")));
      && UnifiedLoginAsWritten(t, body) == Refused(SERVER_ERROR)
      && UnifiedLogin(t, body) == LoggedIn(CLIENTE_ROLE, 7)
  {
    var e := "ana@example.com";
    var as_ := map[1 := Assessor(None, "Ana", e, None, None)];
    var cs := map[7 := Cliente(1, "12345678900", "Ana", e, HashPassword("segredo"), STATUS_PENDENTE)];
    assert as_[1].email == e;
    assert cs[7].email == e;
  }

  /**
   * Who a login signs in, stated without the lookups' order: an advisor
   * exactly when the advisor with that email accepts the password; a client
   * exactly when that advisor does not and the client with that email
   * accepts it.  Either way the account signed in has the email and its
   * stored hash matches the password.
   */
  lemma LoginPrecedence(t: Tables, body: Option<LoginBody>)
    requires body.Some? && TruthyString(body.value.email) && TruthyString(body.value.senha)
    ensures var e := body.value.email.value; var p := body.value.senha.value; var r := UnifiedLogin(t, body);
            var a := AdvisorByEmail(t.assessores, e); var c := ClientByEmail(t.clientes, e);
      && (r.LoggedIn? && r.role == ASSESSOR_ROLE <==> a.Some? && AdvisorAccepts(t.assessores[a.value], p))
      && (r.LoggedIn? && r.role == CLIENTE_ROLE <==>
            !(a.Some? && AdvisorAccepts(t.assessores[a.value], p)) && c.Some? && t.clientes[c.value].CheckPassword(p))
      && (r.LoggedIn? && r.role == ASSESSOR_ROLE ==>
            r.id in t.assessores && t.assessores[r.id].email == e && HashMatches(t.assessores[r.id].senhaHash.value, p))
      && (r.LoggedIn? && r.role == CLIENTE_ROLE ==>
            r.id in t.clientes && t.clientes[r.id].email == e && HashMatches(t.clientes[r.id].senhaHash.value, p))
  {
  }

  /** A client's token authenticates on the client portal as that very client. */
  lemma ClientTokenAuthenticates(t: Tables, body: Option<LoginBody>)
    requires UnifiedLogin(t, body).LoggedIn? && UnifiedLogin(t, body).role == CLIENTE_ROLE
    ensures ClientPortalRoutes.AuthenticatedClient(t.clientes, TokenClaims(UnifiedLogin(t, body)))
            == ClientPortalRoutes.Authenticated(UnifiedLogin(t, body).id)
  {
  }

  /** A newly registered advisor logs in, as that advisor, with the email and password registered. */
  lemma {:induction false} RegisteredAdvisorLogsIn(t: Tables, body: Option<AdvisorBody>)
    requires RegisterAdvisor(t, body).status == CREATED
    ensures UnifiedLogin(RegisterAdvisor(t, body).after, Some(LoginBody(body.value.email, body.value.senha)))
            == LoggedIn(ASSESSOR_ROLE, FreshKey(t.assessores))
  {
    var after := RegisterAdvisor(t, body).after;
    var id := FreshKey(t.assessores);
    RegisterAdvisorEffect(t, body, body.value.senha.value);
    assert forall k :: k in after.assessores && after.assessores[k].email == body.value.email.value ==> k == id;
  }

  /**
   * A client who registered on the portal with a non-empty email logs in,
   * as that client, with the email and password registered, unless an
   * advisor with the same email accepts the same password.
   */
  lemma {:induction false} RegisteredClientLogsIn(t: Tables, body: Option<ClientPortalRoutes.RegisterBody>)
    requires ClientPortalRoutes.Register(t, body).status == CREATED
    requires body.value.email.value != ""
    requires var a := AdvisorByEmail(t.assessores, body.value.email.value);
             !(a.Some? && AdvisorAccepts(t.assessores[a.value], body.value.senha.value))
    ensures UnifiedLogin(ClientPortalRoutes.Register(t, body).after, Some(LoginBody(body.value.email, body.value.senha)))
            == LoggedIn(CLIENTE_ROLE, FreshKey(t.clientes))
  {
    var b := body.value;
    var after := ClientPortalRoutes.Register(t, body).after;
    RegisteredClientIsFound(t, body);
    assert b.email == Given(b.email.value) && b.senha == Given(b.senha.value);
    LoginFindsClient(after, b.email.value, b.senha.value, FreshKey(t.clientes));
  }

  /**
   * After a portal registration the new client is the only client with the
   * registered email and accepts the registered password; the advisors are
   * as before.
   */
  lemma RegisteredClientIsFound(t: Tables, body: Option<ClientPortalRoutes.RegisterBody>)
    requires ClientPortalRoutes.Register(t, body).status == CREATED
    ensures var after := ClientPortalRoutes.Register(t, body).after; var id := FreshKey(t.clientes);
      && id in after.clientes && after.clientes[id].email == body.value.email.value
      && after.clientes[id].CheckPassword(body.value.senha.value)
      && (forall k :: k in after.clientes && after.clientes[k].email == body.value.email.value ==> k == id)
      && after.assessores == t.assessores
  {
    var b := body.value;
    var after := ClientPortalRoutes.Register(t, body).after;
    var id := FreshKey(t.clientes);
    ClientPortalRoutes.RegisterAccepts(t, body);
    ClientPortalRoutes.RegisterCreatesClient(t, body);
    OpenClientEffect(t, after.clientes[id]);
    var c := ClientPortalRoutes.PortalClient(b.nomeCompleto.value, b.email.value, b.cpfCnpj.value);
    ClientPasswordRoundTrip(c, b.senha.value, b.senha.value);
  }

  /** A login with the email only client `id` has, and a password it accepts, signs that client in. */
  lemma LoginFindsClient(t: Tables, e: string, p: string, id: int)
    requires e != "" && p != ""
    requires id in t.clientes && t.clientes[id].CheckPassword(p)
    requires forall k :: k in t.clientes && t.clientes[k].email == e ==> k == id
    requires t.clientes[id].email == e
    requires var a := AdvisorByEmail(t.assessores, e); !(a.Some? && AdvisorAccepts(t.assessores[a.value], p))
    ensures UnifiedLogin(t, Some(LoginBody(Given(e), Given(p)))) == LoggedIn(CLIENTE_ROLE, id)
  {
  }
}

=== FILE: bcrypt.dfy ===
/**
 * What flask_bcrypt makes of a password: the text is encoded as UTF-8 and
 * bcrypt keys its hash with the first 72 bytes only.  The salt and the
 * cipher are left abstract: a stored hash is identified with the key it was
 * made from, so two passwords match the same hash exactly when their keys
 * are equal.
 */
module Bcrypt {

  type Byte = b: int | 0 <= b < 256

  /** The number of password bytes bcrypt uses. */
  const MAX_KEY_BYTES := 72

  /** The UTF-8 encoding of one Unicode scalar value: one to four bytes. */
  function EncodeChar(c: char): (r: seq<Byte>)
    ensures 1 <= |r| <= 4
    ensures forall i :: 1 <= i < |r| ==> 0x80 <= r[i] < 0xC0
  {
    var n := c as int;
    if n < 0x80 then [n]
    else if n < 0x800 then [0xC0 + n / 0x40, 0x80 + n % 0x40]
    else if n < 0x10000 then [0xE0 + n / 0x1000, 0x80 + (n / 0x40) % 0x40, 0x80 + n % 0x40]
    else [0xF0 + n / 0x40000, 0x80 + (n / 0x1000) % 0x40, 0x80 + (n / 0x40) % 0x40, 0x80 + n % 0x40]
  }

  /** `s.encode('utf-8')`. */
  function Utf8(s: string): (r: seq<Byte>)
    ensures |r| >= |s|
  {
    if s == [] then [] else EncodeChar(s[0]) + Utf8(s[1..])
  }

  /** The key bcrypt hashes: the first 72 bytes of the encoded password. */
  function Key(p: string): (r: seq<Byte>)
    ensures |r| <= MAX_KEY_BYTES
    ensures |Utf8(p)| <= MAX_KEY_BYTES ==> r == Utf8(p)
    ensures |Utf8(p)| > MAX_KEY_BYTES ==> r == Utf8(p)[..MAX_KEY_BYTES]
  {
    var b := Utf8(p);
    if |b| <= MAX_KEY_BYTES then b else b[..MAX_KEY_BYTES]
  }

  /** The code point a well-formed one- to four-byte sequence denotes. */
  function CodePoint(b: seq<Byte>): int
    requires 1 <= |b| <= 4
  {
    var b0 := b[0] as int;
    if |b| == 1 then b0
    else if |b| == 2 then (b0 - 0xC0) * 0x40 + (b[1] as int - 0x80)
    else if |b| == 3 then (b0 - 0xE0) * 0x1000 + (b[1] as int - 0x80) * 0x40 + (b[2] as int - 0x80)
    else (b0 - 0xF0) * 0x40000 + (b[1] as int - 0x80) * 0x1000 + (b[2] as int - 0x80) * 0x40 + (b[3] as int - 0x80)
  }

  /** Decoding one encoded character gives the character back. */
  lemma DecodeEncodeChar(c: char)
    ensures CodePoint(EncodeChar(c)) == c as int
  {
    var n := c as int;
    if 0x80 <= n < 0x800 {
      assert n == (n / 0x40) * 0x40 + n % 0x40;
    } else if 0x800 <= n < 0x10000 {
      assert n / 0x40 == (n / 0x1000) * 0x40 + (n / 0x40) % 0x40;
      assert n == (n / 0x40) * 0x40 + n % 0x40;
    } else if 0x10000 <= n {
      assert n / 0x1000 == (n / 0x40000) * 0x40 + (n / 0x1000) % 0x40;
      assert n / 0x40 == (n / 0x1000) * 0x40 + (n / 0x40) % 0x40;
      assert n == (n / 0x40) * 0x40 + n % 0x40;
    }
  }

  /** The first byte of an encoded character tells how many bytes it has. */
  lemma LeadByte(c: char)
    ensures var r := EncodeChar(c);
      && (|r| == 1 <==> r[0] < 0x80)
      && (|r| == 2 <==> 0xC0 <= r[0] < 0xE0)
      && (|r| == 3 <==> 0xE0 <= r[0] < 0xF0)
      && (|r| == 4 <==> 0xF0 <= r[0])
  {
  }

  /** Distinct characters have distinct encodings, none a prefix of another. */
  lemma EncodeCharPrefixFree(c: char, d: char, x: seq<Byte>, y: seq<Byte>)
    requires EncodeChar(c) + x == EncodeChar(d) + y
    ensures c == d && x == y
  {
    var ec, ed := EncodeChar(c), EncodeChar(d);
    LeadByte(c);
    LeadByte(d);
    assert ec[0] == (ec + x)[0] == (ed + y)[0] == ed[0];
    assert ec == (ec + x)[..|ec|] == (ed + y)[..|ed|] == ed;
    DecodeEncodeChar(c);
    DecodeEncodeChar(d);
    assert x == (ec + x)[|ec|..] == (ed + y)[|ed|..] == y;
  }

  /** The encoding of a concatenation is the concatenation of the encodings. */
  lemma {:induction false} Utf8Append(s: string, t: string)
    ensures Utf8(s + t) == Utf8(s) + Utf8(t)
  {
    if s == [] {
      assert s + t == t;
    } else {
      assert (s + t)[0] == s[0] && (s + t)[1..] == s[1..] + t;
      Utf8Append(s[1..], t);
    }
  }

  /** UTF-8 is injective: different texts never encode to the same bytes. */
  lemma {:induction false} Utf8Injective(s: string, t: string)
    requires Utf8(s) == Utf8(t)
    ensures s == t
  {
    if s != [] && t != [] {
      EncodeCharPrefixFree(s[0], t[0], Utf8(s[1..]), Utf8(t[1..]));
      Utf8Injective(s[1..], t[1..]);
    }
  }

  /**
   * Two passwords of at most 72 bytes have the same key exactly when they
   * are the same password.
   */
  lemma ShortKeysIdentify(p: string, q: string)
    requires |Utf8(p)| <= MAX_KEY_BYTES && |Utf8(q)| <= MAX_KEY_BYTES
    ensures Key(p) == Key(q) <==> p == q
  {
    if Key(p) == Key(q) {
      Utf8Injective(p, q);
    }
  }

  /**
   * A password of 72 bytes or more keys the same hash whatever follows it:
   * every extension of it has the same key.
   */
  lemma LongKeyIgnoresTail(p: string, s: string)
    requires |Utf8(p)| >= MAX_KEY_BYTES
    ensures Key(p + s) == Key(p)
  {
    Utf8Append(p, s);
    assert Utf8(p + s)[..MAX_KEY_BYTES] == Utf8(p)[..MAX_KEY_BYTES];
  }
}

=== FILE: client_portal_routes.dfy ===
/**
 * The client portal (`/portal/...`): a client registers, then, with a token
 * whose role is "cliente", reads their valued portfolio, answers the
 * suitability questionnaire, deposits and withdraws.
 *
 * Each route that writes is a pure function from the tables before the
 * request to an `Outcome` (status and tables after), and a method on the
 * `Database` proved to behave as that function says.
 */
module ClientPortalRoutes {
  import opened Wrappers
  import opened Requests
  import opened Models
  import Sets
  import Text
  import Rows
  import Valuation

  // ------------------------------------------------------------ authentication

  /** How `get_authenticated_client` ends: PermissionError, ValueError, LookupError, or the client. */
  datatype ClientAuth = NotAClient | InvalidIdentity | UnknownClient | Authenticated(clienteId: int)

  /**
   * Only a token with role "cliente" whose identity is the integer id of an
   * existing client authenticates, and then as exactly that client.
   */
  function AuthenticatedClient(cs: map<int, Cliente>, claims: Claims): (r: ClientAuth)
    ensures r == NotAClient <==> claims.role != Some(CLIENTE_ROLE)
    ensures r == InvalidIdentity <==> claims.role == Some(CLIENTE_ROLE) && claims.identity.None?
    ensures r.Authenticated? <==> claims.role == Some(CLIENTE_ROLE) && claims.identity.Some? && claims.identity.value in cs
    ensures r.Authenticated? ==> r.clienteId == claims.identity.value
  {
    if claims.role != Some(CLIENTE_ROLE) then NotAClient
    else if claims.identity.None? then InvalidIdentity
    else if claims.identity.value !in cs then UnknownClient
    else Authenticated(claims.identity.value)
  }

  // -------------------------------------------------------------- registration

  /** The JSON body of `POST /portal/register`. */
  datatype RegisterBody = RegisterBody(nomeCompleto: Field<string>, email: Field<string>,
                                       cpfCnpj: Field<string>, senha: Field<string>)

  /** The advisor every self-registered client is assigned to. */
  const PORTAL_ASSESSOR := 1

  predicate HasRegisterFields(b: RegisterBody) {
    !b.nomeCompleto.Absent? && !b.email.Absent? && !b.cpfCnpj.Absent? && !b.senha.Absent?
  }

  /** The email lookup before inserting; a JSON null matches no row. */
  predicate EmailInUse(cs: map<int, Cliente>, f: Field<string>) {
    f.Given? && ClientByEmail(cs, f.value).Some?
  }

  /** The CPF/CNPJ lookup before inserting; a JSON null matches no row. */
  predicate CpfInUse(cs: map<int, Cliente>, f: Field<string>) {
    f.Given? && ClientByCpf(cs, f.value).Some?
  }

  /** The client row registration builds, before its password is set. */
  function PortalClient(nome: string, email: string, cpf: string): Cliente {
    Cliente(PORTAL_ASSESSOR, cpf, nome, email, None, STATUS_PENDENTE)
  }

  /**
   * `client_register`.  A missing key is 400; an email or CPF/CNPJ already
   * registered is 409; an empty or null password makes bcrypt raise (500);
   * a null name, email or CPF/CNPJ, a missing advisor 1 or a taken account
   * number fail the insert (409).  Otherwise the client, its account and
   * its portfolio are committed together.
   */
  function Register(t: Tables, body: Option<RegisterBody>): (r: Outcome)
    ensures r.status in {CREATED, BAD_REQUEST, CONFLICT, SERVER_ERROR}
    ensures r.status != CREATED ==> r.after == t
    ensures r.status == BAD_REQUEST <==> body.None? || !HasRegisterFields(body.value)
    ensures body.Some? && HasRegisterFields(body.value)
            && (EmailInUse(t.clientes, body.value.email) || CpfInUse(t.clientes, body.value.cpfCnpj))
            ==> r.status == CONFLICT
    ensures r.status == SERVER_ERROR <==>
              && body.Some? && HasRegisterFields(body.value)
              && !EmailInUse(t.clientes, body.value.email) && !CpfInUse(t.clientes, body.value.cpfCnpj)
              && !TruthyString(body.value.senha)
  {
    if body.None? || !HasRegisterFields(body.value) then Outcome(BAD_REQUEST, t)
    else
      var b := body.value;
      if EmailInUse(t.clientes, b.email) || CpfInUse(t.clientes, b.cpfCnpj) then Outcome(CONFLICT, t)
      else if !TruthyString(b.senha) then Outcome(SERVER_ERROR, t)
      else if !(b.nomeCompleto.Given? && b.email.Given? && b.cpfCnpj.Given?) then Outcome(CONFLICT, t)
      else if PORTAL_ASSESSOR !in t.assessores then Outcome(CONFLICT, t)
      else if AccountNumberTaken(t.contas, Text.AccountNumber(FreshKey(t.clientes))) then Outcome(CONFLICT, t)
      else
        var c := PortalClient(b.nomeCompleto.value, b.email.value, b.cpfCnpj.value).SetPassword(b.senha.value);
        Outcome(CREATED, OpenClient(t, c.value))
  }

  /**
   * A registration is accepted exactly when every field is given, the
   * password is not empty, the email and the CPF/CNPJ are new, advisor 1
   * exists and the new client's account number is free.
   */
  lemma RegisterAccepts(t: Tables, body: Option<RegisterBody>)
    ensures Register(t, body).status == CREATED <==>
      && body.Some?
      && body.value.nomeCompleto.Given? && body.value.email.Given? && body.value.cpfCnpj.Given?
      && TruthyString(body.value.senha)
      && (forall k :: k in t.clientes ==> t.clientes[k].email != body.value.email.value)
      && (forall k :: k in t.clientes ==> t.clientes[k].cpfCnpj != body.value.cpfCnpj.value)
      && PORTAL_ASSESSOR in t.assessores
      && !AccountNumberTaken(t.contas, Text.AccountNumber(FreshKey(t.clientes)))
  {
    if body.Some? && body.value.email.Given? && body.value.cpfCnpj.Given? {
      var b := body.value;
      assert EmailInUse(t.clientes, b.email) <==> exists k :: k in t.clientes && t.clientes[k].email == b.email.value;
      assert CpfInUse(t.clientes, b.cpfCnpj) <==> exists k :: k in t.clientes && t.clientes[k].cpfCnpj == b.cpfCnpj.value;
    }
  }

  /**
   * An accepted registration opens one client (see `Models.OpenClientEffect`
   * for the account and portfolio it comes with): pending compliance, under
   * advisor 1, with the given name, email and CPF/CNPJ, and the given
   * password set (which it then accepts, `Models.ClientPasswordRoundTrip`).
   */
  lemma RegisterCreatesClient(t: Tables, body: Option<RegisterBody>)
    requires Register(t, body).status == CREATED
    ensures var b := body.value; var c := Register(t, body).after.clientes[FreshKey(t.clientes)];
      && Register(t, body).after == OpenClient(t, c)
      && c.statusCompliance == STATUS_PENDENTE && c.assessorId == PORTAL_ASSESSOR
      && c.email == b.email.value && c.cpfCnpj == b.cpfCnpj.value && c.nomeCompleto == b.nomeCompleto.value
      && c == PortalClient(b.nomeCompleto.value, b.email.value, b.cpfCnpj.value).SetPassword(b.senha.value).value
  {
  }

  lemma RegisterPreservesValid(t: Tables, body: Option<RegisterBody>)
    requires t.Valid()
    ensures Register(t, body).after.Valid()
  {
    if Register(t, body).status == CREATED {
      var b := body.value;
      var c := PortalClient(b.nomeCompleto.value, b.email.value, b.cpfCnpj.value).SetPassword(b.senha.value).value;
      RegisterAccepts(t, body);
      OpenClientValid(t, c);
    }
  }

  /** `POST /portal/register`. */
  method ClientRegister(db: Database, body: Option<RegisterBody>) returns (status: int)
    modifies db
    ensures Outcome(status, db.tables) == Register(old(db.tables), body)
    ensures old(db.Valid()) ==> db.Valid()
  {
    var t := db.tables;
    if db.Valid() { RegisterPreservesValid(t, body); }
    if body.None? || !HasRegisterFields(body.value) {
      return BAD_REQUEST;
    }
    var b := body.value;
    if b.email.Given? && ClientByEmail(db.tables.clientes, b.email.value).Some? {
      return CONFLICT;
    }
    if b.cpfCnpj.Given? && ClientByCpf(db.tables.clientes, b.cpfCnpj.value).Some? {
      return CONFLICT;
    }
    if !TruthyString(b.senha) {
      return SERVER_ERROR;
    }
    if !(b.nomeCompleto.Given? && b.email.Given? && b.cpfCnpj.Given?) {
      return CONFLICT;
    }
    var novo := PortalClient(b.nomeCompleto.value, b.email.value, b.cpfCnpj.value).SetPassword(b.senha.value);
    if PORTAL_ASSESSOR !in db.tables.assessores {
      return CONFLICT;
    }
    var clienteId := FreshKey(db.tables.clientes);
    if AccountNumberTaken(db.tables.contas, Text.AccountNumber(clienteId)) {
      return CONFLICT;
    }
    var clientes := db.tables.clientes[clienteId := novo.value];
    var contas := db.tables.contas[FreshKey(db.tables.contas) := NewAccount(clienteId)];
    var portfolios := db.tables.portfolios[FreshKey(db.tables.portfolios) := Portfolio(clienteId, CARTEIRA_PRINCIPAL)];
    db.Commit(t.(clientes := clientes, contas := contas, portfolios := portfolios));
    status := CREATED;
  }

  // ----------------------------------------------------------------- portfolio

  /**
   * `GET /portal/meu-portfolio`.  Every failure (authentication or a client
   * without a portfolio) is caught by the route's own handler and answered
   * 500; otherwise the client's first portfolio, valued.
   */
  method GetMyPortfolio(db: Database, claims: Claims) returns (status: int, view: Option<Valuation.PortfolioView>)
    ensures status == OK <==> AuthenticatedClient(db.tables.clientes, claims).Authenticated?
                               && FirstPortfolioOf(db.tables.portfolios, claims.identity.value).Some?
    ensures status != OK ==> status == SERVER_ERROR && view.None?
    ensures status == OK ==> view.Some?
                             && view.value.portfolioId == FirstPortfolioOf(db.tables.portfolios, claims.identity.value).value
                             && Valuation.ValuedView(db.tables, view.value.portfolioId, view.value)
  {
    var auth := AuthenticatedClient(db.tables.clientes, claims);
    if !auth.Authenticated? {
      return SERVER_ERROR, None;
    }
    var first := FirstPortfolioOf(db.tables.portfolios, auth.clienteId);
    if first.None? {
      return SERVER_ERROR, None;
    }
    var pid := first.value;
    var v := Valuation.ValueStoredPortfolio(db.tables, pid);
    return OK, Some(v);
  }

  // --------------------------------------------------------------- suitability

  /** One element of the `respostas` list: an object (read with `.get('opcao_id')`) or any other JSON value. */
  datatype AnswerItem = AnswerObject(opcaoId: Field<int>) | NotAnObject

  /** The `respostas` key: a list, or some other JSON value. */
  datatype AnswersValue = AnswerList(items: seq<AnswerItem>) | NotAList

  /** The JSON body of `POST /portal/suitability/responder`. */
  datatype SuitabilityBody = SuitabilityBody(respostas: Field<AnswersValue>)

  /**
   * The option ids named by the answers (those whose `opcao_id` is truthy);
   * `None` when some element is not an object, where `.get` raises.
   */
  function SelectedOptionIds(items: seq<AnswerItem>): (r: Option<set<int>>)
    ensures r.None? <==> exists i :: 0 <= i < |items| && items[i].NotAnObject?
    ensures r.Some? ==> forall x :: x in r.value ==> x != 0
  {
    if exists i :: 0 <= i < |items| && items[i].NotAnObject? then None
    else Some(set i | 0 <= i < |items| && items[i].AnswerObject? && TruthyInt(items[i].opcaoId) :: items[i].opcaoId.value)
  }

  /** The running state of the loop over the chosen options. */
  datatype Tally = Tally(score: int, answered: set<int>, versions: set<int>)

  /** How the loop ends: it ran through, or it stopped at a repeated or a missing question. */
  datatype TallyResult = Counted(tally: Tally) | RepeatedQuestion | MissingQuestion

  /** The loop over the chosen options `todo`, in ascending id, from state `acc`. */
  function TallyFrom(os: map<int, OpcaoResposta>, ps: map<int, Pergunta>, todo: set<int>, acc: Tally): TallyResult
    requires todo <= os.Keys
    decreases todo
  {
    if todo == {} then Counted(acc)
    else
      var k := Sets.Min(todo);
      var o := os[k];
      if o.perguntaId !in ps then MissingQuestion
      else if o.perguntaId in acc.answered then RepeatedQuestion
      else TallyFrom(os, ps, todo - {k},
                     Tally(acc.score + o.pontos, acc.answered + {o.perguntaId},
                           acc.versions + {ps[o.perguntaId].versaoId}))
  }

  /** The points of the options `s`. */
  function PointsOf(os: map<int, OpcaoResposta>, s: set<int>): int
    requires s <= os.Keys
    decreases s
  {
    if s == {} then 0
    else
      var k := Sets.Min(s);
      os[k].pontos + PointsOf(os, s - {k})
  }

  /** The questions the options `s` answer. */
  function QuestionsOf(os: map<int, OpcaoResposta>, s: set<int>): set<int>
    requires s <= os.Keys
  {
    set k | k in s :: os[k].perguntaId
  }

  /** The questionnaire versions of the questions the options `s` answer. */
  function VersionsOf(os: map<int, OpcaoResposta>, ps: map<int, Pergunta>, s: set<int>): set<int>
    requires s <= os.Keys
  {
    set k | k in s && os[k].perguntaId in ps :: ps[os[k].perguntaId].versaoId
  }

  /** Every option of `s` answers a question that exists. */
  ghost predicate QuestionsExist(os: map<int, OpcaoResposta>, ps: map<int, Pergunta>, s: set<int>)
    requires s <= os.Keys
  {
    forall k :: k in s ==> os[k].perguntaId in ps
  }

  /** No two options of `s` answer the same question. */
  ghost predicate DistinctQuestions(os: map<int, OpcaoResposta>, s: set<int>)
    requires s <= os.Keys
  {
    forall i, j :: i in s && j in s && i != j ==> os[i].perguntaId != os[j].perguntaId
  }

  /** The questions of questionnaire version `v`. */
  function QuestionsOfVersion(ps: map<int, Pergunta>, v: int): set<int> {
    set k | k in ps && ps[k].versaoId == v
  }

  /**
   * Whatever the order, the loop runs through exactly when every chosen
   * option answers an existing question, no question twice and none answered
   * before; it then has added the options' points, questions and versions.
   * It never stops at a missing question when all questions exist.
   */
  lemma {:induction false} TallyMeaning(os: map<int, OpcaoResposta>, ps: map<int, Pergunta>, todo: set<int>, acc: Tally)
    requires todo <= os.Keys
    ensures TallyFrom(os, ps, todo, acc).Counted? <==>
              QuestionsExist(os, ps, todo) && DistinctQuestions(os, todo) && QuestionsOf(os, todo) !! acc.answered
    ensures TallyFrom(os, ps, todo, acc).Counted? ==>
              TallyFrom(os, ps, todo, acc).tally ==
                Tally(acc.score + PointsOf(os, todo), acc.answered + QuestionsOf(os, todo),
                      acc.versions + VersionsOf(os, ps, todo))
    ensures QuestionsExist(os, ps, todo) ==> !TallyFrom(os, ps, todo, acc).MissingQuestion?
    decreases todo
  {
    if todo != {} {
      var k := Sets.Min(todo);
      var q := os[k].perguntaId;
      var rest := todo - {k};
      SplitOptions(os, ps, todo, k);
      if q in ps && q !in acc.answered {
        TallyMeaning(os, ps, rest, Tally(acc.score + os[k].pontos, acc.answered + {q}, acc.versions + {ps[q].versaoId}));
      } else if q in ps {
        assert q in QuestionsOf(os, todo) * acc.answered;
      }
    }
  }

  /** Taking option `k` out of `s`: how the questions, versions and the two predicates split. */
  lemma SplitOptions(os: map<int, OpcaoResposta>, ps: map<int, Pergunta>, s: set<int>, k: int)
    requires s <= os.Keys && k in s
    ensures QuestionsOf(os, s) == QuestionsOf(os, s - {k}) + {os[k].perguntaId}
    ensures os[k].perguntaId in ps ==>
              VersionsOf(os, ps, s) == VersionsOf(os, ps, s - {k}) + {ps[os[k].perguntaId].versaoId}
    ensures QuestionsExist(os, ps, s) <==> QuestionsExist(os, ps, s - {k}) && os[k].perguntaId in ps
    ensures DistinctQuestions(os, s) <==> DistinctQuestions(os, s - {k}) && os[k].perguntaId !in QuestionsOf(os, s - {k})
  {
    var rest := s - {k};
    var q := os[k].perguntaId;
    if DistinctQuestions(os, rest) && q !in QuestionsOf(os, rest) {
      forall i, j | i in s && j in s && i != j ensures os[i].perguntaId != os[j].perguntaId {
        if i == k { assert os[j].perguntaId in QuestionsOf(os, rest); }
        else if j == k { assert os[i].perguntaId in QuestionsOf(os, rest); }
      }
    }
  }

  /** The profile for a total score: below 50 conservative, 50 to 80 moderate, above 80 aggressive. */
  function Profile(score: int): (p: string)
    ensures p in {PERFIL_CONSERVADOR, PERFIL_MODERADO, PERFIL_AGRESSIVO}
  {
    if 50 <= score <= 80 then PERFIL_MODERADO
    else if score > 80 then PERFIL_AGRESSIVO
    else PERFIL_CONSERVADOR
  }

  const PERFIL_CONSERVADOR := "Conservador"
  const PERFIL_MODERADO := "Moderado"
  const PERFIL_AGRESSIVO := "Agressivo"

  /** The profiles in order of risk. */
  function ProfileRank(p: string): int {
    if p == PERFIL_CONSERVADOR then 0 else if p == PERFIL_MODERADO then 1 else 2
  }

  /** A higher score never yields a more conservative profile. */
  lemma ProfileMonotone(a: int, b: int)
    requires a <= b
    ensures ProfileRank(Profile(a)) <= ProfileRank(Profile(b))
  {
  }

  /** The three bands of the score. */
  lemma ProfileBands(score: int)
    ensures Profile(score) == PERFIL_CONSERVADOR <==> score < 50
    ensures Profile(score) == PERFIL_MODERADO <==> 50 <= score <= 80
    ensures Profile(score) == PERFIL_AGRESSIVO <==> score > 80
  {
  }

  /**
   * The answers once the chosen options `found` are known: the loop, the
   * single-version and completeness checks, and the insert of the answer.
   */
  function RecordAnswers(t: Tables, clienteId: int, found: set<int>, now: int): (r: Outcome)
    requires found <= t.opcoes.Keys
    ensures r.status != CREATED ==> r.after == t
  {
    match TallyFrom(t.opcoes, t.perguntas, found, Tally(0, {}, {}))
    case MissingQuestion => Outcome(SERVER_ERROR, t)
    case RepeatedQuestion => Outcome(BAD_REQUEST, t)
    case Counted(tl) =>
      if |tl.versions| > 1 then Outcome(BAD_REQUEST, t)
      else if |tl.versions| == 0 then Outcome(SERVER_ERROR, t)
      else
        var versao := Sets.Min(tl.versions);
        if |tl.answered| != |QuestionsOfVersion(t.perguntas, versao)| then Outcome(BAD_REQUEST, t)
        else if versao !in t.versoes then Outcome(BAD_REQUEST, t)
        else Outcome(CREATED, t.(respostas := t.respostas[FreshKey(t.respostas) :=
                                   RespostaSuitability(clienteId, versao, now, tl.score, Profile(tl.score))]))
  }

  /** The options the answers choose: the existing options among the selected ids. */
  function ChosenOptions(os: map<int, OpcaoResposta>, ids: set<int>): (r: set<int>)
    ensures r <= os.Keys && r <= ids
    ensures forall k :: k in os && k in ids ==> k in r
  {
    os.Keys * ids
  }

  /**
   * `submit_my_suitability_answers`.  A PermissionError or ValueError from
   * authentication is 403 and a LookupError 404; a body without a
   * `respostas` list is 400; an element that is not an object raises (500);
   * no selected id, no option found or fewer options found than answers
   * given is 400.  `now` is the time the database stamps the answer with.
   */
  function Submit(t: Tables, claims: Claims, body: Option<SuitabilityBody>, now: int): (r: Outcome)
    ensures r.status != CREATED ==> r.after == t
  {
    match AuthenticatedClient(t.clientes, claims)
    case NotAClient => Outcome(FORBIDDEN, t)
    case InvalidIdentity => Outcome(FORBIDDEN, t)
    case UnknownClient => Outcome(NOT_FOUND, t)
    case Authenticated(clienteId) =>
      if body.None? || !body.value.respostas.Given? || !body.value.respostas.value.AnswerList? then
        Outcome(BAD_REQUEST, t)
      else
        var items := body.value.respostas.value.items;
        match SelectedOptionIds(items)
        case None => Outcome(SERVER_ERROR, t)
        case Some(ids) =>
          if ids == {} then Outcome(BAD_REQUEST, t)
          else
            var found := ChosenOptions(t.opcoes, ids);
            if found == {} || |found| != |items| then Outcome(BAD_REQUEST, t)
            else RecordAnswers(t, clienteId, found, now)
  }

  /**
   * A recorded answer is the client's, for the one version every chosen
   * option belongs to; the chosen options answer every question of that
   * version, each exactly once, and the score is the sum of their points
   * with the profile of that score.  Nothing else changes.
   */
  lemma RecordAnswersScores(t: Tables, clienteId: int, found: set<int>, now: int)
    requires found <= t.opcoes.Keys
    requires RecordAnswers(t, clienteId, found, now).status == CREATED
    ensures var t2 := RecordAnswers(t, clienteId, found, now).after;
            var a := t2.respostas[FreshKey(t.respostas)];
      && t2 == t.(respostas := t.respostas[FreshKey(t.respostas) := a])
      && a.clienteId == clienteId && a.dataResposta == now
      && a.versaoId in t.versoes
      && VersionsOf(t.opcoes, t.perguntas, found) == {a.versaoId}
      && QuestionsExist(t.opcoes, t.perguntas, found)
      && DistinctQuestions(t.opcoes, found)
      && QuestionsOf(t.opcoes, found) == QuestionsOfVersion(t.perguntas, a.versaoId)
      && a.pontuacaoTotal == PointsOf(t.opcoes, found)
      && a.perfilCalculado == Profile(a.pontuacaoTotal)
  {
    TallyMeaning(t.opcoes, t.perguntas, found, Tally(0, {}, {}));
    var tl := TallyFrom(t.opcoes, t.perguntas, found, Tally(0, {}, {})).tally;
    Sets.Singleton(tl.versions);
    var versao := Sets.Min(tl.versions);
    VersionQuestions(t.opcoes, t.perguntas, found, versao);
    Sets.SubsetOfSameSize(QuestionsOf(t.opcoes, found), QuestionsOfVersion(t.perguntas, versao));
  }

  /** Options whose questions all belong to version `v` answer only questions of `v`. */
  lemma VersionQuestions(os: map<int, OpcaoResposta>, ps: map<int, Pergunta>, found: set<int>, v: int)
    requires found <= os.Keys && QuestionsExist(os, ps, found)
    requires VersionsOf(os, ps, found) == {v}
    ensures QuestionsOf(os, found) <= QuestionsOfVersion(ps, v)
  {
    forall q | q in QuestionsOf(os, found) ensures q in QuestionsOfVersion(ps, v) {
      var k :| k in found && os[k].perguntaId == q;
      assert ps[q].versaoId in VersionsOf(os, ps, found);
    }
  }

  /**
   * With the tables valid, answers that pass the list checks but choose two
   * options of the same question are refused with 400.
   */
  lemma SubmitRejectsRepeatedQuestion(t: Tables, clienteId: int, found: set<int>, now: int, i: int, j: int)
    requires t.Valid()
    requires found <= t.opcoes.Keys
    requires i in found && j in found && i != j && t.opcoes[i].perguntaId == t.opcoes[j].perguntaId
    ensures RecordAnswers(t, clienteId, found, now).status == BAD_REQUEST
  {
    TallyMeaning(t.opcoes, t.perguntas, found, Tally(0, {}, {}));
    assert QuestionsExist(t.opcoes, t.perguntas, found);
  }

  /**
   * The converse of `RecordAnswersScores`: options that answer only
   * questions of one existing version, no question twice and every question
   * of that version are recorded (201) as an answer for that version.
   */
  lemma RecordAnswersAccepts(t: Tables, clienteId: int, found: set<int>, now: int, v: int)
    requires found <= t.opcoes.Keys && found != {} && v in t.versoes
    requires forall k :: k in found ==> t.opcoes[k].perguntaId in QuestionsOfVersion(t.perguntas, v)
    requires DistinctQuestions(t.opcoes, found)
    requires QuestionsOfVersion(t.perguntas, v) <= QuestionsOf(t.opcoes, found)
    ensures var r := RecordAnswers(t, clienteId, found, now);
            r.status == CREATED && r.after.respostas[FreshKey(t.respostas)].versaoId == v
  {
    TallyMeaning(t.opcoes, t.perguntas, found, Tally(0, {}, {}));
    assert QuestionsExist(t.opcoes, t.perguntas, found);
    Sets.NonEmptyHasMember(found);
    var k :| k in found;
    assert v in VersionsOf(t.opcoes, t.perguntas, found);
    assert VersionsOf(t.opcoes, t.perguntas, found) == {v};
    assert QuestionsOf(t.opcoes, found) == QuestionsOfVersion(t.perguntas, v);
    Sets.Singleton({v});
  }

  /** The option ids the first `n` answers select. */
  ghost function SelectedBefore(items: seq<AnswerItem>, n: nat): set<int>
    requires n <= |items|
  {
    set i | 0 <= i < n && items[i].AnswerObject? && TruthyInt(items[i].opcaoId) :: items[i].opcaoId.value
  }

  /** Each of the first `n` answers is an object naming a truthy option id, and no two name the same one. */
  ghost predicate DistinctSelections(items: seq<AnswerItem>, n: nat)
    requires n <= |items|
  {
    && (forall i :: 0 <= i < n ==> items[i].AnswerObject? && TruthyInt(items[i].opcaoId))
    && (forall i, j :: 0 <= i < j < n ==> items[i].opcaoId != items[j].opcaoId)
  }

  /** The ids of `n` answers: those of the first `n - 1`, and the last one's id when it names a truthy one. */
  lemma SelectedStep(items: seq<AnswerItem>, n: nat)
    requires 0 < n <= |items|
    ensures var x := items[n - 1];
            SelectedBefore(items, n) ==
              if x.AnswerObject? && TruthyInt(x.opcaoId) then SelectedBefore(items, n - 1) + {x.opcaoId.value}
              else SelectedBefore(items, n - 1)
  {
  }

  /**
   * `n` answers select at most `n` option ids, and exactly `n` only when each
   * names a truthy id of its own.
   */
  lemma {:induction false} SelectedCount(items: seq<AnswerItem>, n: nat)
    requires n <= |items|
    ensures |SelectedBefore(items, n)| <= n
    ensures |SelectedBefore(items, n)| == n ==> DistinctSelections(items, n)
    decreases n
  {
    if n == 0 {
      assert SelectedBefore(items, 0) == {};
    } else {
      SelectedCount(items, n - 1);
      SelectedStep(items, n);
      var prev := SelectedBefore(items, n - 1);
      var x := items[n - 1];
      if |SelectedBefore(items, n)| == n {
        assert x.AnswerObject? && TruthyInt(x.opcaoId) && x.opcaoId.value !in prev;
        forall i | 0 <= i < n - 1
          ensures items[i].opcaoId != x.opcaoId
        {
          assert items[i].opcaoId.value in prev;
        }
      }
    }
  }

  /** Answers that each name a truthy id of their own select as many ids as there are answers. */
  lemma {:induction false} DistinctSelectionsCount(items: seq<AnswerItem>, n: nat)
    requires n <= |items| && DistinctSelections(items, n)
    ensures |SelectedBefore(items, n)| == n
    decreases n
  {
    if n == 0 {
      assert SelectedBefore(items, 0) == {};
    } else {
      DistinctSelectionsCount(items, n - 1);
      SelectedStep(items, n);
      var x := items[n - 1];
      forall i | 0 <= i < n - 1
        ensures items[i].opcaoId.value != x.opcaoId.value
      {
        assert items[i].opcaoId != x.opcaoId;
      }
      assert x.opcaoId.value !in SelectedBefore(items, n - 1);
    }
  }

  /**
   * The answers the route can record: an authenticated client, and a
   * `respostas` list of objects naming distinct, existing options.
   */
  ghost predicate DistinctExistingAnswers(t: Tables, claims: Claims, body: Option<SuitabilityBody>) {
    && AuthenticatedClient(t.clientes, claims).Authenticated?
    && body.Some? && body.value.respostas.Given? && body.value.respostas.value.AnswerList?
    && var items := body.value.respostas.value.items;
       && |items| > 0 && DistinctSelections(items, |items|)
       && forall i :: 0 <= i < |items| ==> items[i].opcaoId.value in t.opcoes
  }

  /** The option ids a `respostas` list names. */
  ghost function NamedOptions(body: Option<SuitabilityBody>): set<int>
    requires body.Some? && body.value.respostas.Given? && body.value.respostas.value.AnswerList?
  {
    SelectedBefore(body.value.respostas.value.items, |body.value.respostas.value.items|)
  }

  /**
   * `submit_my_suitability_answers` answers 201 only for distinct, existing
   * answers (what the check `len(opcoes_escolhidas) != len(respostas)`
   * leaves through), and for those it does exactly what `RecordAnswers`
   * does with the options they name.
   */
  lemma SubmitAccepts(t: Tables, claims: Claims, body: Option<SuitabilityBody>, now: int)
    ensures Submit(t, claims, body, now).status == CREATED <==>
              DistinctExistingAnswers(t, claims, body)
              && RecordAnswers(t, claims.identity.value, NamedOptions(body), now).status == CREATED
    ensures DistinctExistingAnswers(t, claims, body) ==>
              Submit(t, claims, body, now) == RecordAnswers(t, claims.identity.value, NamedOptions(body), now)
  {
    if Submit(t, claims, body, now).status == CREATED {
      SubmitCreatedChecks(t, claims, body, now);
    }
    if DistinctExistingAnswers(t, claims, body) {
      SubmitRecordsNamed(t, claims, body, now);
    }
  }

  /** A 201 passed every list check, so the answers were distinct and existing. */
  lemma SubmitCreatedChecks(t: Tables, claims: Claims, body: Option<SuitabilityBody>, now: int)
    requires Submit(t, claims, body, now).status == CREATED
    ensures DistinctExistingAnswers(t, claims, body)
  {
    var items := body.value.respostas.value.items;
    var ids := SelectedBefore(items, |items|);
    assert SelectedOptionIds(items) == Some(ids);
    var found := ChosenOptions(t.opcoes, ids);
    SelectedCount(items, |items|);
    assert ids == found + (ids - found);
    Sets.SubsetOfSameSize(found, ids);
    forall i | 0 <= i < |items|
      ensures items[i].opcaoId.value in t.opcoes
    {
      assert items[i].opcaoId.value in ids;
    }
  }

  /** Distinct, existing answers pass the list checks and reach `RecordAnswers` with the options they name. */
  lemma SubmitRecordsNamed(t: Tables, claims: Claims, body: Option<SuitabilityBody>, now: int)
    requires DistinctExistingAnswers(t, claims, body)
    ensures Submit(t, claims, body, now) == RecordAnswers(t, claims.identity.value, NamedOptions(body), now)
  {
    var items := body.value.respostas.value.items;
    var ids := SelectedBefore(items, |items|);
    DistinctSelectionsCount(items, |items|);
    assert SelectedOptionIds(items) == Some(ids);
    assert items[0].opcaoId.value in ids;
    assert ChosenOptions(t.opcoes, ids) == ids;
  }

  lemma SubmitPreservesValid(t: Tables, claims: Claims, body: Option<SuitabilityBody>, now: int)
    requires t.Valid()
    ensures Submit(t, claims, body, now).after.Valid()
  {
    var r := Submit(t, claims, body, now);
    if r.status == CREATED {
      var clienteId := claims.identity.value;
      var ids := SelectedOptionIds(body.value.respostas.value.items).value;
      var found := ChosenOptions(t.opcoes, ids);
      RecordAnswersScores(t, clienteId, found, now);
      var a := r.after.respostas[FreshKey(t.respostas)];
      assert AnswersReference(r.after.respostas, t.clientes, t.versoes);
    }
  }

  /** `POST /portal/suitability/responder`. */
  method SubmitSuitabilityAnswers(db: Database, claims: Claims, body: Option<SuitabilityBody>, now: int)
    returns (status: int)
    modifies db
    ensures Outcome(status, db.tables) == Submit(old(db.tables), claims, body, now)
    ensures old(db.Valid()) ==> db.Valid()
  {
    var t := db.tables;
    if db.Valid() { SubmitPreservesValid(t, claims, body, now); }
    var auth := AuthenticatedClient(db.tables.clientes, claims);
    if auth.NotAClient? || auth.InvalidIdentity? {
      return FORBIDDEN;
    }
    if auth.UnknownClient? {
      return NOT_FOUND;
    }
    if body.None? || !body.value.respostas.Given? || !body.value.respostas.value.AnswerList? {
      return BAD_REQUEST;
    }
    var items := body.value.respostas.value.items;
    var selected := SelectedOptionIds(items);
    if selected.None? {
      return SERVER_ERROR;
    }
    if selected.value == {} {
      return BAD_REQUEST;
    }
    var found := ChosenOptions(db.tables.opcoes, selected.value);
    if found == {} || |found| != |items| {
      return BAD_REQUEST;
    }
    status := RecordChosenAnswers(db, auth.clienteId, found, now);
  }

  /** The loop over the chosen options and the insert of the answer. */
  method RecordChosenAnswers(db: Database, clienteId: int, found: set<int>, now: int) returns (status: int)
    requires found <= db.tables.opcoes.Keys
    modifies db
    ensures Outcome(status, db.tables) == RecordAnswers(old(db.tables), clienteId, found, now)
  {
    var pontuacaoTotal := 0;
    var perguntasRespondidas: set<int> := {};
    var versoesIds: set<int> := {};
    var todo := found;
    while todo != {}
      invariant todo <= found
      invariant db.tables == old(db.tables)
      invariant TallyFrom(db.tables.opcoes, db.tables.perguntas, todo, Tally(pontuacaoTotal, perguntasRespondidas, versoesIds))
                == TallyFrom(db.tables.opcoes, db.tables.perguntas, found, Tally(0, {}, {}))
      decreases todo
    {
      var k := Sets.Min(todo);
      var opcao := db.tables.opcoes[k];
      if opcao.perguntaId !in db.tables.perguntas {
        return SERVER_ERROR;
      }
      if opcao.perguntaId in perguntasRespondidas {
        return BAD_REQUEST;
      }
      pontuacaoTotal := pontuacaoTotal + opcao.pontos;
      perguntasRespondidas := perguntasRespondidas + {opcao.perguntaId};
      versoesIds := versoesIds + {db.tables.perguntas[opcao.perguntaId].versaoId};
      todo := todo - {k};
    }
    if |versoesIds| > 1 {
      return BAD_REQUEST;
    }
    if |versoesIds| == 0 {
      return SERVER_ERROR;
    }
    var versao := Sets.Min(versoesIds);
    if |perguntasRespondidas| != |QuestionsOfVersion(db.tables.perguntas, versao)| {
      return BAD_REQUEST;
    }
    if versao !in db.tables.versoes {
      return BAD_REQUEST;
    }
    var resposta := RespostaSuitability(clienteId, versao, now, pontuacaoTotal, Profile(pontuacaoTotal));
    db.Commit(db.tables.(respostas := db.tables.respostas[FreshKey(db.tables.respostas) := resposta]));
    status := CREATED;
  }

  // ------------------------------------------------------- deposits, withdrawals

  /** The JSON body of a deposit or a withdrawal. */
  datatype CashBody = CashBody(valor: Field<DecimalText>)

  /** A validated cash request: the client's account and a positive amount. */
  datatype CashRequest = CashRequest(contaId: int, valor: real)

  /**
   * The checks a deposit and a withdrawal share.  Authentication errors and
   * a missing `valor` key (KeyError, a LookupError) are 403; a missing body
   * or an amount `Decimal` cannot read is 500; an amount not above zero is
   * 400; a client without an account is 500 (`first_or_404` raises outside
   * the 403 handler).
   */
  function CheckCash(t: Tables, claims: Claims, body: Option<CashBody>): (r: Checked<CashRequest>)
    ensures r.Pass? ==> r.value.valor > 0.0
    ensures r.Pass? ==> AuthenticatedClient(t.clientes, claims).Authenticated?
                        && FirstAccountOf(t.contas, claims.identity.value) == Some(r.value.contaId)
    ensures r.Fail? ==> r.status in {FORBIDDEN, BAD_REQUEST, SERVER_ERROR}
    ensures r == Fail(FORBIDDEN) <==>
              !AuthenticatedClient(t.clientes, claims).Authenticated? || (body.Some? && body.value.valor.Absent?)
    ensures r == Fail(BAD_REQUEST) <==>
              && AuthenticatedClient(t.clientes, claims).Authenticated? && body.Some?
              && ParseDecimal(body.value.valor).Some? && ParseDecimal(body.value.valor).value <= 0.0
    ensures r.Pass? <==>
              && AuthenticatedClient(t.clientes, claims).Authenticated? && body.Some?
              && ParseDecimal(body.value.valor).Some? && ParseDecimal(body.value.valor).value > 0.0
              && FirstAccountOf(t.contas, claims.identity.value).Some?
    ensures r.Pass? ==> r.value.valor == ParseDecimal(body.value.valor).value
  {
    var auth := AuthenticatedClient(t.clientes, claims);
    if !auth.Authenticated? then Fail(FORBIDDEN)
    else if body.None? then Fail(SERVER_ERROR)
    else if body.value.valor.Absent? then Fail(FORBIDDEN)
    else match ParseDecimal(body.value.valor)
      case None => Fail(SERVER_ERROR)
      case Some(v) =>
        if v <= 0.0 then Fail(BAD_REQUEST)
        else match FirstAccountOf(t.contas, auth.clienteId)
          case None => Fail(SERVER_ERROR)
          case Some(c) => Pass(CashRequest(c, v))
  }

  const TIPO_DEPOSITO := "Deposito"
  const TIPO_SAQUE := "Saque"

  /** The movement a deposit of `v` into account `c` records. */
  function DepositMovement(c: int, v: real): Movimentacao {
    Movimentacao(None, Some(c), TIPO_DEPOSITO, v, MOVIMENTACAO_PROCESSADA)
  }

  /** The movement a withdrawal of `v` from account `c` records. */
  function WithdrawalMovement(c: int, v: real): Movimentacao {
    Movimentacao(Some(c), None, TIPO_SAQUE, v, MOVIMENTACAO_PROCESSADA)
  }

  /** Account `c` with its balance moved by `delta`. */
  function Adjusted(ct: map<int, Conta>, c: int, delta: real): map<int, Conta>
    requires c in ct
  {
    ct[c := ct[c].(saldo := ct[c].saldo + delta)]
  }

  /** `client_make_deposit`. */
  function Deposit(t: Tables, claims: Claims, body: Option<CashBody>): (r: Outcome)
    ensures r.status != OK ==> r.after == t
    ensures r.status == OK <==> CheckCash(t, claims, body).Pass?
    ensures CheckCash(t, claims, body).Fail? ==> r.status == CheckCash(t, claims, body).status
  {
    match CheckCash(t, claims, body)
    case Fail(s) => Outcome(s, t)
    case Pass(CashRequest(c, v)) =>
      Outcome(OK, t.(contas := Adjusted(t.contas, c, v),
                     movimentacoes := t.movimentacoes[FreshKey(t.movimentacoes) := DepositMovement(c, v)]))
  }

  /** `client_make_withdrawal`: as a deposit, and a balance below the amount is 400. */
  function Withdraw(t: Tables, claims: Claims, body: Option<CashBody>): (r: Outcome)
    ensures r.status != OK ==> r.after == t
    ensures r.status == OK <==>
              CheckCash(t, claims, body).Pass? && t.contas[CheckCash(t, claims, body).value.contaId].saldo >= CheckCash(t, claims, body).value.valor
    ensures CheckCash(t, claims, body).Fail? ==> r.status == CheckCash(t, claims, body).status
  {
    match CheckCash(t, claims, body)
    case Fail(s) => Outcome(s, t)
    case Pass(CashRequest(c, v)) =>
      if t.contas[c].saldo < v then Outcome(BAD_REQUEST, t)
      else Outcome(OK, t.(contas := Adjusted(t.contas, c, -v),
                          movimentacoes := t.movimentacoes[FreshKey(t.movimentacoes) := WithdrawalMovement(c, v)]))
  }

  /** An account's balance. */
  function Balance(c: Conta): real {
    c.saldo
  }

  /**
   * A deposit raises the balance of the client's first account by exactly
   * the (positive) amount and records one processed "Deposito" movement into
   * it; no other account changes, and the sum of all balances rises by the
   * amount.
   */
  lemma DepositCredits(t: Tables, claims: Claims, body: Option<CashBody>)
    requires Deposit(t, claims, body).status == OK
    ensures var t2 := Deposit(t, claims, body).after; var c := FirstAccountOf(t.contas, claims.identity.value).value;
            var v := ParseDecimal(body.value.valor).value;
      && v > 0.0
      && t2.contas.Keys == t.contas.Keys
      && t2.contas[c].saldo == t.contas[c].saldo + v
      && (forall k :: k in t.contas && k != c ==> t2.contas[k] == t.contas[k])
      && t2.movimentacoes == t.movimentacoes[FreshKey(t.movimentacoes) := DepositMovement(c, v)]
      && Rows.SumBy(t2.contas, Balance) == Rows.SumBy(t.contas, Balance) + v
      && t2 == t.(contas := t2.contas, movimentacoes := t2.movimentacoes)
  {
    var r := CheckCash(t, claims, body).value;
    var c2 := Adjusted(t.contas, r.contaId, r.valor);
    assert Deposit(t, claims, body).after.contas == c2;
    Rows.SumByUpdate(t.contas, Balance, r.contaId, c2[r.contaId]);
  }

  /**
   * A withdrawal is refused exactly when the balance is below the amount;
   * otherwise it lowers the balance by exactly the amount, leaving it
   * non-negative, records one processed "Saque" movement out of the
   * account, and lowers the sum of all balances by the amount.
   */
  lemma WithdrawalDebits(t: Tables, claims: Claims, body: Option<CashBody>)
    requires CheckCash(t, claims, body).Pass?
    ensures var r := CheckCash(t, claims, body).value; var c := r.contaId; var v := r.valor;
            var w := Withdraw(t, claims, body);
      && (w.status == BAD_REQUEST <==> t.contas[c].saldo < v)
      && (w.status == OK ==>
            && w.after.contas.Keys == t.contas.Keys
            && w.after.contas[c].saldo == t.contas[c].saldo - v >= 0.0
            && (forall k :: k in t.contas && k != c ==> w.after.contas[k] == t.contas[k])
            && w.after.movimentacoes == t.movimentacoes[FreshKey(t.movimentacoes) := WithdrawalMovement(c, v)]
            && Rows.SumBy(w.after.contas, Balance) == Rows.SumBy(t.contas, Balance) - v
            && w.after == t.(contas := w.after.contas, movimentacoes := w.after.movimentacoes))
  {
    var r := CheckCash(t, claims, body).value;
    var c2 := Adjusted(t.contas, r.contaId, -r.valor);
    if t.contas[r.contaId].saldo >= r.valor {
      assert Withdraw(t, claims, body).after.contas == c2;
    }
    Rows.SumByUpdate(t.contas, Balance, r.contaId, c2[r.contaId]);
  }

  /** Moving one balance by `delta` keeps the ledger valid when the balance stays non-negative and the movement refers to existing accounts. */
  lemma CashMoveValid(t: Tables, c: int, delta: real, m: Movimentacao)
    requires t.Valid() && c in t.contas && t.contas[c].saldo + delta >= 0.0
    requires m.contaOrigemId.Some? ==> m.contaOrigemId.value in t.contas
    requires m.contaDestinoId.Some? ==> m.contaDestinoId.value in t.contas
    ensures t.(contas := Adjusted(t.contas, c, delta),
               movimentacoes := t.movimentacoes[FreshKey(t.movimentacoes) := m]).Valid()
  {
    var t2 := t.(contas := Adjusted(t.contas, c, delta),
                 movimentacoes := t.movimentacoes[FreshKey(t.movimentacoes) := m]);
    assert UniqueAccountNumbers(t2.contas);
    assert NonNegativeBalances(t2.contas);
    assert AccountsReference(t2.contas, t2.clientes);
    assert MovementsReference(t2.movimentacoes, t2.contas);
    assert OrdersReference(t2.ordens, t2.portfolios, t2.produtos, t2.movimentacoes);
    LedgerChangeValid(t, t2);
  }

  lemma DepositPreservesValid(t: Tables, claims: Claims, body: Option<CashBody>)
    requires t.Valid()
    ensures Deposit(t, claims, body).after.Valid()
  {
    if CheckCash(t, claims, body).Pass? {
      var r := CheckCash(t, claims, body).value;
      CashMoveValid(t, r.contaId, r.valor, DepositMovement(r.contaId, r.valor));
    }
  }

  lemma WithdrawPreservesValid(t: Tables, claims: Claims, body: Option<CashBody>)
    requires t.Valid()
    ensures Withdraw(t, claims, body).after.Valid()
  {
    if CheckCash(t, claims, body).Pass? {
      var r := CheckCash(t, claims, body).value;
      if t.contas[r.contaId].saldo >= r.valor {
        CashMoveValid(t, r.contaId, -r.valor, WithdrawalMovement(r.contaId, r.valor));
        assert Withdraw(t, claims, body).after == t.(contas := Adjusted(t.contas, r.contaId, -r.valor),
          movimentacoes := t.movimentacoes[FreshKey(t.movimentacoes) := WithdrawalMovement(r.contaId, r.valor)]);
      }
    }
  }

  /** The shared checks of `POST /portal/deposito` and `POST /portal/saque`. */
  method ReadCashRequest(db: Database, claims: Claims, body: Option<CashBody>) returns (r: Checked<CashRequest>)
    ensures r == CheckCash(db.tables, claims, body)
  {
    var auth := AuthenticatedClient(db.tables.clientes, claims);
    if !auth.Authenticated? {
      return Fail(FORBIDDEN);
    }
    if body.None? {
      return Fail(SERVER_ERROR);
    }
    if body.value.valor.Absent? {
      return Fail(FORBIDDEN);
    }
    var valor := ParseDecimal(body.value.valor);
    if valor.None? {
      return Fail(SERVER_ERROR);
    }
    if valor.value <= 0.0 {
      return Fail(BAD_REQUEST);
    }
    var conta := FirstAccountOf(db.tables.contas, auth.clienteId);
    if conta.None? {
      return Fail(SERVER_ERROR);
    }
    return Pass(CashRequest(conta.value, valor.value));
  }

  /** `POST /portal/deposito`. */
  method MakeDeposit(db: Database, claims: Claims, body: Option<CashBody>) returns (status: int)
    modifies db
    ensures Outcome(status, db.tables) == Deposit(old(db.tables), claims, body)
    ensures old(db.Valid()) ==> db.Valid()
  {
    var t := db.tables;
    if db.Valid() { DepositPreservesValid(t, claims, body); }
    var request := ReadCashRequest(db, claims, body);
    if request.Fail? {
      return request.status;
    }
    var c, v := request.value.contaId, request.value.valor;
    var contas := Adjusted(db.tables.contas, c, v);
    var movimentacoes := db.tables.movimentacoes[FreshKey(db.tables.movimentacoes) := DepositMovement(c, v)];
    db.CommitLedger(contas, movimentacoes, db.tables.ordens, db.tables.posicoes);
    status := OK;
  }

  /** `POST /portal/saque`. */
  method MakeWithdrawal(db: Database, claims: Claims, body: Option<CashBody>) returns (status: int)
    modifies db
    ensures Outcome(status, db.tables) == Withdraw(old(db.tables), claims, body)
    ensures old(db.Valid()) ==> db.Valid()
  {
    var t := db.tables;
    if db.Valid() { WithdrawPreservesValid(t, claims, body); }
    var request := ReadCashRequest(db, claims, body);
    if request.Fail? {
      return request.status;
    }
    var c, v := request.value.contaId, request.value.valor;
    if db.tables.contas[c].saldo < v {
      return BAD_REQUEST;
    }
    var contas := Adjusted(db.tables.contas, c, -v);
    var movimentacoes := db.tables.movimentacoes[FreshKey(db.tables.movimentacoes) := WithdrawalMovement(c, v)];
    db.CommitLedger(contas, movimentacoes, db.tables.ordens, db.tables.posicoes);
    status := OK;
  }
}

=== FILE: client_routes.dfy ===
/**
 * The advisor's client routes (`/clientes`): list and read the advisor's
 * own clients, open a client (with its account and portfolio), change a
 * client's name and email, delete a client, and change a client's
 * compliance status with an audit record.
 *
 * An identity that is not an integer makes `int(...)` raise ValueError,
 * which the application-wide handler answers with 400.  A client of another
 * advisor is answered 404 (`first_or_404`), exactly like a missing one.
 */
module ClientRoutes {
  import opened Wrappers
  import opened Requests
  import opened Models
  import Text

  // ------------------------------------------------------------------ reading

  /** `GET /clientes`: every client of the requesting advisor, and no other. */
  function ListClients(t: Tables, claims: Claims): (r: Checked<map<int, Cliente>>)
    ensures r.Fail? <==> claims.identity.None?
    ensures r.Fail? ==> r.status == BAD_REQUEST
    ensures r.Pass? ==> forall k :: k in r.value <==> AdvisesClient(t.clientes, claims.identity.value, k)
    ensures r.Pass? ==> forall k :: k in r.value ==> k in t.clientes && r.value[k] == t.clientes[k]
  {
    if claims.identity.None? then Fail(BAD_REQUEST)
    else Pass(map k | k in t.clientes && t.clientes[k].assessorId == claims.identity.value :: t.clientes[k])
  }

  /** `GET /clientes/<id>`: the client, when it is one of the requesting advisor's. */
  function GetClient(t: Tables, claims: Claims, id: int): (r: Checked<Cliente>)
    ensures r == Fail(BAD_REQUEST) <==> claims.identity.None?
    ensures r == Fail(NOT_FOUND) <==> claims.identity.Some? && !AdvisesClient(t.clientes, claims.identity.value, id)
    ensures r.Fail? ==> r.status in {BAD_REQUEST, NOT_FOUND}
    ensures r.Pass? ==> id in t.clientes && r.value == t.clientes[id] && r.value.assessorId == claims.identity.value
  {
    if claims.identity.None? then Fail(BAD_REQUEST)
    else if !AdvisesClient(t.clientes, claims.identity.value, id) then Fail(NOT_FOUND)
    else Pass(t.clientes[id])
  }

  /**
   * The two reads agree: a client can be read exactly when it is in the
   * advisor's listing, and is read as listed.  Two advisors' listings never
   * share a client.
   */
  lemma ReadsAgree(t: Tables, claims: Claims, other: Claims, id: int)
    ensures GetClient(t, claims, id).Pass? <==> ListClients(t, claims).Pass? && id in ListClients(t, claims).value
    ensures GetClient(t, claims, id).Pass? ==> GetClient(t, claims, id).value == ListClients(t, claims).value[id]
    ensures ListClients(t, claims).Pass? && ListClients(t, other).Pass? && claims.identity != other.identity ==>
              ListClients(t, claims).value.Keys !! ListClients(t, other).value.Keys
  {
  }

  // ----------------------------------------------------------------- creating

  /** The JSON body of `POST /clientes`. */
  datatype ClientBody = ClientBody(cpfCnpj: Field<string>, nomeCompleto: Field<string>, email: Field<string>,
                                   senha: Field<string>)

  /** The client row an advisor opens, before its password is set: pending compliance. */
  function AdvisorClient(a: int, cpf: string, nome: string, email: string): Cliente {
    Cliente(a, cpf, nome, email, None, STATUS_PENDENTE)
  }

  /**
   * `create_cliente`.  Everything after reading the identity runs inside a
   * `try` whose handler answers 409 when the database reports a UNIQUE
   * violation and 400 for any other error: a missing body, an empty or
   * missing password, a missing key, a null column, an advisor that does
   * not exist (the foreign key) are 400; an email or CPF/CNPJ already
   * registered, or a taken account number, is 409.
   */
  function CreateClient(t: Tables, claims: Claims, body: Option<ClientBody>): (r: Outcome)
    ensures r.status in {CREATED, BAD_REQUEST, CONFLICT}
    ensures r.status != CREATED ==> r.after == t
  {
    if claims.identity.None? || body.None? then Outcome(BAD_REQUEST, t)
    else
      var b := body.value;
      var a := claims.identity.value;
      if !TruthyString(b.senha) then Outcome(BAD_REQUEST, t)
      else if !(b.cpfCnpj.Given? && b.nomeCompleto.Given? && b.email.Given?) then Outcome(BAD_REQUEST, t)
      else if ClientByEmail(t.clientes, b.email.value).Some? || ClientByCpf(t.clientes, b.cpfCnpj.value).Some? then
        Outcome(CONFLICT, t)
      else if a !in t.assessores then Outcome(BAD_REQUEST, t)
      else if AccountNumberTaken(t.contas, Text.AccountNumber(FreshKey(t.clientes))) then Outcome(CONFLICT, t)
      else
        var c := AdvisorClient(a, b.cpfCnpj.value, b.nomeCompleto.value, b.email.value).SetPassword(b.senha.value);
        Outcome(CREATED, OpenClient(t, c.value))
  }

  /**
   * A client is opened exactly when the identity is an existing advisor,
   * every field is given, the password is not empty, the email and the
   * CPF/CNPJ are new and the account number is free.  A 409 means exactly
   * that everything else was in order but the email or CPF/CNPJ is taken,
   * or the account number is.
   */
  lemma CreateClientAccepts(t: Tables, claims: Claims, body: Option<ClientBody>)
    ensures CreateClient(t, claims, body).status == CREATED <==>
      && claims.identity.Some? && claims.identity.value in t.assessores && body.Some?
      && body.value.cpfCnpj.Given? && body.value.nomeCompleto.Given? && body.value.email.Given?
      && TruthyString(body.value.senha)
      && (forall k :: k in t.clientes ==> t.clientes[k].email != body.value.email.value)
      && (forall k :: k in t.clientes ==> t.clientes[k].cpfCnpj != body.value.cpfCnpj.value)
      && !AccountNumberTaken(t.contas, Text.AccountNumber(FreshKey(t.clientes)))
    ensures CreateClient(t, claims, body).status == CONFLICT <==>
      && claims.identity.Some? && body.Some?
      && body.value.cpfCnpj.Given? && body.value.nomeCompleto.Given? && body.value.email.Given?
      && TruthyString(body.value.senha)
      && ((exists k :: k in t.clientes && t.clientes[k].email == body.value.email.value)
          || (exists k :: k in t.clientes && t.clientes[k].cpfCnpj == body.value.cpfCnpj.value)
          || (claims.identity.value in t.assessores && AccountNumberTaken(t.contas, Text.AccountNumber(FreshKey(t.clientes)))))
  {
    if claims.identity.Some? && body.Some? && body.value.email.Given? && body.value.cpfCnpj.Given? {
      var b := body.value;
      assert ClientByEmail(t.clientes, b.email.value).Some? <==>
             exists k :: k in t.clientes && t.clientes[k].email == b.email.value;
      assert ClientByCpf(t.clientes, b.cpfCnpj.value).Some? <==>
             exists k :: k in t.clientes && t.clientes[k].cpfCnpj == b.cpfCnpj.value;
    }
  }

  /**
   * The opened client is the requesting advisor's, pending compliance, with
   * the given name, email, CPF/CNPJ and password; it then appears in that
   * advisor's listing, under the next client id.
   */
  lemma CreateClientOpens(t: Tables, claims: Claims, body: Option<ClientBody>)
    requires CreateClient(t, claims, body).status == CREATED
    ensures var b := body.value; var id := FreshKey(t.clientes); var after := CreateClient(t, claims, body).after;
      && id !in t.clientes
      && after == OpenClient(t, after.clientes[id])
      && after.clientes[id].assessorId == claims.identity.value
      && after.clientes[id].statusCompliance == STATUS_PENDENTE
      && after.clientes[id].email == b.email.value && after.clientes[id].cpfCnpj == b.cpfCnpj.value
      && after.clientes[id].nomeCompleto == b.nomeCompleto.value
      && after.clientes[id].CheckPassword(b.senha.value)
      && id in ListClients(after, claims).value
  {
    var b := body.value;
    var c := AdvisorClient(claims.identity.value, b.cpfCnpj.value, b.nomeCompleto.value, b.email.value);
    ClientPasswordRoundTrip(c, b.senha.value, b.senha.value);
  }

  lemma CreateClientPreservesValid(t: Tables, claims: Claims, body: Option<ClientBody>)
    requires t.Valid()
    ensures CreateClient(t, claims, body).after.Valid()
  {
    if CreateClient(t, claims, body).status == CREATED {
      var b := body.value;
      var c := AdvisorClient(claims.identity.value, b.cpfCnpj.value, b.nomeCompleto.value, b.email.value)
               .SetPassword(b.senha.value).value;
      CreateClientAccepts(t, claims, body);
      OpenClientValid(t, c);
    }
  }

  /** `POST /clientes`. */
  method CreateCliente(db: Database, claims: Claims, body: Option<ClientBody>) returns (status: int)
    modifies db
    ensures Outcome(status, db.tables) == CreateClient(old(db.tables), claims, body)
    ensures old(db.Valid()) ==> db.Valid()
  {
    var t := db.tables;
    if db.Valid() {
      CreateClientPreservesValid(t, claims, body);
    }
    if claims.identity.None? || body.None? {
      return BAD_REQUEST;
    }
    var b := body.value;
    var a := claims.identity.value;
    if !TruthyString(b.senha) {
      return BAD_REQUEST;
    }
    if !(b.cpfCnpj.Given? && b.nomeCompleto.Given? && b.email.Given?) {
      return BAD_REQUEST;
    }
    var novo := AdvisorClient(a, b.cpfCnpj.value, b.nomeCompleto.value, b.email.value).SetPassword(b.senha.value);
    if ClientByEmail(t.clientes, b.email.value).Some? || ClientByCpf(t.clientes, b.cpfCnpj.value).Some? {
      return CONFLICT;
    }
    if a !in t.assessores {
      return BAD_REQUEST;
    }
    var clienteId := FreshKey(t.clientes);
    if AccountNumberTaken(t.contas, Text.AccountNumber(clienteId)) {
      return CONFLICT;
    }
    var clientes := t.clientes[clienteId := novo.value];
    var contas := t.contas[FreshKey(t.contas) := NewAccount(clienteId)];
    var portfolios := t.portfolios[FreshKey(t.portfolios) := Portfolio(clienteId, CARTEIRA_PRINCIPAL)];
    db.Commit(t.(clientes := clientes, contas := contas, portfolios := portfolios));
    status := CREATED;
  }

  // ----------------------------------------------------------------- updating

  /** The JSON body of `PUT /clientes/<id>`. */
  datatype UpdateBody = UpdateBody(nomeCompleto: Field<string>, email: Field<string>)

  /** Whether a client other than `id` has email `e` (the unique Email column). */
  predicate EmailOfAnother(cs: map<int, Cliente>, id: int, e: string) {
    exists k :: k in cs && k != id && cs[k].email == e
  }

  /**
   * `update_cliente`: the name and the email each take the body's value, or
   * keep theirs when the key is missing.  A missing body, a null value or
   * another client's email make the request fail outside any handler (500).
   */
  function UpdateClient(t: Tables, claims: Claims, id: int, body: Option<UpdateBody>): (r: Outcome)
    ensures r.status in {OK, BAD_REQUEST, NOT_FOUND, SERVER_ERROR}
    ensures r.status != OK ==> r.after == t
    ensures r.status == BAD_REQUEST <==> claims.identity.None?
    ensures r.status == NOT_FOUND <==> claims.identity.Some? && !AdvisesClient(t.clientes, claims.identity.value, id)
    ensures r.status == OK <==>
              && claims.identity.Some? && AdvisesClient(t.clientes, claims.identity.value, id)
              && body.Some? && !body.value.nomeCompleto.Null? && !body.value.email.Null?
              && !EmailOfAnother(t.clientes, id, if body.value.email.Given? then body.value.email.value else t.clientes[id].email)
  {
    if claims.identity.None? then Outcome(BAD_REQUEST, t)
    else if !AdvisesClient(t.clientes, claims.identity.value, id) then Outcome(NOT_FOUND, t)
    else if body.None? then Outcome(SERVER_ERROR, t)
    else
      var c := t.clientes[id];
      var nome := body.value.nomeCompleto.GetOr(c.nomeCompleto);
      var email := body.value.email.GetOr(c.email);
      if nome.None? || email.None? then Outcome(SERVER_ERROR, t)
      else if EmailOfAnother(t.clientes, id, email.value) then Outcome(SERVER_ERROR, t)
      else Outcome(OK, t.(clientes := t.clientes[id := c.(nomeCompleto := nome.value, email := email.value)]))
  }

  /**
   * A successful update changes the name and the email of that one client,
   * each to the body's value or, when the key is missing, to what it was;
   * every other field, every other client and every other table stay.
   * Sending the same body again changes nothing more.
   */
  lemma UpdateClientEffect(t: Tables, claims: Claims, id: int, body: Option<UpdateBody>)
    ensures var r := UpdateClient(t, claims, id, body);
            r.status == OK ==>
              && id in t.clientes && r.after.clientes.Keys == t.clientes.Keys
              && (forall k :: k in t.clientes && k != id ==> r.after.clientes[k] == t.clientes[k])
              && r.after.clientes[id].nomeCompleto == (if body.value.nomeCompleto.Absent? then t.clientes[id].nomeCompleto
                                                       else body.value.nomeCompleto.value)
              && r.after.clientes[id].email == (if body.value.email.Absent? then t.clientes[id].email
                                                else body.value.email.value)
              && r.after.clientes[id].(nomeCompleto := t.clientes[id].nomeCompleto, email := t.clientes[id].email)
                 == t.clientes[id]
              && r.after == t.(clientes := r.after.clientes)
    ensures var r := UpdateClient(t, claims, id, body);
            r.status == OK ==> UpdateClient(r.after, claims, id, body) == r
  {
    var r := UpdateClient(t, claims, id, body);
    if r.status == OK {
      var c2 := r.after.clientes[id];
      assert r.after.clientes[id := c2] == r.after.clientes;
    }
  }

  lemma UpdateClientPreservesValid(t: Tables, claims: Claims, id: int, body: Option<UpdateBody>)
    requires t.Valid()
    ensures UpdateClient(t, claims, id, body).after.Valid()
  {
    var r := UpdateClient(t, claims, id, body);
    if r.status == OK {
      var cs := r.after.clientes;
      assert UniqueClientEmails(cs);
      assert UniqueClientCpfs(cs);
    }
  }

  /** `PUT /clientes/<id>`. */
  method UpdateCliente(db: Database, claims: Claims, id: int, body: Option<UpdateBody>) returns (status: int)
    modifies db
    ensures Outcome(status, db.tables) == UpdateClient(old(db.tables), claims, id, body)
    ensures old(db.Valid()) ==> db.Valid()
  {
    var t := db.tables;
    if db.Valid() {
      UpdateClientPreservesValid(t, claims, id, body);
    }
    if claims.identity.None? {
      return BAD_REQUEST;
    }
    if !AdvisesClient(t.clientes, claims.identity.value, id) {
      return NOT_FOUND;
    }
    if body.None? {
      return SERVER_ERROR;
    }
    var cliente := t.clientes[id];
    var nome := body.value.nomeCompleto.GetOr(cliente.nomeCompleto);
    var email := body.value.email.GetOr(cliente.email);
    if nome.None? || email.None? {
      return SERVER_ERROR;
    }
    if EmailOfAnother(t.clientes, id, email.value) {
      return SERVER_ERROR;
    }
    cliente := cliente.(nomeCompleto := nome.value, email := email.value);
    db.Commit(t.(clientes := t.clientes[id := cliente]));
    status := OK;
  }

  // ----------------------------------------------------------------- deleting

  /**
   * Whether some row refers to client `c`.  Every such foreign key is non-null
   * (or part of the primary key), so deleting the client would have the ORM
   * blank a column it may not, and the commit fails.
   */
  predicate Referenced(t: Tables, c: int) {
    || (exists k :: k in t.contas && t.contas[k].clienteId == c)
    || (exists k :: k in t.portfolios && t.portfolios[k].clienteId == c)
    || (exists k :: k in t.auditorias && t.auditorias[k].clienteId == c)
    || (exists k :: k in t.respostas && t.respostas[k].clienteId == c)
    || (exists l :: l in t.links && l.clienteId == c)
  }

  /**
   * `delete_cliente`: a client that any account, portfolio, audit record,
   * questionnaire answer or group link refers to is kept (400); otherwise
   * the client row is deleted.
   */
  function DeleteClient(t: Tables, claims: Claims, id: int): (r: Outcome)
    ensures r.status in {OK, BAD_REQUEST, NOT_FOUND}
    ensures r.status != OK ==> r.after == t
    ensures r.status == NOT_FOUND <==> claims.identity.Some? && !AdvisesClient(t.clientes, claims.identity.value, id)
    ensures r.status == OK <==>
              claims.identity.Some? && AdvisesClient(t.clientes, claims.identity.value, id) && !Referenced(t, id)
    ensures r.status == OK ==> r.after == t.(clientes := r.after.clientes) && r.after.clientes.Keys == t.clientes.Keys - {id}
    ensures r.status == OK ==> forall k :: k in r.after.clientes ==> r.after.clientes[k] == t.clientes[k]
  {
    if claims.identity.None? then Outcome(BAD_REQUEST, t)
    else if !AdvisesClient(t.clientes, claims.identity.value, id) then Outcome(NOT_FOUND, t)
    else if Referenced(t, id) then Outcome(BAD_REQUEST, t)
    else Outcome(OK, t.(clientes := t.clientes - {id}))
  }

  lemma DeleteClientPreservesValid(t: Tables, claims: Claims, id: int)
    requires t.Valid()
    ensures DeleteClient(t, claims, id).after.Valid()
  {
    var r := DeleteClient(t, claims, id);
    if r.status == OK {
      var cs := r.after.clientes;
      assert LinksReference(t.links, cs, t.grupos);
      assert AuditsReference(t.auditorias, cs, t.assessores);
      assert AnswersReference(t.respostas, cs, t.versoes);
      assert PortfoliosReference(t.portfolios, cs);
      assert AccountsReference(t.contas, cs);
    }
  }

  /**
   * A client opened through `POST /clientes` can never be deleted through
   * `DELETE /clientes/<id>`: it is opened with an account and a portfolio,
   * and these refer to it.
   */
  lemma {:induction false} CreatedClientIsKept(t: Tables, claims: Claims, body: Option<ClientBody>)
    requires CreateClient(t, claims, body).status == CREATED
    ensures var after := CreateClient(t, claims, body).after;
            DeleteClient(after, claims, FreshKey(t.clientes)).status == BAD_REQUEST
  {
    var after := CreateClient(t, claims, body).after;
    var id := FreshKey(t.clientes);
    CreateClientOpens(t, claims, body);
    OpenClientEffect(t, after.clientes[id]);
    assert after.contas[FreshKey(t.contas)].clienteId == id;
    assert Referenced(after, id);
  }

  /** `DELETE /clientes/<id>`. */
  method DeleteCliente(db: Database, claims: Claims, id: int) returns (status: int)
    modifies db
    ensures Outcome(status, db.tables) == DeleteClient(old(db.tables), claims, id)
    ensures old(db.Valid()) ==> db.Valid()
  {
    var t := db.tables;
    if db.Valid() {
      DeleteClientPreservesValid(t, claims, id);
    }
    if claims.identity.None? {
      return BAD_REQUEST;
    }
    if !AdvisesClient(t.clientes, claims.identity.value, id) {
      return NOT_FOUND;
    }
    if Referenced(t, id) {
      return BAD_REQUEST;
    }
    db.Commit(t.(clientes := t.clientes - {id}));
    status := OK;
  }

  // --------------------------------------------------------------- compliance

  /** The JSON body of `PUT /clientes/<id>/status-compliance`. */
  datatype ComplianceBody = ComplianceBody(status: Field<string>, justificativa: Field<string>)

  /** The compliance statuses an advisor may set. */
  const COMPLIANCE_STATUSES := ["Pendente", "Aprovado", "Reprovado", "Em Análise"]

  /** The justification recorded when the body gives none. */
  const JUSTIFICATIVA_PADRAO := "Atualização de status pelo assessor."

  /** The audit record of advisor `a` moving client `id` from `anterior` to `novo`. */
  function ComplianceAudit(id: int, a: int, anterior: string, novo: string, justificativa: Option<string>)
    : AuditoriaCompliance
  {
    AuditoriaCompliance(id, Some(a), Some(anterior), novo, justificativa)
  }

  /**
   * `update_cliente_compliance`: a status that is missing, empty or not one
   * of the four is 400.  Otherwise an audit record of the change (previous
   * and new status, the advisor, the justification) is inserted and the
   * client's status set, in one commit; a commit error is 500.  A missing
   * body fails outside any handler (500).
   */
  function UpdateCompliance(t: Tables, claims: Claims, id: int, body: Option<ComplianceBody>): (r: Outcome)
    ensures r.status in {OK, BAD_REQUEST, NOT_FOUND, SERVER_ERROR}
    ensures r.status != OK ==> r.after == t
    ensures r.status == NOT_FOUND <==> claims.identity.Some? && !AdvisesClient(t.clientes, claims.identity.value, id)
  {
    if claims.identity.None? then Outcome(BAD_REQUEST, t)
    else if !AdvisesClient(t.clientes, claims.identity.value, id) then Outcome(NOT_FOUND, t)
    else if body.None? then Outcome(SERVER_ERROR, t)
    else
      var a := claims.identity.value;
      var novo := body.value.status;
      if !TruthyString(novo) || novo.value !in COMPLIANCE_STATUSES then Outcome(BAD_REQUEST, t)
      else if a !in t.assessores then Outcome(SERVER_ERROR, t)
      else
        var c := t.clientes[id];
        var audit := ComplianceAudit(id, a, c.statusCompliance, novo.value, body.value.justificativa.GetOr(JUSTIFICATIVA_PADRAO));
        Outcome(OK, t.(auditorias := t.auditorias[FreshKey(t.auditorias) := audit],
                       clientes := t.clientes[id := c.(statusCompliance := novo.value)]))
  }

  /**
   * A status change is accepted exactly for one of the four statuses, and
   * then: the client's status is the new one and nothing else about any
   * client changes; exactly one audit record is added, under a new key,
   * recording this client, this advisor, the status before and the status
   * after, and the justification (the default text when the key is
   * missing); no other table changes.
   */
  lemma UpdateComplianceAudits(t: Tables, claims: Claims, id: int, body: Option<ComplianceBody>)
    requires t.Valid()
    ensures var r := UpdateCompliance(t, claims, id, body);
            r.status == OK <==>
              && claims.identity.Some? && AdvisesClient(t.clientes, claims.identity.value, id) && body.Some?
              && body.value.status.Given? && body.value.status.value in COMPLIANCE_STATUSES
    ensures var r := UpdateCompliance(t, claims, id, body);
            r.status == OK ==>
              exists k, audit :: k !in t.auditorias
                && r.after.auditorias == t.auditorias[k := audit]
                && audit.clienteId == id
                && audit.assessorId == claims.identity
                && audit.statusAnterior == Some(t.clientes[id].statusCompliance)
                && audit.statusNovo == r.after.clientes[id].statusCompliance == body.value.status.value
                && audit.justificativa
                   == (if body.value.justificativa.Absent? then Some(JUSTIFICATIVA_PADRAO) else body.value.justificativa.AsOption())
    ensures var r := UpdateCompliance(t, claims, id, body);
            r.status == OK ==>
              && r.after.clientes == t.clientes[id := t.clientes[id].(statusCompliance := body.value.status.value)]
              && r.after == t.(auditorias := r.after.auditorias, clientes := r.after.clientes)
  {
    var r := UpdateCompliance(t, claims, id, body);
    if r.status == OK {
      var k := FreshKey(t.auditorias);
      assert r.after.auditorias == t.auditorias[k := r.after.auditorias[k]];
    }
  }

  lemma UpdateCompliancePreservesValid(t: Tables, claims: Claims, id: int, body: Option<ComplianceBody>)
    requires t.Valid()
    ensures UpdateCompliance(t, claims, id, body).after.Valid()
  {
    var r := UpdateCompliance(t, claims, id, body);
    if r.status == OK {
      var cs := r.after.clientes;
      assert UniqueClientEmails(cs);
      assert UniqueClientCpfs(cs);
      assert AuditsReference(r.after.auditorias, cs, t.assessores);
    }
  }

  /** `PUT /clientes/<id>/status-compliance`. */
  method UpdateClienteCompliance(db: Database, claims: Claims, id: int, body: Option<ComplianceBody>)
    returns (status: int)
    modifies db
    ensures Outcome(status, db.tables) == UpdateCompliance(old(db.tables), claims, id, body)
    ensures old(db.Valid()) ==> db.Valid()
  {
    var t := db.tables;
    if db.Valid() {
      UpdateCompliancePreservesValid(t, claims, id, body);
    }
    if claims.identity.None? {
      return BAD_REQUEST;
    }
    var a := claims.identity.value;
    if !AdvisesClient(t.clientes, a, id) {
      return NOT_FOUND;
    }
    if body.None? {
      return SERVER_ERROR;
    }
    var novo := body.value.status;
    if !TruthyString(novo) || novo.value !in COMPLIANCE_STATUSES {
      return BAD_REQUEST;
    }
    var cliente := t.clientes[id];
    var audit := ComplianceAudit(id, a, cliente.statusCompliance, novo.value,
                                 body.value.justificativa.GetOr(JUSTIFICATIVA_PADRAO));
    if a !in t.assessores {
      return SERVER_ERROR;
    }
    db.Commit(t.(auditorias := t.auditorias[FreshKey(t.auditorias) := audit],
                 clientes := t.clientes[id := cliente.(statusCompliance := novo.value)]));
    status := OK;
  }
}

=== FILE: grupo_routes.dfy ===
/**
 * Economic groups: an advisor creates a group, links clients to it, and
 * reads the group's consolidated position, which adds up, product by
 * product, the positions of every portfolio of every member.
 *
 * An identity that is not an integer makes `int(...)` raise ValueError,
 * which the application-wide handler answers with 400.
 */
module GrupoRoutes {
  import opened Wrappers
  import opened Requests
  import opened Models
  import Rows
  import Sets
  import Valuation

  // ------------------------------------------------------------ creating a group

  /** The JSON body of `POST /grupos`. */
  datatype GroupBody = GroupBody(nomeGrupo: Field<string>)

  /**
   * `create_grupo_economico`: a missing body or an empty or missing name is
   * 400, a token whose identity is no advisor is 401, otherwise the group is
   * inserted.
   */
  function CreateGroup(t: Tables, claims: Claims, body: Option<GroupBody>): (r: Outcome)
    ensures r.status in {CREATED, BAD_REQUEST, UNAUTHORIZED}
    ensures r.status != CREATED ==> r.after == t
    ensures r.status == BAD_REQUEST <==> body.None? || !TruthyString(body.value.nomeGrupo) || claims.identity.None?
    ensures r.status == UNAUTHORIZED <==>
              body.Some? && TruthyString(body.value.nomeGrupo) && claims.identity.Some? && claims.identity.value !in t.assessores
  {
    if body.None? || !TruthyString(body.value.nomeGrupo) then Outcome(BAD_REQUEST, t)
    else if claims.identity.None? then Outcome(BAD_REQUEST, t)
    else if claims.identity.value !in t.assessores then Outcome(UNAUTHORIZED, t)
    else Outcome(CREATED, t.(grupos := t.grupos[FreshKey(t.grupos) := GrupoEconomico(body.value.nomeGrupo.value)]))
  }

  /**
   * A created group is exactly one new row, under a key no group had, with
   * the requested name; no other table changes.
   */
  lemma CreateGroupInserts(t: Tables, claims: Claims, body: Option<GroupBody>)
    ensures var r := CreateGroup(t, claims, body);
            r.status == CREATED ==>
              exists g :: g !in t.grupos && r.after.grupos == t.grupos[g := GrupoEconomico(body.value.nomeGrupo.value)]
                          && r.after == t.(grupos := r.after.grupos)
  {
    var r := CreateGroup(t, claims, body);
    if r.status == CREATED {
      var g := FreshKey(t.grupos);
      assert r.after.grupos == t.grupos[g := GrupoEconomico(body.value.nomeGrupo.value)];
    }
  }

  lemma CreateGroupPreservesValid(t: Tables, claims: Claims, body: Option<GroupBody>)
    requires t.Valid()
    ensures CreateGroup(t, claims, body).after.Valid()
  {
  }

  method CreateGrupoEconomico(db: Database, claims: Claims, body: Option<GroupBody>) returns (status: int)
    modifies db
    ensures Outcome(status, db.tables) == CreateGroup(old(db.tables), claims, body)
    ensures old(db.Valid()) ==> db.Valid()
  {
    var t := db.tables;
    if db.Valid() {
      CreateGroupPreservesValid(t, claims, body);
    }
    if body.None? || !TruthyString(body.value.nomeGrupo) {
      return BAD_REQUEST;
    }
    if claims.identity.None? {
      return BAD_REQUEST;
    }
    if claims.identity.value !in t.assessores {
      return UNAUTHORIZED;
    }
    db.Commit(t.(grupos := t.grupos[FreshKey(t.grupos) := GrupoEconomico(body.value.nomeGrupo.value)]));
    status := CREATED;
  }

  // ------------------------------------------------------- linking a client

  /** The JSON body of `POST /grupos/<id>/vincular-cliente`. */
  datatype LinkBody = LinkBody(clienteId: Field<int>, papel: Field<string>)

  /** The role a client gets in a group when the body names none. */
  const PAPEL_PADRAO := "Membro"

  /**
   * `link_cliente_to_grupo`: a missing or zero `cliente_id` is 400, a client
   * that is not the advisor's or a missing group is 404, a link that
   * already exists is 409; otherwise the link is inserted with the given
   * role, "Membro" when the key is missing.
   */
  function LinkClient(t: Tables, claims: Claims, gid: int, body: Option<LinkBody>): (r: Outcome)
    ensures r.status in {CREATED, BAD_REQUEST, NOT_FOUND, CONFLICT}
    ensures r.status != CREATED ==> r.after == t
    ensures r.status == BAD_REQUEST <==> claims.identity.None? || body.None? || !TruthyInt(body.value.clienteId)
    ensures r.status == NOT_FOUND <==>
              && claims.identity.Some? && body.Some? && TruthyInt(body.value.clienteId)
              && (!AdvisesClient(t.clientes, claims.identity.value, body.value.clienteId.value) || gid !in t.grupos)
  {
    if claims.identity.None? then Outcome(BAD_REQUEST, t)
    else if body.None? || !TruthyInt(body.value.clienteId) then Outcome(BAD_REQUEST, t)
    else
      var c := body.value.clienteId.value;
      if !AdvisesClient(t.clientes, claims.identity.value, c) then Outcome(NOT_FOUND, t)
      else if gid !in t.grupos then Outcome(NOT_FOUND, t)
      else if LinkKey(c, gid) in t.links then Outcome(CONFLICT, t)
      else Outcome(CREATED, t.(links := t.links[LinkKey(c, gid) := body.value.papel.GetOr(PAPEL_PADRAO)]))
  }

  /**
   * A link is created exactly when the client is one of the advisor's, the
   * group exists and the pair is not linked yet; it adds that one pair, with
   * the requested role or "Membro", and changes nothing else.  An existing
   * pair is 409 and leaves its role as it was.
   */
  lemma LinkClientEffect(t: Tables, claims: Claims, gid: int, body: Option<LinkBody>)
    ensures var r := LinkClient(t, claims, gid, body);
            r.status == CREATED <==>
              && claims.identity.Some? && body.Some? && TruthyInt(body.value.clienteId)
              && AdvisesClient(t.clientes, claims.identity.value, body.value.clienteId.value)
              && gid in t.grupos && LinkKey(body.value.clienteId.value, gid) !in t.links
    ensures var r := LinkClient(t, claims, gid, body);
            r.status == CREATED ==>
              && r.after.links.Keys == t.links.Keys + {LinkKey(body.value.clienteId.value, gid)}
              && (forall l :: l in t.links ==> r.after.links[l] == t.links[l])
              && r.after.links[LinkKey(body.value.clienteId.value, gid)]
                 == (if body.value.papel.Absent? then Some(PAPEL_PADRAO) else body.value.papel.AsOption())
              && r.after == t.(links := r.after.links)
    ensures var r := LinkClient(t, claims, gid, body);
            r.status == CONFLICT <==>
              && claims.identity.Some? && body.Some? && TruthyInt(body.value.clienteId)
              && AdvisesClient(t.clientes, claims.identity.value, body.value.clienteId.value)
              && gid in t.grupos && LinkKey(body.value.clienteId.value, gid) in t.links
  {
  }

  lemma LinkClientPreservesValid(t: Tables, claims: Claims, gid: int, body: Option<LinkBody>)
    requires t.Valid()
    ensures LinkClient(t, claims, gid, body).after.Valid()
  {
  }

  method LinkClienteToGrupo(db: Database, claims: Claims, gid: int, body: Option<LinkBody>) returns (status: int)
    modifies db
    ensures Outcome(status, db.tables) == LinkClient(old(db.tables), claims, gid, body)
    ensures old(db.Valid()) ==> db.Valid()
  {
    var t := db.tables;
    if db.Valid() {
      LinkClientPreservesValid(t, claims, gid, body);
    }
    if claims.identity.None? {
      return BAD_REQUEST;
    }
    if body.None? || !TruthyInt(body.value.clienteId) {
      return BAD_REQUEST;
    }
    var c := body.value.clienteId.value;
    var papel := body.value.papel.GetOr(PAPEL_PADRAO);
    if !AdvisesClient(t.clientes, claims.identity.value, c) {
      return NOT_FOUND;
    }
    if gid !in t.grupos {
      return NOT_FOUND;
    }
    if LinkKey(c, gid) in t.links {
      return CONFLICT;
    }
    db.Commit(t.(links := t.links[LinkKey(c, gid) := papel]));
    status := CREATED;
  }

  // ------------------------------------------------------ consolidated position

  /** The clients linked to group `gid` (`[link.ClienteID for link in links]`). */
  function GroupMembers(ls: map<LinkKey, Option<string>>, gid: int): (r: set<int>)
    ensures forall c :: c in r <==> LinkKey(c, gid) in ls
  {
    set l | l in ls && l.grupoId == gid :: l.clienteId
  }

  /** Whether at least one member of the group is a client of advisor `a`. */
  predicate AdvisesSomeMember(cs: map<int, Cliente>, a: int, members: set<int>) {
    exists c :: c in members && AdvisesClient(cs, a, c)
  }

  /** The positions held in any portfolio of any of `members` (Posicao joined with Portfolio). */
  function MemberPositions(t: Tables, members: set<int>): map<int, Posicao> {
    map k | k in t.posicoes && t.posicoes[k].portfolioId in t.portfolios
                            && t.portfolios[t.posicoes[k].portfolioId].clienteId in members :: t.posicoes[k]
  }

  /** The positions of product `x` in `po`. */
  function ProductRows(po: map<int, Posicao>, x: int): map<int, Posicao> {
    map k | k in po && po[k].produtoId == x :: po[k]
  }

  /** One row of the GROUP BY: a product's total quantity and total cost. */
  datatype Aggregate = Aggregate(quantidadeTotal: real, custoTotal: real)

  /**
   * `posicoes_raw`: per product held in `po`, the sum of the quantities and
   * the sum of quantity times average cost.
   */
  function GroupByProduct(po: map<int, Posicao>): (r: map<int, Aggregate>)
    ensures r.Keys == Valuation.ProductsOf(po)
  {
    map x | x in Valuation.ProductsOf(po) ::
      Aggregate(Rows.SumBy(ProductRows(po, x), Valuation.QuantityOf), Rows.SumBy(ProductRows(po, x), Valuation.CostOf))
  }

  /** A consolidated row: a position object built for the answer, not stored. */
  datatype ConsolidatedPosition = ConsolidatedPosition(produtoId: int, quantidade: real, custoMedio: real,
                                                       valorMercado: real, resultadoFinanceiro: real)

  /**
   * The consolidation of product `x` with totals `g` at `price`: the total
   * quantity, cost over quantity as average cost (0 for a quantity that is
   * not positive), quantity times price as market value, and market value
   * minus total cost as result.
   */
  ghost predicate ConsolidatedAt(v: ConsolidatedPosition, x: int, g: Aggregate, price: real) {
    && v.produtoId == x
    && v.quantidade == g.quantidadeTotal
    && v.custoMedio == (if g.quantidadeTotal > 0.0 then g.custoTotal / g.quantidadeTotal else 0.0)
    && v.valorMercado == g.quantidadeTotal * price
    && v.resultadoFinanceiro == v.valorMercado - g.custoTotal
  }

  /** Every aggregated product consolidated at the price `precos` gives it (0 when none). */
  ghost predicate IsConsolidation(rows: map<int, ConsolidatedPosition>, aggs: map<int, Aggregate>, precos: map<int, real>) {
    && rows.Keys == aggs.Keys
    && forall x :: x in rows ==> ConsolidatedAt(rows[x], x, aggs[x], PriceIn(precos, x))
  }

  /** The consolidation loop over the aggregated rows. */
  method Consolidate(aggs: map<int, Aggregate>, precos: map<int, real>) returns (rows: map<int, ConsolidatedPosition>)
    ensures IsConsolidation(rows, aggs, precos)
  {
    rows := map[];
    var todo := aggs.Keys;
    while todo != {}
      invariant todo <= aggs.Keys
      invariant rows.Keys == aggs.Keys - todo
      invariant forall x :: x in rows ==> ConsolidatedAt(rows[x], x, aggs[x], PriceIn(precos, x))
      decreases todo
    {
      var x := Sets.Min(todo);
      var quantidade := aggs[x].quantidadeTotal;
      var custoTotal := aggs[x].custoTotal;
      var custoMedio := if quantidade > 0.0 then custoTotal / quantidade else 0.0;
      var precoAtual := PriceIn(precos, x);
      var valorMercado := quantidade * precoAtual;
      rows := rows[x := ConsolidatedPosition(x, quantidade, custoMedio, valorMercado, valorMercado - custoTotal)];
      todo := todo - {x};
    }
  }

  /**
   * What the route answers for a group: each product held by the members,
   * consolidated at its latest closing price.
   */
  ghost predicate GroupConsolidation(t: Tables, members: set<int>, rows: map<int, ConsolidatedPosition>) {
    var aggs := GroupByProduct(MemberPositions(t, members));
    IsConsolidation(rows, aggs, LatestPrices(t.precos, aggs.Keys))
  }

  /**
   * `GET /grupos/<id>/posicao-consolidada`: 404 for a group without links;
   * 403 unless at least one member is a client of the advisor (one is
   * enough, and then every member's positions are consolidated); no
   * positions at all gives an empty answer.
   */
  method GetGrupoPosicaoConsolidada(db: Database, claims: Claims, gid: int)
    returns (status: int, rows: Option<map<int, ConsolidatedPosition>>)
    ensures status == BAD_REQUEST <==> claims.identity.None?
    ensures status == NOT_FOUND <==> claims.identity.Some? && GroupMembers(db.tables.links, gid) == {}
    ensures status == FORBIDDEN <==>
              claims.identity.Some? && GroupMembers(db.tables.links, gid) != {}
              && !AdvisesSomeMember(db.tables.clientes, claims.identity.value, GroupMembers(db.tables.links, gid))
    ensures status in {OK, BAD_REQUEST, NOT_FOUND, FORBIDDEN}
    ensures status != OK <==> rows.None?
    ensures status == OK ==> GroupConsolidation(db.tables, GroupMembers(db.tables.links, gid), rows.value)
    ensures status == OK && MemberPositions(db.tables, GroupMembers(db.tables.links, gid)) == map[] ==> rows.value == map[]
  {
    var t := db.tables;
    if claims.identity.None? {
      return BAD_REQUEST, None;
    }
    var members := GroupMembers(t.links, gid);
    if members == {} {
      return NOT_FOUND, None;
    }
    if !AdvisesSomeMember(t.clientes, claims.identity.value, members) {
      return FORBIDDEN, None;
    }
    var posicoesRaw := GroupByProduct(MemberPositions(t, members));
    if posicoesRaw == map[] {
      return OK, Some(map[]);
    }
    var mapaPrecos := LatestPrices(t.precos, posicoesRaw.Keys);
    var consolidated := Consolidate(posicoesRaw, mapaPrecos);
    return OK, Some(consolidated);
  }

  /**
   * Under the ledger invariants every consolidated quantity is positive, so
   * the average cost times the quantity gives back the product's total
   * cost over all member positions.
   */
  lemma ConsolidatedCostsAddUp(t: Tables, members: set<int>, rows: map<int, ConsolidatedPosition>, x: int)
    requires t.Valid() && GroupConsolidation(t, members, rows) && x in rows
    ensures rows[x].quantidade > 0.0
    ensures rows[x].custoMedio * rows[x].quantidade == Rows.SumBy(ProductRows(MemberPositions(t, members), x), Valuation.CostOf)
  {
    var po := MemberPositions(t, members);
    MemberQuantitiesPositive(t, members);
    var aggs := GroupByProduct(po);
    ConsolidatedRowCost(po, rows, LatestPrices(t.precos, aggs.Keys), x);
  }

  lemma MemberQuantitiesPositive(t: Tables, members: set<int>)
    requires PositiveQuantities(t.posicoes)
    ensures PositiveQuantities(MemberPositions(t, members))
  {
  }

  /** Over positions of positive quantity, a consolidated row's average cost times its quantity is its total cost. */
  lemma ConsolidatedRowCost(po: map<int, Posicao>, rows: map<int, ConsolidatedPosition>, precos: map<int, real>, x: int)
    requires PositiveQuantities(po) && IsConsolidation(rows, GroupByProduct(po), precos) && x in rows
    ensures rows[x].quantidade > 0.0
    ensures rows[x].custoMedio * rows[x].quantidade == Rows.SumBy(ProductRows(po, x), Valuation.CostOf)
  {
    var g := GroupByProduct(po)[x];
    AggregatePositive(po, x);
    AverageCostTimesQuantity(rows[x], x, g, PriceIn(precos, x));
  }

  /** A product held in positions of positive quantity has a positive total quantity. */
  lemma AggregatePositive(po: map<int, Posicao>, x: int)
    requires PositiveQuantities(po) && x in Valuation.ProductsOf(po)
    ensures GroupByProduct(po)[x].quantidadeTotal > 0.0
  {
    var pr := ProductRows(po, x);
    var k :| k in po && po[k].produtoId == x;
    assert k in pr;
    Rows.SumByPositive(pr, Valuation.QuantityOf);
  }

  /** With a positive total quantity, the average cost times the quantity is the total cost. */
  lemma AverageCostTimesQuantity(v: ConsolidatedPosition, x: int, g: Aggregate, price: real)
    requires ConsolidatedAt(v, x, g, price) && g.quantidadeTotal > 0.0
    ensures v.custoMedio * v.quantidade == g.custoTotal
  {
  }

  /**
   * A product the group holds in a single position consolidates to that
   * position itself: its quantity, its average cost, and the market value
   * and result the portfolio valuation gives it at the same price.
   */
  lemma ConsolidationOfOneHolding(po: map<int, Posicao>, x: int, k: int, price: real, v: ConsolidatedPosition)
    requires k in po && ProductRows(po, x) == map[k := po[k]] && po[k].quantidade > 0.0
    requires x in GroupByProduct(po) && ConsolidatedAt(v, x, GroupByProduct(po)[x], price)
    ensures v.quantidade == po[k].quantidade && v.custoMedio == po[k].custoMedio
    ensures Valuation.ValuedAt(Valuation.ValuedPosition(po[k], v.valorMercado, v.resultadoFinanceiro), po[k], price)
  {
    var p := po[k];
    var g := GroupByProduct(po)[x];
    Rows.SumByAdd(map[], Valuation.QuantityOf, k, p);
    Rows.SumByAdd(map[], Valuation.CostOf, k, p);
    assert map[][k := p] == ProductRows(po, x);
    assert g.quantidadeTotal == p.quantidade && g.custoTotal == Valuation.CostOf(p);
    CancelQuantity(p, g.custoTotal, g.quantidadeTotal);
    SameProduct(g.quantidadeTotal, p.quantidade, price);
  }

  /** The cost of a position of positive quantity, over that quantity, is its average cost. */
  lemma CancelQuantity(p: Posicao, custoTotal: real, quantidade: real)
    requires p.quantidade > 0.0 && custoTotal == Valuation.CostOf(p) && quantidade == p.quantidade
    ensures custoTotal / quantidade == p.custoMedio
  {
  }

  lemma SameProduct(a: real, b: real, price: real)
    requires a == b
    ensures a * price == b * price
  {
  }
}

=== FILE: models.dfy ===
/**
 * The brokerage ledger's tables: one datatype per entity (a row without its
 * primary key), one `map` from primary key to row per table, the schema's
 * uniqueness and foreign-key constraints, and the queries the routes share.
 */
module Models {
  import opened Wrappers
  import Rows
  import Sets
  import Text
  import Bcrypt

  // ---------------------------------------------------------------- passwords

  /**
   * A stored bcrypt hash, identified with the key it was made from (the
   * first 72 bytes of the UTF-8 password); salt and cipher are abstract.
   */
  datatype PasswordHash = PasswordHash(key: seq<Bcrypt.Byte>)

  /** `bcrypt.generate_password_hash`: `None` where it raises ValueError (an empty password). */
  function HashPassword(p: string): (r: Option<PasswordHash>)
    ensures r.None? <==> p == ""
    ensures r.Some? ==> |r.value.key| <= Bcrypt.MAX_KEY_BYTES
  {
    if p == "" then None else Some(PasswordHash(Bcrypt.Key(p)))
  }

  /** `bcrypt.check_password_hash`: the candidate is keyed as the stored password was. */
  predicate HashMatches(h: PasswordHash, p: string) {
    h.key == Bcrypt.Key(p)
  }

  /**
   * A hash accepts the password it was made from; among passwords of at
   * most 72 bytes it accepts no other, while one made from a password of 72
   * bytes or more accepts every extension of it.
   */
  lemma HashAccepts(p: string, q: string)
    requires p != ""
    ensures HashMatches(HashPassword(p).value, p)
    ensures |Bcrypt.Utf8(p)| <= Bcrypt.MAX_KEY_BYTES && |Bcrypt.Utf8(q)| <= Bcrypt.MAX_KEY_BYTES
      ==> (HashMatches(HashPassword(p).value, q) <==> q == p)
    ensures |Bcrypt.Utf8(p)| >= Bcrypt.MAX_KEY_BYTES ==> HashMatches(HashPassword(p).value, p + q)
  {
    if |Bcrypt.Utf8(p)| <= Bcrypt.MAX_KEY_BYTES && |Bcrypt.Utf8(q)| <= Bcrypt.MAX_KEY_BYTES {
      Bcrypt.ShortKeysIdentify(p, q);
    }
    if |Bcrypt.Utf8(p)| >= Bcrypt.MAX_KEY_BYTES {
      Bcrypt.LongKeyIgnoresTail(p, q);
    }
  }

  // ----------------------------------------------------------------- entities

  /** An advisor (table Assessor). */
  datatype Assessor = Assessor(superiorId: Option<int>, nome: string, email: string,
                               nivel: Option<string>, senhaHash: Option<PasswordHash>)
  {
    /**
     * `Assessor.set_password`: stores the hash of `p`, and changes nothing
     * else; `None` where bcrypt raises.
     */
    function SetPassword(p: string): (r: Option<Assessor>)
      ensures r.None? <==> p == ""
    {
      match HashPassword(p)
      case None => None
      case Some(h) => Some(this.(senhaHash := Some(h)))
    }

    /**
     * `Assessor.check_password`: bcrypt is called on the stored hash even when
     * it is null, and then raises (`None`).
     */
    function CheckPassword(p: string): (r: Option<bool>)
      ensures r.None? <==> senhaHash.None?
    {
      match senhaHash
      case None => None
      case Some(h) => Some(HashMatches(h, p))
    }
  }

  /** A client (table Cliente). */
  datatype Cliente = Cliente(assessorId: int, cpfCnpj: string, nomeCompleto: string, email: string,
                             senhaHash: Option<PasswordHash>, statusCompliance: string)
  {
    /** `Cliente.set_password`: stores the hash of `p`, and changes nothing else; `None` where bcrypt raises. */
    function SetPassword(p: string): (r: Option<Cliente>)
      ensures r.None? <==> p == ""
    {
      match HashPassword(p)
      case None => None
      case Some(h) => Some(this.(senhaHash := Some(h)))
    }

    /** `Cliente.check_password`: a client without a stored hash is never accepted. */
    function CheckPassword(p: string): (r: bool)
      ensures senhaHash.None? ==> !r
      ensures r ==> HashMatches(senhaHash.value, p)
    {
      senhaHash.Some? && HashMatches(senhaHash.value, p)
    }
  }

  /**
   * After `set_password(p)` an advisor's password check accepts `p`; for
   * passwords of at most 72 bytes it accepts `q` exactly when `q` is `p`, and
   * a password of 72 bytes or more also lets in `p + q`.  Only the hash has
   * changed.
   */
  lemma AdvisorPasswordRoundTrip(a: Assessor, p: string, q: string)
    requires p != ""
    ensures a.SetPassword(p).Some? && a.SetPassword(p).value.CheckPassword(p) == Some(true)
    ensures |Bcrypt.Utf8(p)| <= Bcrypt.MAX_KEY_BYTES && |Bcrypt.Utf8(q)| <= Bcrypt.MAX_KEY_BYTES
      ==> a.SetPassword(p).value.CheckPassword(q) == Some(q == p)
    ensures |Bcrypt.Utf8(p)| >= Bcrypt.MAX_KEY_BYTES ==> a.SetPassword(p).value.CheckPassword(p + q) == Some(true)
    ensures a.SetPassword(p).value.(senhaHash := a.senhaHash) == a
  {
    HashAccepts(p, q);
  }

  /**
   * After `set_password(p)` a client's password check accepts `p`; for
   * passwords of at most 72 bytes it accepts `q` exactly when `q` is `p`, and
   * a password of 72 bytes or more also lets in `p + q`.  Only the hash has
   * changed.
   */
  lemma ClientPasswordRoundTrip(c: Cliente, p: string, q: string)
    requires p != ""
    ensures c.SetPassword(p).Some? && c.SetPassword(p).value.CheckPassword(p)
    ensures |Bcrypt.Utf8(p)| <= Bcrypt.MAX_KEY_BYTES && |Bcrypt.Utf8(q)| <= Bcrypt.MAX_KEY_BYTES
      ==> (c.SetPassword(p).value.CheckPassword(q) <==> q == p)
    ensures |Bcrypt.Utf8(p)| >= Bcrypt.MAX_KEY_BYTES ==> c.SetPassword(p).value.CheckPassword(p + q)
    ensures c.SetPassword(p).value.(senhaHash := c.senhaHash) == c
  {
    HashAccepts(p, q);
  }

  /** An economic group (table GrupoEconomico). */
  datatype GrupoEconomico = GrupoEconomico(nomeGrupo: string)

  /** The composite primary key of ClienteGrupoLink; the row itself is the role in the group. */
  datatype LinkKey = LinkKey(clienteId: int, grupoId: int)

  /** A compliance audit record (table AuditoriaCompliance). */
  datatype AuditoriaCompliance = AuditoriaCompliance(clienteId: int, assessorId: Option<int>,
                                                     statusAnterior: Option<string>, statusNovo: string,
                                                     justificativa: Option<string>)

  /** A questionnaire version; dates are day numbers. */
  datatype QuestionarioVersao = QuestionarioVersao(dataVigencia: int, nomeQuestionario: Option<string>)

  datatype Pergunta = Pergunta(versaoId: int, textoPergunta: string)

  datatype OpcaoResposta = OpcaoResposta(perguntaId: int, textoOpcao: string, pontos: int)

  /** A client's scored questionnaire (table RespostaSuitabilityCliente); the timestamp is an int. */
  datatype RespostaSuitability = RespostaSuitability(clienteId: int, versaoId: int, dataResposta: int,
                                                     pontuacaoTotal: int, perfilCalculado: string)

  /** A financial product (table ProdutoFinanceiro, without its subtype tables). */
  datatype Produto = Produto(ticker: string, nomeProduto: string, classeAtivo: string)

  /** A closing price of a product on a day. */
  datatype HistoricoPreco = HistoricoPreco(produtoId: int, data: int, precoFechamento: real)

  /** A cash account (table Conta). */
  datatype Conta = Conta(clienteId: int, tipoConta: string, agencia: string, numeroConta: string, saldo: real)

  datatype Portfolio = Portfolio(clienteId: int, nomePortfolio: string)

  /** A cash movement (table MovimentacaoConta): out of the origin account, into the destination. */
  datatype Movimentacao = Movimentacao(contaOrigemId: Option<int>, contaDestinoId: Option<int>,
                                       tipoMovimentacao: string, valor: real, status: string)

  /** An executed order, linked to the movement that settled it. */
  datatype Ordem = Ordem(portfolioId: int, produtoId: int, movimentacaoIdLiquidacao: Option<int>,
                         tipoOrdem: string, quantidade: real, precoUnitario: real, statusOrdem: string)

  /** A holding of a product in a portfolio, with its average cost. */
  datatype Posicao = Posicao(portfolioId: int, produtoId: int, quantidade: real, custoMedio: real)

  // ------------------------------------------------------------ column defaults

  const STATUS_PENDENTE := "Pendente"
  const TIPO_CONTA_INVESTIMENTO := "Conta Investimento"
  const SALDO_INICIAL := 0.0
  const CARTEIRA_PRINCIPAL := "Carteira Principal"
  const MOVIMENTACAO_PROCESSADA := "Processada"
  const ORDEM_EXECUTADA := "Executada"
  const AGENCIA_PADRAO := "0001"

  // ----------------------------------------------------------------- the tables

  datatype Tables = Tables(
    assessores: map<int, Assessor>,
    clientes: map<int, Cliente>,
    grupos: map<int, GrupoEconomico>,
    links: map<LinkKey, Option<string>>,
    auditorias: map<int, AuditoriaCompliance>,
    versoes: map<int, QuestionarioVersao>,
    perguntas: map<int, Pergunta>,
    opcoes: map<int, OpcaoResposta>,
    respostas: map<int, RespostaSuitability>,
    produtos: map<int, Produto>,
    precos: map<int, HistoricoPreco>,
    contas: map<int, Conta>,
    portfolios: map<int, Portfolio>,
    movimentacoes: map<int, Movimentacao>,
    ordens: map<int, Ordem>,
    posicoes: map<int, Posicao>)
  {
    /** The schema's constraints plus the ledger invariants every route keeps. */
    ghost predicate Valid() {
      RegistryValid() && LedgerValid()
    }

    /** Constraints on the people, groups, questionnaires, products and prices. */
    ghost predicate RegistryValid() {
      && UniqueAdvisorEmails(assessores)
      && UniqueClientEmails(clientes)
      && UniqueClientCpfs(clientes)
      && UniqueTickers(produtos)
      && UniquePrices(precos)
      && SuperiorsExist(assessores)
      && ClientsHaveAdvisors(clientes, assessores)
      && LinksReference(links, clientes, grupos)
      && AuditsReference(auditorias, clientes, assessores)
      && QuestionsReference(perguntas, versoes)
      && OptionsReference(opcoes, perguntas)
      && AnswersReference(respostas, clientes, versoes)
      && PricesReference(precos, produtos)
      && PortfoliosReference(portfolios, clientes)
    }

    /** Constraints on the accounts, movements, orders and positions. */
    ghost predicate LedgerValid() {
      && UniqueAccountNumbers(contas)
      && UniquePositions(posicoes)
      && PositiveQuantities(posicoes)
      && NonNegativeBalances(contas)
      && AccountsReference(contas, clientes)
      && MovementsReference(movimentacoes, contas)
      && OrdersReference(ordens, portfolios, produtos, movimentacoes)
      && PositionsReference(posicoes, portfolios, produtos)
    }
  }

  /** Replacing only the ledger tables of valid tables by a valid ledger keeps them valid. */
  lemma LedgerChangeValid(t: Tables, t2: Tables)
    requires t.Valid() && t2.LedgerValid()
    requires t2 == t.(contas := t2.contas, movimentacoes := t2.movimentacoes, ordens := t2.ordens, posicoes := t2.posicoes)
    ensures t2.Valid()
  {
  }

  /** The investment account opened for client `id`: numbered "C-" and the id in seven digits, balance 0. */
  function NewAccount(id: nat): (c: Conta)
    ensures c.clienteId == id && c.saldo == 0.0 && c.numeroConta == Text.AccountNumber(id)
  {
    Conta(id, TIPO_CONTA_INVESTIMENTO, AGENCIA_PADRAO, Text.AccountNumber(id), SALDO_INICIAL)
  }

  /**
   * The rows both registration routes insert and commit together: client
   * `c` under the next client id, its investment account and its main
   * portfolio.
   */
  function OpenClient(t: Tables, c: Cliente): Tables
  {
    var id := FreshKey(t.clientes);
    t.(clientes := t.clientes[id := c],
       contas := t.contas[FreshKey(t.contas) := NewAccount(id)],
       portfolios := t.portfolios[FreshKey(t.portfolios) := Portfolio(id, CARTEIRA_PRINCIPAL)])
  }

  /**
   * Opening a client adds exactly the client under the next id, one account
   * and one portfolio of that client; no other row changes.
   */
  lemma OpenClientEffect(t: Tables, c: Cliente)
    ensures var t2 := OpenClient(t, c);
            var id := FreshKey(t.clientes); var ck := FreshKey(t.contas); var pk := FreshKey(t.portfolios);
      && t2.clientes == t.clientes[id := c] && id !in t.clientes
      && t2.contas == t.contas[ck := NewAccount(id)] && ck !in t.contas
      && t2.portfolios == t.portfolios[pk := Portfolio(id, CARTEIRA_PRINCIPAL)] && pk !in t.portfolios
      && t2 == t.(clientes := t2.clientes, contas := t2.contas, portfolios := t2.portfolios)
  {
  }

  /**
   * Opening a client keeps the tables valid when its advisor exists, its
   * email and CPF/CNPJ are new and its account number is free; these are the
   * constraints whose violation makes the insert fail.
   */
  lemma OpenClientValid(t: Tables, c: Cliente)
    requires t.Valid()
    requires c.assessorId in t.assessores
    requires forall k :: k in t.clientes ==> t.clientes[k].email != c.email && t.clientes[k].cpfCnpj != c.cpfCnpj
    requires !AccountNumberTaken(t.contas, Text.AccountNumber(FreshKey(t.clientes)))
    ensures OpenClient(t, c).Valid()
  {
    var id := FreshKey(t.clientes);
    OpenClientRegistry(t, c, id, FreshKey(t.portfolios));
    var t2 := OpenClient(t, c);
    OpenClientLedger(t, id, FreshKey(t.contas), t2.clientes, t2.portfolios);
  }

  lemma OpenClientRegistry(t: Tables, c: Cliente, id: int, pk: int)
    requires t.RegistryValid() && id !in t.clientes
    requires c.assessorId in t.assessores
    requires forall k :: k in t.clientes ==> t.clientes[k].email != c.email && t.clientes[k].cpfCnpj != c.cpfCnpj
    ensures t.(clientes := t.clientes[id := c], portfolios := t.portfolios[pk := Portfolio(id, CARTEIRA_PRINCIPAL)]).RegistryValid()
  {
    var cs := t.clientes[id := c];
    assert UniqueClientEmails(cs);
    assert UniqueClientCpfs(cs);
    assert ClientsHaveAdvisors(cs, t.assessores);
    assert LinksReference(t.links, cs, t.grupos);
    assert AuditsReference(t.auditorias, cs, t.assessores);
    assert AnswersReference(t.respostas, cs, t.versoes);
    assert PortfoliosReference(t.portfolios[pk := Portfolio(id, CARTEIRA_PRINCIPAL)], cs);
  }

  lemma OpenClientLedger(t: Tables, id: nat, ck: int, cs2: map<int, Cliente>, pf2: map<int, Portfolio>)
    requires t.LedgerValid() && ck !in t.contas
    requires !AccountNumberTaken(t.contas, Text.AccountNumber(id))
    requires t.clientes.Keys <= cs2.Keys && id in cs2 && t.portfolios.Keys <= pf2.Keys
    ensures t.(clientes := cs2, contas := t.contas[ck := NewAccount(id)], portfolios := pf2).LedgerValid()
  {
    var ct := t.contas[ck := NewAccount(id)];
    AccountInsertValid(t.contas, ck, NewAccount(id));
    assert MovementsReference(t.movimentacoes, ct);
    assert AccountsReference(ct, cs2);
    assert OrdersReference(t.ordens, pf2, t.produtos, t.movimentacoes);
    assert PositionsReference(t.posicoes, pf2, t.produtos);
  }

  /** A new account with a free number and a non-negative balance keeps the account constraints. */
  lemma AccountInsertValid(ct: map<int, Conta>, ck: int, a: Conta)
    requires UniqueAccountNumbers(ct) && NonNegativeBalances(ct) && ck !in ct
    requires !AccountNumberTaken(ct, a.numeroConta) && a.saldo >= 0.0
    ensures UniqueAccountNumbers(ct[ck := a]) && NonNegativeBalances(ct[ck := a])
  {
  }

  /** A route's answer: its HTTP status and the tables after the request (committed or rolled back). */
  datatype Outcome = Outcome(status: int, after: Tables)

  const EmptyTables := Tables(map[], map[], map[], map[], map[], map[], map[], map[],
                              map[], map[], map[], map[], map[], map[], map[], map[])

  // Uniqueness constraints.

  ghost predicate UniqueAdvisorEmails(m: map<int, Assessor>) {
    forall i, j :: i in m && j in m && m[i].email == m[j].email ==> i == j
  }

  ghost predicate UniqueClientEmails(m: map<int, Cliente>) {
    forall i, j :: i in m && j in m && m[i].email == m[j].email ==> i == j
  }

  ghost predicate UniqueClientCpfs(m: map<int, Cliente>) {
    forall i, j :: i in m && j in m && m[i].cpfCnpj == m[j].cpfCnpj ==> i == j
  }

  ghost predicate UniqueTickers(m: map<int, Produto>) {
    forall i, j :: i in m && j in m && m[i].ticker == m[j].ticker ==> i == j
  }

  ghost predicate UniqueAccountNumbers(m: map<int, Conta>) {
    forall i, j :: i in m && j in m && m[i].numeroConta == m[j].numeroConta ==> i == j
  }

  /** `uq_portfolio_produto`: at most one position per (portfolio, product). */
  ghost predicate UniquePositions(m: map<int, Posicao>) {
    forall i, j :: i in m && j in m && m[i].portfolioId == m[j].portfolioId && m[i].produtoId == m[j].produtoId ==> i == j
  }

  /** `uq_produto_data`: at most one closing price per (product, day). */
  ghost predicate UniquePrices(m: map<int, HistoricoPreco>) {
    forall i, j :: i in m && j in m && m[i].produtoId == m[j].produtoId && m[i].data == m[j].data ==> i == j
  }

  // Ledger invariants.

  /** A stored position always holds a positive quantity (it is deleted when it reaches zero). */
  ghost predicate PositiveQuantities(m: map<int, Posicao>) {
    forall k :: k in m ==> m[k].quantidade > 0.0
  }

  /** No account balance is negative. */
  ghost predicate NonNegativeBalances(m: map<int, Conta>) {
    forall k :: k in m ==> m[k].saldo >= 0.0
  }

  // Foreign keys.

  ghost predicate SuperiorsExist(m: map<int, Assessor>) {
    forall k :: k in m && m[k].superiorId.Some? ==> m[k].superiorId.value in m
  }

  ghost predicate ClientsHaveAdvisors(cs: map<int, Cliente>, as_: map<int, Assessor>) {
    forall k :: k in cs ==> cs[k].assessorId in as_
  }

  ghost predicate LinksReference(ls: map<LinkKey, Option<string>>, cs: map<int, Cliente>, gs: map<int, GrupoEconomico>) {
    forall l :: l in ls ==> l.clienteId in cs && l.grupoId in gs
  }

  ghost predicate AuditsReference(au: map<int, AuditoriaCompliance>, cs: map<int, Cliente>, as_: map<int, Assessor>) {
    forall k :: k in au ==> au[k].clienteId in cs && (au[k].assessorId.Some? ==> au[k].assessorId.value in as_)
  }

  ghost predicate QuestionsReference(ps: map<int, Pergunta>, vs: map<int, QuestionarioVersao>) {
    forall k :: k in ps ==> ps[k].versaoId in vs
  }

  ghost predicate OptionsReference(os: map<int, OpcaoResposta>, ps: map<int, Pergunta>) {
    forall k :: k in os ==> os[k].perguntaId in ps
  }

  ghost predicate AnswersReference(rs: map<int, RespostaSuitability>, cs: map<int, Cliente>, vs: map<int, QuestionarioVersao>) {
    forall k :: k in rs ==> rs[k].clienteId in cs && rs[k].versaoId in vs
  }

  ghost predicate PricesReference(pr: map<int, HistoricoPreco>, ps: map<int, Produto>) {
    forall k :: k in pr ==> pr[k].produtoId in ps
  }

  ghost predicate AccountsReference(ct: map<int, Conta>, cs: map<int, Cliente>) {
    forall k :: k in ct ==> ct[k].clienteId in cs
  }

  ghost predicate PortfoliosReference(pf: map<int, Portfolio>, cs: map<int, Cliente>) {
    forall k :: k in pf ==> pf[k].clienteId in cs
  }

  ghost predicate MovementsReference(ms: map<int, Movimentacao>, ct: map<int, Conta>) {
    forall k :: k in ms ==>
      (ms[k].contaOrigemId.Some? ==> ms[k].contaOrigemId.value in ct) &&
      (ms[k].contaDestinoId.Some? ==> ms[k].contaDestinoId.value in ct)
  }

  ghost predicate OrdersReference(os: map<int, Ordem>, pf: map<int, Portfolio>, ps: map<int, Produto>, ms: map<int, Movimentacao>) {
    forall k :: k in os ==>
      os[k].portfolioId in pf && os[k].produtoId in ps &&
      (os[k].movimentacaoIdLiquidacao.Some? ==> os[k].movimentacaoIdLiquidacao.value in ms)
  }

  ghost predicate PositionsReference(po: map<int, Posicao>, pf: map<int, Portfolio>, ps: map<int, Produto>) {
    forall k :: k in po ==> po[k].portfolioId in pf && po[k].produtoId in ps
  }

  // --------------------------------------------------------------- the database

  /** The database a request works on: one mutable map per table. */
  class Database {
    /** The committed contents of every table. */
    var tables: Tables

    ghost predicate Valid()
      reads this
    {
      tables.Valid()
    }

    /** An empty database. */
    constructor()
      ensures tables == EmptyTables && Valid()
    {
      tables := EmptyTables;
    }

    /** Commit a session's staged changes: afterwards the tables are `t2`. */
    method Commit(t2: Tables)
      modifies this
      ensures tables == t2
    {
      tables := t2;
    }

    /** Commit staged changes to the ledger tables (accounts, movements, orders, positions). */
    method CommitLedger(contas2: map<int, Conta>, movimentacoes2: map<int, Movimentacao>, ordens2: map<int, Ordem>,
                        posicoes2: map<int, Posicao>)
      modifies this
      ensures tables == old(tables).(contas := contas2, movimentacoes := movimentacoes2, ordens := ordens2,
                                     posicoes := posicoes2)
    {
      tables := tables.(contas := contas2, movimentacoes := movimentacoes2, ordens := ordens2, posicoes := posicoes2);
    }
  }

  // ------------------------------------------------------------------ queries

  /** The identity value the database assigns to a new row: above every existing key. */
  function FreshKey<T>(m: map<int, T>): (k: int)
    ensures k > 0 && k !in m
    ensures forall x :: x in m ==> x < k
  {
    if m == map[] then 1
    else
      var top := Sets.Max(m.Keys);
      if top < 1 then 1 else top + 1
  }

  /**
   * An unordered `.first()` over the rows whose keys are `ks`: the smallest
   * key, or `None` when no row matches.
   */
  function First(ks: set<int>): (r: Option<int>)
    ensures r.None? <==> ks == {}
    ensures r.Some? ==> r.value in ks && forall k :: k in ks ==> r.value <= k
  {
    if ks == {} then None else Some(Sets.Min(ks))
  }

  /** `Cliente.query.filter_by(Email=e).first()`. */
  function ClientByEmail(cs: map<int, Cliente>, e: string): (r: Option<int>)
    ensures r.None? <==> forall k :: k in cs ==> cs[k].email != e
    ensures r.Some? ==> r.value in cs && cs[r.value].email == e
    ensures r.Some? ==> forall k :: k in cs && cs[k].email == e ==> r.value <= k
  {
    var ks := set k | k in cs && cs[k].email == e;
    assert forall k :: k in cs && cs[k].email == e ==> k in ks;
    First(ks)
  }

  /** `Cliente.query.filter_by(CPF_CNPJ=d).first()`. */
  function ClientByCpf(cs: map<int, Cliente>, d: string): (r: Option<int>)
    ensures r.None? <==> forall k :: k in cs ==> cs[k].cpfCnpj != d
    ensures r.Some? ==> r.value in cs && cs[r.value].cpfCnpj == d
    ensures r.Some? ==> forall k :: k in cs && cs[k].cpfCnpj == d ==> r.value <= k
  {
    var ks := set k | k in cs && cs[k].cpfCnpj == d;
    assert forall k :: k in cs && cs[k].cpfCnpj == d ==> k in ks;
    First(ks)
  }

  /** `Assessor.query.filter_by(Email=e).first()`. */
  function AdvisorByEmail(as_: map<int, Assessor>, e: string): (r: Option<int>)
    ensures r.None? <==> forall k :: k in as_ ==> as_[k].email != e
    ensures r.Some? ==> r.value in as_ && as_[r.value].email == e
    ensures r.Some? ==> forall k :: k in as_ && as_[k].email == e ==> r.value <= k
  {
    var ks := set k | k in as_ && as_[k].email == e;
    assert forall k :: k in as_ && as_[k].email == e ==> k in ks;
    First(ks)
  }

  /**
   * Whether client `c` exists and is advised by `a`: the advisor routes'
   * `Cliente.query.filter_by(ClienteID=c, AssessorID=a).first()` finds a row.
   */
  predicate AdvisesClient(cs: map<int, Cliente>, a: int, c: int) {
    c in cs && cs[c].assessorId == a
  }

  /** Whether some account already carries number `n` (the unique NumeroConta column). */
  predicate AccountNumberTaken(ct: map<int, Conta>, n: string) {
    exists k :: k in ct && ct[k].numeroConta == n
  }

  /** `Conta.query.filter_by(ClienteID=c).first()`. */
  function FirstAccountOf(ct: map<int, Conta>, c: int): (r: Option<int>)
    ensures r.None? <==> forall k :: k in ct ==> ct[k].clienteId != c
    ensures r.Some? ==> r.value in ct && ct[r.value].clienteId == c
    ensures r.Some? ==> forall k :: k in ct && ct[k].clienteId == c ==> r.value <= k
  {
    var ks := set k | k in ct && ct[k].clienteId == c;
    assert forall k :: k in ct && ct[k].clienteId == c ==> k in ks;
    First(ks)
  }

  /** `Portfolio.query.filter_by(ClienteID=c).first()`. */
  function FirstPortfolioOf(pf: map<int, Portfolio>, c: int): (r: Option<int>)
    ensures r.None? <==> forall k :: k in pf ==> pf[k].clienteId != c
    ensures r.Some? ==> r.value in pf && pf[r.value].clienteId == c
    ensures r.Some? ==> forall k :: k in pf && pf[k].clienteId == c ==> r.value <= k
  {
    var ks := set k | k in pf && pf[k].clienteId == c;
    assert forall k :: k in pf && pf[k].clienteId == c ==> k in ks;
    First(ks)
  }

  /** `Posicao.query.filter_by(PortfolioID=pf, ProdutoID=pr).first()`. */
  function PositionAt(po: map<int, Posicao>, pf: int, pr: int): (r: Option<int>)
    ensures r.None? <==> forall k :: k in po ==> !(po[k].portfolioId == pf && po[k].produtoId == pr)
    ensures r.Some? ==> r.value in po && po[r.value].portfolioId == pf && po[r.value].produtoId == pr
    ensures r.Some? ==> forall k :: k in po && po[k].portfolioId == pf && po[k].produtoId == pr ==> r.value <= k
  {
    var ks := set k | k in po && po[k].portfolioId == pf && po[k].produtoId == pr;
    assert forall k :: k in po && po[k].portfolioId == pf && po[k].produtoId == pr ==> k in ks;
    First(ks)
  }

  /** The positions held in portfolio `pf` (`Posicao.query.filter_by(PortfolioID=pf).all()`). */
  function PositionsOf(po: map<int, Posicao>, pf: int): (r: map<int, Posicao>)
    ensures forall k :: k in r <==> k in po && po[k].portfolioId == pf
    ensures forall k :: k in r ==> r[k] == po[k]
  {
    map k | k in po && po[k].portfolioId == pf :: po[k]
  }

  /**
   * The price row the latest-price subquery joins for product `pr`: a row
   * of `pr` on its latest date (`None` when `pr` has no price history).
   */
  function LatestPriceRow(pr: map<int, HistoricoPreco>, produto: int): (r: Option<int>)
    ensures r.None? <==> forall k :: k in pr ==> pr[k].produtoId != produto
    ensures r.Some? ==> r.value in pr && pr[r.value].produtoId == produto
    ensures r.Some? ==> forall k :: k in pr && pr[k].produtoId == produto ==> pr[k].data <= pr[r.value].data
  {
    var dates := set k | k in pr && pr[k].produtoId == produto :: pr[k].data;
    if dates == {} then
      assert forall k :: k in pr && pr[k].produtoId == produto ==> pr[k].data in dates;
      None
    else
      var latest := Sets.Max(dates);
      var ks := set k | k in pr && pr[k].produtoId == produto && pr[k].data == latest;
      assert ks != {} by {
        var k :| k in pr && pr[k].produtoId == produto && pr[k].data == latest;
        assert k in ks;
      }
      assert forall k :: k in pr && pr[k].produtoId == produto ==> pr[k].data in dates;
      Some(Sets.Min(ks))
  }

  /** The latest closing price of a product, or 0 when it has no price history. */
  function PriceOrZero(pr: map<int, HistoricoPreco>, produto: int): real
  {
    match LatestPriceRow(pr, produto)
    case None => 0.0
    case Some(k) => pr[k].precoFechamento
  }

  /**
   * `mapa_precos`: the latest closing price of each of `produtos` that has a
   * price history (the latest-price subquery joined back to HistoricoPreco).
   */
  function LatestPrices(pr: map<int, HistoricoPreco>, produtos: set<int>): (m: map<int, real>)
    ensures forall x :: x in m <==> x in produtos && exists k :: k in pr && pr[k].produtoId == x
    ensures forall x :: x in produtos ==> PriceIn(m, x) == PriceOrZero(pr, x)
  {
    map x | x in produtos && LatestPriceRow(pr, x).Some? :: pr[LatestPriceRow(pr, x).value].precoFechamento
  }

  /** `mapa_precos.get(ProdutoID, 0)`. */
  function PriceIn(m: map<int, real>, produto: int): real {
    if produto in m then m[produto] else 0.0
  }

  /**
   * With one price per (product, day), "the price on the latest date" is a
   * single row: any row of the product on a date no earlier than every other
   * is the one the query picks.
   */
  lemma LatestPriceUnique(pr: map<int, HistoricoPreco>, produto: int, k: int)
    requires UniquePrices(pr)
    requires k in pr && pr[k].produtoId == produto
    requires forall j :: j in pr && pr[j].produtoId == produto ==> pr[j].data <= pr[k].data
    ensures LatestPriceRow(pr, produto) == Some(k)
  {
    var r := LatestPriceRow(pr, produto).value;
    assert pr[r].data == pr[k].data;
  }
}

=== FILE: order_routes.dfy ===
/**
 * `POST /ordem` (`execute_order`): a buy or sell of a product in a
 * portfolio, settled against the cash balance of the portfolio owner's
 * account, recorded as one movement plus one order, and folded into the
 * portfolio's position with a weighted-average cost.
 */
module OrderRoutes {
  import opened Wrappers
  import opened Requests
  import opened Models
  import Text

  /** The JSON body: `portfolio_id`, `produto_id`, `tipo_ordem`, `quantidade`, `preco_unitario`. */
  datatype OrderBody = OrderBody(portfolioId: Field<int>, produtoId: Field<int>, tipoOrdem: Field<string>,
                                 quantidade: Field<DecimalText>, precoUnitario: Field<DecimalText>)

  predicate HasRequiredFields(b: OrderBody) {
    !b.portfolioId.Absent? && !b.produtoId.Absent? && !b.tipoOrdem.Absent?
    && !b.quantidade.Absent? && !b.precoUnitario.Absent?
  }

  const COMPRA := "Compra"
  const VENDA := "Venda"
  const APLICACAO := "Aplicacao"
  const RESGATE := "Resgate"

  /** An order that passed the checks made before the database is read. */
  datatype OrderRequest = OrderRequest(role: string, userId: int, portfolioId: Option<int>, produtoId: Option<int>,
                                       tipoOrdem: string, quantidade: real, precoUnitario: real)

  /**
   * The checks before any read: a missing body or field (400), an identity
   * that is not an integer (400), a null order type (`.strip()` on None, 500),
   * unparsable numbers (400) and non-positive numbers (400).
   */
  function ParseOrder(claims: Claims, body: Option<OrderBody>): (r: Checked<OrderRequest>)
    ensures body.None? || !HasRequiredFields(body.value) ==> r == Fail(BAD_REQUEST)
    ensures r.Fail? ==> r.status == BAD_REQUEST || r.status == SERVER_ERROR
    ensures r == Fail(SERVER_ERROR) <==>
              body.Some? && HasRequiredFields(body.value) && claims.identity.Some? && body.value.tipoOrdem.Null?
    ensures r.Pass? <==>
              && body.Some? && HasRequiredFields(body.value) && claims.identity.Some? && body.value.tipoOrdem.Given?
              && ParseDecimal(body.value.quantidade).Some? && ParseDecimal(body.value.quantidade).value > 0.0
              && ParseDecimal(body.value.precoUnitario).Some? && ParseDecimal(body.value.precoUnitario).value > 0.0
    ensures r.Pass? ==>
              && r.value.quantidade == ParseDecimal(body.value.quantidade).value
              && r.value.precoUnitario == ParseDecimal(body.value.precoUnitario).value
              && r.value.userId == claims.identity.value
              && r.value.role == claims.role.GetOr(CLIENTE_ROLE)
              && r.value.tipoOrdem == Text.NormalizeWord(body.value.tipoOrdem.value)
              && r.value.portfolioId == body.value.portfolioId.AsOption()
              && r.value.produtoId == body.value.produtoId.AsOption()
  {
    if body.None? || !HasRequiredFields(body.value) then Fail(BAD_REQUEST)
    else if claims.identity.None? then Fail(BAD_REQUEST)
    else
      var b := body.value;
      if b.tipoOrdem.Null? then Fail(SERVER_ERROR)
      else
        var q := ParseDecimal(b.quantidade);
        var p := ParseDecimal(b.precoUnitario);
        if q.None? || p.None? then Fail(BAD_REQUEST)
        else if q.value <= 0.0 || p.value <= 0.0 then Fail(BAD_REQUEST)
        else Pass(OrderRequest(claims.role.GetOr(CLIENTE_ROLE), claims.identity.value,
                               b.portfolioId.AsOption(), b.produtoId.AsOption(),
                               Text.NormalizeWord(b.tipoOrdem.value), q.value, p.value))
  }

  /** What the order acts on: the portfolio, the product, the portfolio's owner and the owner's first account. */
  datatype Target = Target(portfolioId: int, produtoId: int, ownerId: int, contaId: int)

  /** Whether the requester may trade in a portfolio of `owner`: its own, or one of its clients'. */
  predicate MayTrade(t: Tables, o: OrderRequest, owner: int) {
    if o.role == CLIENTE_ROLE then owner == o.userId
    else owner in t.clientes && t.clientes[owner].assessorId == o.userId
  }

  /**
   * Portfolio lookup (404), ownership (403), product lookup (404) and the
   * owner's account (404).  An owner row that is missing makes the source
   * dereference None (500).
   */
  function Locate(t: Tables, o: OrderRequest): (r: Checked<Target>)
    ensures r.Pass? ==>
              && o.portfolioId == Some(r.value.portfolioId) && r.value.portfolioId in t.portfolios
              && t.portfolios[r.value.portfolioId].clienteId == r.value.ownerId
              && o.produtoId == Some(r.value.produtoId) && r.value.produtoId in t.produtos
              && r.value.ownerId in t.clientes && MayTrade(t, o, r.value.ownerId)
              && FirstAccountOf(t.contas, r.value.ownerId) == Some(r.value.contaId)
    ensures o.portfolioId.None? || o.portfolioId.value !in t.portfolios ==> r == Fail(NOT_FOUND)
    ensures (o.portfolioId.Some? && o.portfolioId.value in t.portfolios
             && t.portfolios[o.portfolioId.value].clienteId in t.clientes
             && !MayTrade(t, o, t.portfolios[o.portfolioId.value].clienteId)) ==> r == Fail(FORBIDDEN)
    ensures r.Fail? ==> r.status in {FORBIDDEN, NOT_FOUND, SERVER_ERROR}
    ensures o.portfolioId.Some? && o.portfolioId.value in t.portfolios ==>
              var owner := t.portfolios[o.portfolioId.value].clienteId;
              MayTrade(t, o, owner) && (o.produtoId.None? || o.produtoId.value !in t.produtos) ==> r == Fail(NOT_FOUND)
    ensures o.portfolioId.Some? && o.portfolioId.value in t.portfolios ==>
              var owner := t.portfolios[o.portfolioId.value].clienteId;
              owner !in t.clientes
              && (o.role != CLIENTE_ROLE || (owner == o.userId && o.produtoId.Some? && o.produtoId.value in t.produtos))
              ==> r == Fail(SERVER_ERROR)
    ensures o.portfolioId.Some? && o.portfolioId.value in t.portfolios ==>
              var owner := t.portfolios[o.portfolioId.value].clienteId;
              owner in t.clientes && MayTrade(t, o, owner) && o.produtoId.Some? && o.produtoId.value in t.produtos ==>
                && (r.Pass? <==> FirstAccountOf(t.contas, owner).Some?)
                && (r.Fail? ==> r == Fail(NOT_FOUND))
  {
    if o.portfolioId.None? || o.portfolioId.value !in t.portfolios then Fail(NOT_FOUND)
    else
      var pid := o.portfolioId.value;
      var owner := t.portfolios[pid].clienteId;
      if o.role == CLIENTE_ROLE && owner != o.userId then Fail(FORBIDDEN)
      else if o.role != CLIENTE_ROLE && owner !in t.clientes then Fail(SERVER_ERROR)
      else if o.role != CLIENTE_ROLE && t.clientes[owner].assessorId != o.userId then Fail(FORBIDDEN)
      else if o.produtoId.None? || o.produtoId.value !in t.produtos then Fail(NOT_FOUND)
      else if owner !in t.clientes then Fail(SERVER_ERROR)
      else
        match FirstAccountOf(t.contas, owner)
        case None => Fail(NOT_FOUND)
        case Some(c) => Pass(Target(pid, o.produtoId.value, owner, c))
  }

  /** The weighted-average cost after buying `qty` at `price` on top of `q0` held at `c0`. */
  function WeightedAverageCost(q0: real, c0: real, qty: real, price: real): (c: real)
    requires q0 + qty != 0.0
    ensures (q0 + qty) * c == q0 * c0 + qty * price
  {
    (q0 * c0 + qty * price) / (q0 + qty)
  }

  /** The new average cost lies between the old average cost and the price paid. */
  lemma WeightedAverageBetween(q0: real, c0: real, qty: real, price: real)
    requires q0 > 0.0 && qty > 0.0
    ensures c0 <= price ==> c0 <= WeightedAverageCost(q0, c0, qty, price) <= price
    ensures price <= c0 ==> price <= WeightedAverageCost(q0, c0, qty, price) <= c0
  {
    var c := WeightedAverageCost(q0, c0, qty, price);
    assert (q0 + qty) * (c - c0) == qty * (price - c0);
    assert (q0 + qty) * (price - c) == q0 * (price - c0);
    if c0 <= price {
      assert qty * (price - c0) >= 0.0;
      assert q0 * (price - c0) >= 0.0;
    } else {
      assert qty * (c0 - price) >= 0.0;
      assert q0 * (c0 - price) >= 0.0;
    }
  }

  /**
   * The position upsert of a buy: add to the existing row with a new
   * weighted-average cost, or insert a row at the price paid.  `None` where
   * the division raises (a held quantity of exactly `-qty`).
   */
  function BuyPosition(po: map<int, Posicao>, pf: int, pr: int, qty: real, price: real): Option<map<int, Posicao>> {
    match PositionAt(po, pf, pr)
    case None => Some(po[FreshKey(po) := Posicao(pf, pr, qty, price)])
    case Some(k) =>
      var p := po[k];
      if p.quantidade + qty == 0.0 then None
      else Some(po[k := p.(custoMedio := WeightedAverageCost(p.quantidade, p.custoMedio, qty, price),
                           quantidade := p.quantidade + qty)])
  }

  /** The position update of a sell: reduce the row, deleting it when it reaches exactly zero. */
  function SellPosition(po: map<int, Posicao>, k: int, qty: real): map<int, Posicao>
    requires k in po
  {
    var q := po[k].quantidade - qty;
    if q == 0.0 then po - {k} else po[k := po[k].(quantidade := q)]
  }

  /** The quantity of a product a portfolio holds (0 without a position row). */
  function Holding(po: map<int, Posicao>, pf: int, pr: int): real {
    match PositionAt(po, pf, pr)
    case None => 0.0
    case Some(k) => po[k].quantidade
  }

  /** What a portfolio's holding of a product cost: quantity times average cost (0 without a row). */
  function HoldingCost(po: map<int, Posicao>, pf: int, pr: int): real {
    match PositionAt(po, pf, pr)
    case None => 0.0
    case Some(k) => po[k].quantidade * po[k].custoMedio
  }

  /** Rows of other (portfolio, product) pairs are the same in `po2` as in `po`. */
  ghost predicate OthersUnchanged(po: map<int, Posicao>, po2: map<int, Posicao>, pf: int, pr: int) {
    forall k :: k in po && !(po[k].portfolioId == pf && po[k].produtoId == pr) ==> k in po2 && po2[k] == po[k]
  }

  /** Every row of `po2` is a row of `po` for the same (portfolio, product) pair, or a new row for (`pf`, `pr`). */
  ghost predicate SamePairs(po: map<int, Posicao>, po2: map<int, Posicao>, pf: int, pr: int) {
    && (forall k :: k in po2 && k !in po ==> po2[k].portfolioId == pf && po2[k].produtoId == pr)
    && (forall k :: k in po2 && k in po ==> po2[k].portfolioId == po[k].portfolioId && po2[k].produtoId == po[k].produtoId)
  }

  /**
   * A buy adds `qty` to the holding and `qty * price` to its cost, keeps
   * one positive row per (portfolio, product), and leaves other holdings alone.
   */
  lemma BuyHolding(po: map<int, Posicao>, pf: int, pr: int, qty: real, price: real)
    requires UniquePositions(po) && PositiveQuantities(po) && qty > 0.0
    ensures BuyPosition(po, pf, pr, qty, price).Some?
    ensures var po2 := BuyPosition(po, pf, pr, qty, price).value;
              && Holding(po2, pf, pr) == Holding(po, pf, pr) + qty
              && HoldingCost(po2, pf, pr) == HoldingCost(po, pf, pr) + qty * price
              && UniquePositions(po2) && PositiveQuantities(po2)
              && OthersUnchanged(po, po2, pf, pr) && SamePairs(po, po2, pf, pr)
  {
    var po2 := BuyPosition(po, pf, pr, qty, price).value;
    match PositionAt(po, pf, pr)
    case None =>
      var n := FreshKey(po);
      assert n in po2 && po2[n].portfolioId == pf && po2[n].produtoId == pr;
      assert forall k :: k in po ==> k in po2 && po2[k] == po[k];
    case Some(k) =>
      assert forall j :: j in po2 && po2[j].portfolioId == pf && po2[j].produtoId == pr ==> j == k;
      assert PositionAt(po2, pf, pr) == Some(k);
  }

  /**
   * A sell of `qty <= held` removes `qty` from the holding at unchanged
   * average cost, deletes the row when nothing is left, and leaves other
   * holdings alone.
   */
  lemma SellHolding(po: map<int, Posicao>, pf: int, pr: int, qty: real)
    requires UniquePositions(po) && PositiveQuantities(po) && qty > 0.0
    requires PositionAt(po, pf, pr).Some? && qty <= po[PositionAt(po, pf, pr).value].quantidade
    ensures var k := PositionAt(po, pf, pr).value;
            var po2 := SellPosition(po, k, qty);
              && Holding(po2, pf, pr) == Holding(po, pf, pr) - qty
              && HoldingCost(po2, pf, pr) == HoldingCost(po, pf, pr) - qty * po[k].custoMedio
              && UniquePositions(po2) && PositiveQuantities(po2)
              && OthersUnchanged(po, po2, pf, pr) && SamePairs(po, po2, pf, pr)
  {
    var k := PositionAt(po, pf, pr).value;
    var po2 := SellPosition(po, k, qty);
    if po[k].quantidade - qty == 0.0 {
      assert PositionAt(po2, pf, pr).None?;
    } else {
      assert forall j :: j in po2 && po2[j].portfolioId == pf && po2[j].produtoId == pr ==> j == k;
      assert PositionAt(po2, pf, pr) == Some(k);
    }
  }

  /** Lines 168-187: the settlement movement and the executed order, with the account's new balance. */
  function Record(t: Tables, o: OrderRequest, g: Target, saldo: real, origem: Option<int>, destino: Option<int>,
                  tipoMov: string, po: map<int, Posicao>): Tables
    requires g.contaId in t.contas
  {
    var movId := FreshKey(t.movimentacoes);
    t.(contas := t.contas[g.contaId := t.contas[g.contaId].(saldo := saldo)],
       movimentacoes := t.movimentacoes[movId := SettlementMovement(o, origem, destino, tipoMov)],
       ordens := t.ordens[FreshKey(t.ordens) := ExecutedOrder(o, g, movId)],
       posicoes := po)
  }

  /** The processed movement of `qty * price` that settles an order. */
  function SettlementMovement(o: OrderRequest, origem: Option<int>, destino: Option<int>, tipoMov: string): Movimentacao {
    Movimentacao(origem, destino, tipoMov, o.quantidade * o.precoUnitario, MOVIMENTACAO_PROCESSADA)
  }

  /** The executed order, settled by movement `movId`. */
  function ExecutedOrder(o: OrderRequest, g: Target, movId: int): Ordem {
    Ordem(g.portfolioId, g.produtoId, Some(movId), o.tipoOrdem, o.quantidade, o.precoUnitario, ORDEM_EXECUTADA)
  }

  /** Lines 143-216: the balance check and the settlement of a buy or a sell. */
  function Settle(t: Tables, o: OrderRequest, g: Target): Outcome
    requires g.contaId in t.contas
  {
    var total := o.quantidade * o.precoUnitario;
    var saldo := t.contas[g.contaId].saldo;
    if o.tipoOrdem == COMPRA then
      if saldo < total then Outcome(BAD_REQUEST, t)
      else
        match BuyPosition(t.posicoes, g.portfolioId, g.produtoId, o.quantidade, o.precoUnitario)
        case None => Outcome(SERVER_ERROR, t)
        case Some(po) => Outcome(CREATED, Record(t, o, g, saldo - total, Some(g.contaId), None, APLICACAO, po))
    else if o.tipoOrdem == VENDA then
      match PositionAt(t.posicoes, g.portfolioId, g.produtoId)
      case None => Outcome(BAD_REQUEST, t)
      case Some(k) =>
        if t.posicoes[k].quantidade < o.quantidade then Outcome(BAD_REQUEST, t)
        else Outcome(CREATED, Record(t, o, g, saldo + total, None, Some(g.contaId), RESGATE,
                                     SellPosition(t.posicoes, k, o.quantidade)))
    else Outcome(BAD_REQUEST, t)
  }

  /**
   * The whole route.  Every failure answers before the commit (or rolls
   * back), so any status other than 201 leaves every table as it was; a
   * success needed a well-formed, positive, owned order of type Compra or Venda.
   */
  function Execute(t: Tables, claims: Claims, body: Option<OrderBody>): (r: Outcome)
    ensures r.status != CREATED ==> r.after == t
    ensures r.status in {CREATED, BAD_REQUEST, FORBIDDEN, NOT_FOUND, SERVER_ERROR}
    ensures body.None? || !HasRequiredFields(body.value) ==> r.status == BAD_REQUEST
    ensures r.status == CREATED ==>
              && ParseOrder(claims, body).Pass? && Locate(t, ParseOrder(claims, body).value).Pass?
              && ParseOrder(claims, body).value.tipoOrdem in {COMPRA, VENDA}
  {
    match ParseOrder(claims, body)
    case Fail(s) => Outcome(s, t)
    case Pass(o) =>
      match Locate(t, o)
      case Fail(s) => Outcome(s, t)
      case Pass(g) => Settle(t, o, g)
  }

  /** An order is only ever executed for the portfolio's owner or for the owner's advisor. */
  lemma ExecuteOnlyForOwnerOrAdvisor(t: Tables, claims: Claims, body: Option<OrderBody>)
    requires Execute(t, claims, body).status == CREATED
    ensures var pid := body.value.portfolioId.value;
            var owner := t.portfolios[pid].clienteId;
              && body.value.portfolioId.Given? && pid in t.portfolios && owner in t.clientes
              && (claims.role.GetOr(CLIENTE_ROLE) == CLIENTE_ROLE ==> claims.identity == Some(owner))
              && (claims.role.GetOr(CLIENTE_ROLE) != CLIENTE_ROLE ==> claims.identity == Some(t.clientes[owner].assessorId))
  {
    var o := ParseOrder(claims, body).value;
    var g := Locate(t, o).value;
    assert MayTrade(t, o, g.ownerId);
  }

  /** The settlement the route reaches when it answers 201. */
  lemma ExecuteSettles(t: Tables, claims: Claims, body: Option<OrderBody>)
    requires Execute(t, claims, body).status == CREATED
    ensures var o := ParseOrder(claims, body).value;
            var g := Locate(t, o).value;
              && g.contaId in t.contas && t.contas[g.contaId].clienteId == g.ownerId
              && g.portfolioId in t.portfolios && g.produtoId in t.produtos
              && o.quantidade > 0.0 && o.precoUnitario > 0.0
              && Execute(t, claims, body) == Settle(t, o, g)
  {
  }

  /**
   * Once the order is well formed and its portfolio, product and account are
   * found in valid tables, only the settlement decides: a buy is executed
   * exactly when the owner's account covers `qty * price`, a sell exactly
   * when the portfolio holds at least `qty`, and every other answer,
   * including any order type other than Compra or Venda, is 400.
   */
  lemma ExecuteAccepts(t: Tables, claims: Claims, body: Option<OrderBody>)
    requires t.Valid()
    requires ParseOrder(claims, body).Pass? && Locate(t, ParseOrder(claims, body).value).Pass?
    ensures var o := ParseOrder(claims, body).value;
            var g := Locate(t, o).value;
            var r := Execute(t, claims, body);
              && r.status in {CREATED, BAD_REQUEST}
              && (o.tipoOrdem == COMPRA ==>
                    (r.status == CREATED <==> t.contas[g.contaId].saldo >= o.quantidade * o.precoUnitario))
              && (o.tipoOrdem == VENDA ==>
                    (r.status == CREATED <==> Holding(t.posicoes, g.portfolioId, g.produtoId) >= o.quantidade))
              && (o.tipoOrdem != COMPRA && o.tipoOrdem != VENDA ==> r.status == BAD_REQUEST)
  {
    var o := ParseOrder(claims, body).value;
    var g := Locate(t, o).value;
    if o.tipoOrdem == COMPRA {
      BuyHolding(t.posicoes, g.portfolioId, g.produtoId, o.quantidade, o.precoUnitario);
    }
  }

  /**
   * A successful buy: the owner's account had at least `qty * price` and
   * now holds exactly that much less; one 'Aplicacao' movement out of that
   * account and one order settled by it are added; the holding grows by
   * `qty` and its cost by `qty * price`; no other account or holding changes.
   */
  lemma ExecuteBuy(t: Tables, claims: Claims, body: Option<OrderBody>)
    requires t.Valid()
    requires Execute(t, claims, body).status == CREATED
    requires ParseOrder(claims, body).value.tipoOrdem == COMPRA
    ensures var o := ParseOrder(claims, body).value;
            var g := Locate(t, o).value;
            BuyEffect(t, Execute(t, claims, body).after, o, g)
  {
    var o := ParseOrder(claims, body).value;
    var g := Locate(t, o).value;
    ExecuteSettles(t, claims, body);
    SettleBuy(t, o, g);
  }

  /** What a successful buy does to the tables. */
  ghost predicate BuyEffect(t: Tables, t2: Tables, o: OrderRequest, g: Target)
    requires g.contaId in t.contas
  {
    var total := o.quantidade * o.precoUnitario;
    var movId := FreshKey(t.movimentacoes);
    && t.contas[g.contaId].saldo >= total
    && t2.contas == t.contas[g.contaId := t.contas[g.contaId].(saldo := t.contas[g.contaId].saldo - total)]
    && t2.movimentacoes == t.movimentacoes[movId := Movimentacao(Some(g.contaId), None, APLICACAO, total, MOVIMENTACAO_PROCESSADA)]
    && t2.ordens == t.ordens[FreshKey(t.ordens) := Ordem(g.portfolioId, g.produtoId, Some(movId), COMPRA,
                                                           o.quantidade, o.precoUnitario, ORDEM_EXECUTADA)]
    && Holding(t2.posicoes, g.portfolioId, g.produtoId) == Holding(t.posicoes, g.portfolioId, g.produtoId) + o.quantidade
    && HoldingCost(t2.posicoes, g.portfolioId, g.produtoId) == HoldingCost(t.posicoes, g.portfolioId, g.produtoId) + total
    && OthersUnchanged(t.posicoes, t2.posicoes, g.portfolioId, g.produtoId)
    && SamePairs(t.posicoes, t2.posicoes, g.portfolioId, g.produtoId)
    && t2 == t.(contas := t2.contas, movimentacoes := t2.movimentacoes, ordens := t2.ordens, posicoes := t2.posicoes)
  }

  lemma SettleBuy(t: Tables, o: OrderRequest, g: Target)
    requires UniquePositions(t.posicoes) && PositiveQuantities(t.posicoes)
    requires g.contaId in t.contas && o.quantidade > 0.0
    requires o.tipoOrdem == COMPRA && Settle(t, o, g).status == CREATED
    ensures BuyEffect(t, Settle(t, o, g).after, o, g)
  {
    BuyHolding(t.posicoes, g.portfolioId, g.produtoId, o.quantidade, o.precoUnitario);
  }

  /**
   * A successful sell: the portfolio held at least `qty`; the owner's
   * account gains exactly `qty * price`; one 'Resgate' movement into that
   * account and one order settled by it are added; the holding shrinks by
   * `qty` at unchanged average cost; no other account or holding changes.
   */
  lemma ExecuteSell(t: Tables, claims: Claims, body: Option<OrderBody>)
    requires t.Valid()
    requires Execute(t, claims, body).status == CREATED
    requires ParseOrder(claims, body).value.tipoOrdem == VENDA
    ensures var o := ParseOrder(claims, body).value;
            var g := Locate(t, o).value;
            SellEffect(t, Execute(t, claims, body).after, o, g)
  {
    var o := ParseOrder(claims, body).value;
    var g := Locate(t, o).value;
    ExecuteSettles(t, claims, body);
    SettleSell(t, o, g);
  }

  /** What a successful sell does to the tables. */
  ghost predicate SellEffect(t: Tables, t2: Tables, o: OrderRequest, g: Target)
    requires g.contaId in t.contas
  {
    var total := o.quantidade * o.precoUnitario;
    var movId := FreshKey(t.movimentacoes);
    var k := PositionAt(t.posicoes, g.portfolioId, g.produtoId);
    && k.Some? && t.posicoes[k.value].quantidade >= o.quantidade
    && t2.contas == t.contas[g.contaId := t.contas[g.contaId].(saldo := t.contas[g.contaId].saldo + total)]
    && t2.movimentacoes == t.movimentacoes[movId := Movimentacao(None, Some(g.contaId), RESGATE, total, MOVIMENTACAO_PROCESSADA)]
    && t2.ordens == t.ordens[FreshKey(t.ordens) := Ordem(g.portfolioId, g.produtoId, Some(movId), VENDA,
                                                           o.quantidade, o.precoUnitario, ORDEM_EXECUTADA)]
    && Holding(t2.posicoes, g.portfolioId, g.produtoId) == Holding(t.posicoes, g.portfolioId, g.produtoId) - o.quantidade
    && HoldingCost(t2.posicoes, g.portfolioId, g.produtoId)
         == HoldingCost(t.posicoes, g.portfolioId, g.produtoId) - o.quantidade * t.posicoes[k.value].custoMedio
    && OthersUnchanged(t.posicoes, t2.posicoes, g.portfolioId, g.produtoId)
    && SamePairs(t.posicoes, t2.posicoes, g.portfolioId, g.produtoId)
    && t2 == t.(contas := t2.contas, movimentacoes := t2.movimentacoes, ordens := t2.ordens, posicoes := t2.posicoes)
  }

  lemma SettleSell(t: Tables, o: OrderRequest, g: Target)
    requires UniquePositions(t.posicoes) && PositiveQuantities(t.posicoes)
    requires g.contaId in t.contas && o.quantidade > 0.0
    requires o.tipoOrdem == VENDA && Settle(t, o, g).status == CREATED
    ensures SellEffect(t, Settle(t, o, g).after, o, g)
  {
    SellHolding(t.posicoes, g.portfolioId, g.produtoId, o.quantidade);
  }

  /** Executing an order keeps every constraint: balances stay non-negative, positions positive and unique, references valid. */
  lemma ExecutePreservesValid(t: Tables, claims: Claims, body: Option<OrderBody>)
    requires t.Valid()
    ensures Execute(t, claims, body).after.Valid()
  {
    if Execute(t, claims, body).status == CREATED {
      var o := ParseOrder(claims, body).value;
      var g := Locate(t, o).value;
      ExecuteSettles(t, claims, body);
      SettlePreservesValid(t, o, g);
    }
  }

  lemma SettlePreservesValid(t: Tables, o: OrderRequest, g: Target)
    requires t.Valid()
    requires g.contaId in t.contas && g.portfolioId in t.portfolios && g.produtoId in t.produtos
    requires o.quantidade > 0.0 && o.precoUnitario > 0.0
    requires Settle(t, o, g).status == CREATED
    ensures Settle(t, o, g).after.Valid()
  {
    if o.tipoOrdem == COMPRA {
      SettleBuyRecords(t, o, g);
      SettleBuyValid(t, o, g);
    } else {
      SettleSellRecords(t, o, g);
      SettleSellValid(t, o, g);
    }
    LedgerChangeValid(t, Settle(t, o, g).after);
  }

  lemma SettleBuyValid(t: Tables, o: OrderRequest, g: Target)
    requires t.LedgerValid()
    requires g.contaId in t.contas && g.portfolioId in t.portfolios && g.produtoId in t.produtos
    requires o.quantidade > 0.0 && o.precoUnitario > 0.0
    requires o.tipoOrdem == COMPRA && Settle(t, o, g).status == CREATED
    ensures Settle(t, o, g).after.LedgerValid()
  {
    var total := o.quantidade * o.precoUnitario;
    var saldo := t.contas[g.contaId].saldo;
    SettleBuyRecords(t, o, g);
    var po := BuyPosition(t.posicoes, g.portfolioId, g.produtoId, o.quantidade, o.precoUnitario).value;
    BuyHolding(t.posicoes, g.portfolioId, g.produtoId, o.quantidade, o.precoUnitario);
    PositionsStayValid(t, po, g);
    RecordValid(t, o, g, saldo - total, Some(g.contaId), None, APLICACAO, po);
  }

  lemma SettleSellValid(t: Tables, o: OrderRequest, g: Target)
    requires t.LedgerValid()
    requires g.contaId in t.contas && g.portfolioId in t.portfolios && g.produtoId in t.produtos
    requires o.quantidade > 0.0 && o.precoUnitario > 0.0
    requires o.tipoOrdem != COMPRA && Settle(t, o, g).status == CREATED
    ensures Settle(t, o, g).after.LedgerValid()
  {
    var total := o.quantidade * o.precoUnitario;
    PositiveProduct(o.quantidade, o.precoUnitario);
    var saldo := t.contas[g.contaId].saldo;
    SettleSellRecords(t, o, g);
    var k := PositionAt(t.posicoes, g.portfolioId, g.produtoId).value;
    var po := SellPosition(t.posicoes, k, o.quantidade);
    SellHolding(t.posicoes, g.portfolioId, g.produtoId, o.quantidade);
    PositionsStayValid(t, po, g);
    RecordValid(t, o, g, saldo + total, None, Some(g.contaId), RESGATE, po);
  }

  /** A successful buy is a `Record` of the debited balance and the bought position. */
  lemma SettleBuyRecords(t: Tables, o: OrderRequest, g: Target)
    requires g.contaId in t.contas
    requires o.tipoOrdem == COMPRA && Settle(t, o, g).status == CREATED
    ensures var total := o.quantidade * o.precoUnitario;
            var bought := BuyPosition(t.posicoes, g.portfolioId, g.produtoId, o.quantidade, o.precoUnitario);
              && t.contas[g.contaId].saldo >= total && bought.Some?
              && Settle(t, o, g).after == Record(t, o, g, t.contas[g.contaId].saldo - total, Some(g.contaId), None, APLICACAO, bought.value)
  {
    match BuyPosition(t.posicoes, g.portfolioId, g.produtoId, o.quantidade, o.precoUnitario)
    case None =>
    case Some(po) =>
      var c2 := t.contas[g.contaId := t.contas[g.contaId].(saldo := t.contas[g.contaId].saldo - o.quantidade * o.precoUnitario)];
      var sc := Settle(t, o, g).after.contas;
      assert forall k :: k in sc ==> sc[k] == c2[k];
  }

  /** A successful sell is a `Record` of the credited balance and the reduced position. */
  lemma SettleSellRecords(t: Tables, o: OrderRequest, g: Target)
    requires g.contaId in t.contas
    requires o.tipoOrdem != COMPRA && Settle(t, o, g).status == CREATED
    ensures var total := o.quantidade * o.precoUnitario;
            var k := PositionAt(t.posicoes, g.portfolioId, g.produtoId);
              && o.tipoOrdem == VENDA && k.Some? && t.posicoes[k.value].quantidade >= o.quantidade
              && Settle(t, o, g).after == Record(t, o, g, t.contas[g.contaId].saldo + total, None, Some(g.contaId), RESGATE,
                                                 SellPosition(t.posicoes, k.value, o.quantidade))
  {
    assert o.tipoOrdem == VENDA;
    match PositionAt(t.posicoes, g.portfolioId, g.produtoId)
    case None =>
    case Some(k) =>
      var c2 := t.contas[g.contaId := t.contas[g.contaId].(saldo := t.contas[g.contaId].saldo + o.quantidade * o.precoUnitario)];
      var sc := Settle(t, o, g).after.contas;
      assert forall j :: j in sc ==> sc[j] == c2[j];
  }

  lemma PositiveProduct(a: real, b: real)
    requires a > 0.0 && b > 0.0
    ensures a * b > 0.0
  {
  }

  /** A position table changed only at (portfolio, product) of `g` keeps its references. */
  lemma PositionsStayValid(t: Tables, po2: map<int, Posicao>, g: Target)
    requires PositionsReference(t.posicoes, t.portfolios, t.produtos)
    requires g.portfolioId in t.portfolios && g.produtoId in t.produtos
    requires OthersUnchanged(t.posicoes, po2, g.portfolioId, g.produtoId)
    requires SamePairs(t.posicoes, po2, g.portfolioId, g.produtoId)
    ensures PositionsReference(po2, t.portfolios, t.produtos)
  {
  }

  /** Recording a settlement with a non-negative balance and a well-formed position table keeps the tables valid. */
  lemma RecordValid(t: Tables, o: OrderRequest, g: Target, saldo: real, origem: Option<int>, destino: Option<int>,
                    tipoMov: string, po: map<int, Posicao>)
    requires t.LedgerValid()
    requires g.contaId in t.contas && g.portfolioId in t.portfolios && g.produtoId in t.produtos
    requires saldo >= 0.0
    requires origem.Some? ==> origem.value in t.contas
    requires destino.Some? ==> destino.value in t.contas
    requires UniquePositions(po) && PositiveQuantities(po) && PositionsReference(po, t.portfolios, t.produtos)
    ensures Record(t, o, g, saldo, origem, destino, tipoMov, po).LedgerValid()
  {
    var t2 := Record(t, o, g, saldo, origem, destino, tipoMov, po);
    assert UniqueAccountNumbers(t2.contas);
    assert NonNegativeBalances(t2.contas);
    assert AccountsReference(t2.contas, t2.clientes);
    assert MovementsReference(t2.movimentacoes, t2.contas);
    assert OrdersReference(t2.ordens, t2.portfolios, t2.produtos, t2.movimentacoes);
  }

  /**
   * The route as the database sees it: the checks in the source's order,
   * then the balance update, the movement, the order and the position upsert,
   * with a rollback when the average-cost division fails.
   */
  method ExecuteOrder(db: Database, claims: Claims, body: Option<OrderBody>) returns (status: int)
    modifies db
    ensures Outcome(status, db.tables) == Execute(old(db.tables), claims, body)
    ensures old(db.Valid()) ==> db.Valid()
  {
    var t := db.tables;
    if db.Valid() {
      ExecutePreservesValid(t, claims, body);
    }
    // 1. Request data and requester.
    if body.None? || !HasRequiredFields(body.value) {
      return BAD_REQUEST;
    }
    var b := body.value;
    if claims.identity.None? {
      return BAD_REQUEST;
    }
    var role := claims.role.GetOr(CLIENTE_ROLE);
    var userId := claims.identity.value;
    if b.tipoOrdem.Null? {
      return SERVER_ERROR;
    }
    var tipo := Text.NormalizeWord(b.tipoOrdem.value);
    var qtd := ParseDecimal(b.quantidade);
    var preco := ParseDecimal(b.precoUnitario);
    if qtd.None? || preco.None? {
      return BAD_REQUEST;
    }
    if qtd.value <= 0.0 || preco.value <= 0.0 {
      return BAD_REQUEST;
    }
    var o := OrderRequest(role, userId, b.portfolioId.AsOption(), b.produtoId.AsOption(), tipo, qtd.value, preco.value);
    assert ParseOrder(claims, body) == Pass(o);

    // 2. The portfolio and its owner.
    var portfolioId := b.portfolioId.AsOption();
    if portfolioId.None? || portfolioId.value !in db.tables.portfolios {
      return NOT_FOUND;
    }
    var pid := portfolioId.value;
    var owner := db.tables.portfolios[pid].clienteId;
    if role == CLIENTE_ROLE {
      if owner != userId {
        return FORBIDDEN;
      }
    } else {
      if owner !in db.tables.clientes {
        return SERVER_ERROR;
      }
      if db.tables.clientes[owner].assessorId != userId {
        return FORBIDDEN;
      }
    }

    // 3. The product.
    var produtoId := b.produtoId.AsOption();
    if produtoId.None? || produtoId.value !in db.tables.produtos {
      return NOT_FOUND;
    }
    var prod := produtoId.value;

    // 4. The owner's account.
    if owner !in db.tables.clientes {
      return SERVER_ERROR;
    }
    var contaId := FirstAccountOf(db.tables.contas, owner);
    if contaId.None? {
      return NOT_FOUND;
    }
    var c := contaId.value;
    var g := Target(pid, prod, owner, contaId.value);
    assert Locate(t, o) == Pass(g);
    status := SettleOrder(db, o, g);
  }

  /**
   * Lines 143-216 against the database: the balance check and update, the
   * movement and the order, and the position change of a buy or a sell.
   */
  method SettleOrder(db: Database, o: OrderRequest, g: Target) returns (status: int)
    requires g.contaId in db.tables.contas
    modifies db
    ensures Outcome(status, db.tables) == Settle(old(db.tables), o, g)
  {
    if o.tipoOrdem == COMPRA {
      status := SettleBuyOrder(db, o, g);
    } else if o.tipoOrdem == VENDA {
      status := SettleSellOrder(db, o, g);
    } else {
      status := BAD_REQUEST;
    }
  }

  /**
   * A buy: debit the account, add the settlement movement and the order,
   * and add to the position.  The changes are staged and committed together;
   * when the average-cost division fails nothing is committed.
   */
  method SettleBuyOrder(db: Database, o: OrderRequest, g: Target) returns (status: int)
    requires g.contaId in db.tables.contas && o.tipoOrdem == COMPRA
    modifies db
    ensures Outcome(status, db.tables) == Settle(old(db.tables), o, g)
  {
    var t := db.tables;
    var c := g.contaId;
    var total := o.quantidade * o.precoUnitario;
    var saldo := t.contas[c].saldo;
    if saldo < total {
      return BAD_REQUEST;
    }
    var contas := t.contas[c := t.contas[c].(saldo := saldo - total)];
    var movId := FreshKey(t.movimentacoes);
    var movimentacoes := t.movimentacoes[movId := SettlementMovement(o, Some(c), None, APLICACAO)];
    var ordens := t.ordens[FreshKey(t.ordens) := ExecutedOrder(o, g, movId)];

    var posicoes := t.posicoes;
    var posicao := PositionAt(posicoes, g.portfolioId, g.produtoId);
    if posicao.Some? {
      var p := posicoes[posicao.value];
      if p.quantidade + o.quantidade == 0.0 {
        // The division raises and the session is rolled back.
        assert BuyPosition(t.posicoes, g.portfolioId, g.produtoId, o.quantidade, o.precoUnitario).None?;
        return SERVER_ERROR;
      }
      var custo := WeightedAverageCost(p.quantidade, p.custoMedio, o.quantidade, o.precoUnitario);
      posicoes := posicoes[posicao.value := p.(custoMedio := custo, quantidade := p.quantidade + o.quantidade)];
    } else {
      posicoes := posicoes[FreshKey(posicoes) := Posicao(g.portfolioId, g.produtoId, o.quantidade, o.precoUnitario)];
    }

    assert posicoes == BuyPosition(t.posicoes, g.portfolioId, g.produtoId, o.quantidade, o.precoUnitario).value;
    SettleBuyRecords(t, o, g);
    db.CommitLedger(contas, movimentacoes, ordens, posicoes);
    status := CREATED;
  }

  /**
   * A sell: check the holding, credit the account, add the settlement
   * movement and the order, and reduce the position, committed together.
   */
  method SettleSellOrder(db: Database, o: OrderRequest, g: Target) returns (status: int)
    requires g.contaId in db.tables.contas && o.tipoOrdem == VENDA
    modifies db
    ensures Outcome(status, db.tables) == Settle(old(db.tables), o, g)
  {
    var t := db.tables;
    var c := g.contaId;
    var total := o.quantidade * o.precoUnitario;
    var posicao := PositionAt(t.posicoes, g.portfolioId, g.produtoId);
    if posicao.None? || t.posicoes[posicao.value].quantidade < o.quantidade {
      return BAD_REQUEST;
    }
    var contas := t.contas[c := t.contas[c].(saldo := t.contas[c].saldo + total)];
    var movId := FreshKey(t.movimentacoes);
    var movimentacoes := t.movimentacoes[movId := SettlementMovement(o, None, Some(c), RESGATE)];
    var ordens := t.ordens[FreshKey(t.ordens) := ExecutedOrder(o, g, movId)];
    var posicoes := SellPosition(t.posicoes, posicao.value, o.quantidade);

    SettleSellRecords(t, o, g);
    db.CommitLedger(contas, movimentacoes, ordens, posicoes);
    status := CREATED;
  }
}

=== FILE: portfolio_routes.dfy ===
/**
 * The advisor's portfolio routes: a client's portfolios, a portfolio's
 * positions and a portfolio marked to market.  Each answers 404 unless the
 * portfolio (or client) belongs to a client of the advisor whose id is the
 * token's identity.
 *
 * An identity that is not an integer makes `int(...)` raise ValueError,
 * which the application-wide handler answers with 400.
 */
module PortfolioRoutes {
  import opened Wrappers
  import opened Requests
  import opened Models
  import Valuation

  /** Whether portfolio `pid` exists and its owner is a client of advisor `a` (the join on Cliente). */
  predicate AdvisorPortfolio(t: Tables, a: int, pid: int) {
    pid in t.portfolios && AdvisesClient(t.clientes, a, t.portfolios[pid].clienteId)
  }

  /**
   * `GET /portfolios/cliente/<id>`: 404 unless the client is one of the
   * advisor's; otherwise exactly that client's portfolios.
   */
  function ClientPortfolios(t: Tables, claims: Claims, clienteId: int): (r: Checked<map<int, Portfolio>>)
    ensures r == Fail(BAD_REQUEST) <==> claims.identity.None?
    ensures r == Fail(NOT_FOUND) <==> claims.identity.Some? && !AdvisesClient(t.clientes, claims.identity.value, clienteId)
    ensures r.Fail? ==> r.status in {BAD_REQUEST, NOT_FOUND}
    ensures r.Pass? ==> forall k :: k in r.value <==> k in t.portfolios && t.portfolios[k].clienteId == clienteId
    ensures r.Pass? ==> forall k :: k in r.value ==> r.value[k] == t.portfolios[k]
  {
    if claims.identity.None? then Fail(BAD_REQUEST)
    else if !AdvisesClient(t.clientes, claims.identity.value, clienteId) then Fail(NOT_FOUND)
    else Pass(map k | k in t.portfolios && t.portfolios[k].clienteId == clienteId :: t.portfolios[k])
  }

  /**
   * `GET /posicoes/portfolio/<id>`: 404 unless the portfolio's owner is one
   * of the advisor's clients; otherwise exactly that portfolio's positions.
   */
  function PortfolioPositions(t: Tables, claims: Claims, pid: int): (r: Checked<map<int, Posicao>>)
    ensures r == Fail(BAD_REQUEST) <==> claims.identity.None?
    ensures r == Fail(NOT_FOUND) <==> claims.identity.Some? && !AdvisorPortfolio(t, claims.identity.value, pid)
    ensures r.Fail? ==> r.status in {BAD_REQUEST, NOT_FOUND}
    ensures r.Pass? ==> forall k :: k in r.value <==> k in t.posicoes && t.posicoes[k].portfolioId == pid
    ensures r.Pass? ==> forall k :: k in r.value ==> r.value[k] == t.posicoes[k]
  {
    if claims.identity.None? then Fail(BAD_REQUEST)
    else if !AdvisorPortfolio(t, claims.identity.value, pid) then Fail(NOT_FOUND)
    else Pass(PositionsOf(t.posicoes, pid))
  }

  /**
   * An advisor never sees another advisor's data: every portfolio and
   * every position either listing returns belongs to one of the requesting
   * advisor's clients.
   */
  lemma ListingsStayWithAdvisor(t: Tables, claims: Claims, clienteId: int, pid: int)
    ensures var r := ClientPortfolios(t, claims, clienteId);
            r.Pass? ==> forall k :: k in r.value ==> AdvisesClient(t.clientes, claims.identity.value, r.value[k].clienteId)
    ensures var r := PortfolioPositions(t, claims, pid);
            r.Pass? ==> forall k :: k in r.value ==> AdvisorPortfolio(t, claims.identity.value, r.value[k].portfolioId)
  {
  }

  /**
   * `GET /portfolios/<id>/valorizado`: 404 unless the portfolio belongs to
   * one of the advisor's clients; otherwise the portfolio marked to market,
   * with both totals 0 when it holds no positions.
   */
  method GetPortfolioValorizado(db: Database, claims: Claims, pid: int)
    returns (status: int, view: Option<Valuation.PortfolioView>)
    ensures status == BAD_REQUEST <==> claims.identity.None?
    ensures status == NOT_FOUND <==> claims.identity.Some? && !AdvisorPortfolio(db.tables, claims.identity.value, pid)
    ensures status in {OK, BAD_REQUEST, NOT_FOUND}
    ensures status != OK <==> view.None?
    ensures status == OK ==> Valuation.ValuedView(db.tables, pid, view.value)
  {
    if claims.identity.None? {
      return BAD_REQUEST, None;
    }
    if !AdvisorPortfolio(db.tables, claims.identity.value, pid) {
      return NOT_FOUND, None;
    }
    var v := Valuation.ValueStoredPortfolio(db.tables, pid);
    return OK, Some(v);
  }
}

=== FILE: requests.dfy ===
/**
 * What a route receives besides the database: the decoded JSON body, the
 * claims of the JWT, and the HTTP status it answers with.
 */
module Requests {
  import opened Wrappers

  const OK := 200
  const CREATED := 201
  const BAD_REQUEST := 400
  const UNAUTHORIZED := 401
  const FORBIDDEN := 403
  const NOT_FOUND := 404
  const CONFLICT := 409
  const SERVER_ERROR := 500

  /** The outcome of a validation step: the status of the check that failed, or the validated value. */
  datatype Checked<+T> = Fail(status: int) | Pass(value: T)

  /** One key of a JSON object: missing, present with `null`, or present with a value. */
  datatype Field<+T> = Absent | Null | Given(value: T) {
    /** `data[key]` for a key known to be present: the value, or `None` for a JSON null. */
    function AsOption(): (r: Option<T>)
      ensures r.Some? <==> Given?
      ensures Given? ==> r.value == value
    {
      if Given? then Some(value) else None
    }

    /** `data.get(key, default)`: the value, `None` for a JSON null, the default when missing. */
    function GetOr(default: T): (r: Option<T>)
      ensures Absent? ==> r == Some(default)
      ensures Null? ==> r.None?
      ensures Given? ==> r == Some(value)
    {
      match this
      case Absent => Some(default)
      case Null => None
      case Given(v) => Some(v)
    }
  }

  /**
   * The text `str(x)` of a JSON value as `decimal.Decimal` reads it: a finite
   * number, or text it rejects (a JSON null becomes the text "None").  The
   * special values `Decimal` also accepts ("NaN", "sNaN", "Infinity") are
   * not among the cases.
   */
  datatype DecimalText = Parsed(value: real) | Unparsable

  /** `Decimal(str(data[key]))` for a key that is present. */
  function ParseDecimal(f: Field<DecimalText>): (r: Option<real>)
    ensures r.Some? <==> f.Given? && f.value.Parsed?
    ensures r.Some? ==> r.value == f.value.value
  {
    match f
    case Given(Parsed(v)) => Some(v)
    case _ => None
  }

  /** Python truthiness of a string field read with `data.get(key)`. */
  predicate TruthyString(f: Field<string>) {
    f.Given? && f.value != ""
  }

  /** Python truthiness of an integer field read with `data.get(key)`. */
  predicate TruthyInt(f: Field<int>) {
    f.Given? && f.value != 0
  }

  /**
   * The JWT as the routes read it: `int(get_jwt_identity())` (`None` when the
   * identity is not an integer, which raises ValueError) and the `role` claim
   * (`None` when the token has none).
   */
  datatype Claims = Claims(identity: Option<int>, role: Option<string>)

  /** The `role` claim of a client's token (also what the order route assumes when the claim is missing). */
  const CLIENTE_ROLE := "cliente"
  /** The `role` claim of an advisor's token. */
  const ASSESSOR_ROLE := "assessor"
}

=== FILE: rows.dfy ===
/**
 * Sums over keyed tables (a table is a `map` from primary key to row), as
 * SQL `SUM` or a Python accumulation loop computes them.
 */
module Rows {
  import Sets

  /** The sum of `f` over the rows of `m` (SQL `SUM`, or a Python accumulation loop). */
  function SumBy<T>(m: map<int, T>, f: T -> real): real
    decreases m.Keys
  {
    if m == map[] then 0.0
    else
      var k := Sets.Min(m.Keys);
      f(m[k]) + SumBy(m - {k}, f)
  }

  /** Any row may be taken out of a sum first. */
  lemma {:induction false} SumByRemove<T>(m: map<int, T>, f: T -> real, k: int)
    requires k in m
    ensures SumBy(m, f) == f(m[k]) + SumBy(m - {k}, f)
    decreases m.Keys
  {
    var j := Sets.Min(m.Keys);
    if j != k {
      SumByRemove(m - {j}, f, k);
      assert (m - {j}) - {k} == (m - {k}) - {j};
      assert j in (m - {k}).Keys && (m - {k}).Keys <= m.Keys;
      assert Sets.Min((m - {k}).Keys) == j;
    }
  }

  /** Adding a row with a fresh key adds its value to the sum. */
  lemma SumByAdd<T>(m: map<int, T>, f: T -> real, k: int, v: T)
    requires k !in m
    ensures SumBy(m[k := v], f) == f(v) + SumBy(m, f)
  {
    SumByRemove(m[k := v], f, k);
    assert m[k := v] - {k} == m;
  }
  /** Replacing one row changes the sum by the difference of the row's values. */
  lemma SumByUpdate<T>(m: map<int, T>, f: T -> real, k: int, v: T)
    requires k in m
    ensures SumBy(m[k := v], f) == SumBy(m, f) - f(m[k]) + f(v)
  {
    SumByRemove(m, f, k);
    SumByRemove(m[k := v], f, k);
    assert m[k := v] - {k} == m - {k};
  }


  /** Two tables with the same keys and row-wise equal values have equal sums. */
  lemma {:induction false} SumByCongruent<T, U>(m: map<int, T>, f: T -> real, n: map<int, U>, g: U -> real)
    requires m.Keys == n.Keys
    requires forall k :: k in m ==> f(m[k]) == g(n[k])
    ensures SumBy(m, f) == SumBy(n, g)
    decreases m.Keys
  {
    if m != map[] {
      var k := Sets.Min(m.Keys);
      assert n != map[] by { assert k in n; }
      SumByCongruent(m - {k}, f, n - {k}, g);
    }
  }

  /** A sum of row-wise differences is the difference of the sums. */
  lemma {:induction false} SumByDifference<T>(m: map<int, T>, f: T -> real, g: T -> real, h: T -> real)
    requires forall k :: k in m ==> h(m[k]) == f(m[k]) - g(m[k])
    ensures SumBy(m, h) == SumBy(m, f) - SumBy(m, g)
    decreases m.Keys
  {
    if m != map[] {
      var k := Sets.Min(m.Keys);
      SumByDifference(m - {k}, f, g, h);
    }
  }

  /** A constant factor comes out of a sum. */
  lemma {:induction false} SumByScale<T>(m: map<int, T>, f: T -> real, c: real, g: T -> real)
    requires forall k :: k in m ==> g(m[k]) == c * f(m[k])
    ensures SumBy(m, g) == c * SumBy(m, f)
    decreases m.Keys
  {
    if m != map[] {
      var k := Sets.Min(m.Keys);
      SumByScale(m - {k}, f, c, g);
    }
  }

  /** A non-empty sum of positive values is positive. */
  lemma {:induction false} SumByPositive<T>(m: map<int, T>, f: T -> real)
    requires m != map[]
    requires forall k :: k in m ==> f(m[k]) > 0.0
    ensures SumBy(m, f) > 0.0
    decreases m.Keys
  {
    var k := Sets.Min(m.Keys);
    if m - {k} != map[] {
      SumByPositive(m - {k}, f);
    }
  }
}

=== FILE: sets.dfy ===
/**
 * Extremes of finite sets of integers.  Primary keys, dates and scores are
 * integers in the model; "the latest", "the first row" and "the next identity
 * value" are all a maximum or a minimum of such a set.
 */
module Sets {

  /** A non-empty set has a member (stated so that `:|` can pick one). */
  lemma NonEmptyHasMember(s: set<int>)
    requires s != {}
    ensures exists y :: y in s
  {
    if forall y :: y !in s {
      assert false;
    }
  }

  predicate IsMax(s: set<int>, m: int) {
    m in s && forall x :: x in s ==> x <= m
  }

  predicate IsMin(s: set<int>, m: int) {
    m in s && forall x :: x in s ==> m <= x
  }

  lemma {:induction false} MaxExists(s: set<int>)
    requires s != {}
    ensures exists m :: IsMax(s, m)
    decreases s
  {
    NonEmptyHasMember(s);
    var y :| y in s;
    var r := s - {y};
    forall x | x in s ensures x == y || x in r { }
    if r == {} {
      assert IsMax(s, y);
    } else {
      MaxExists(r);
      var m :| IsMax(r, m);
      var top := if m < y then y else m;
      assert IsMax(s, top);
    }
  }

  lemma {:induction false} MinExists(s: set<int>)
    requires s != {}
    ensures exists m :: IsMin(s, m)
    decreases s
  {
    NonEmptyHasMember(s);
    var y :| y in s;
    var r := s - {y};
    forall x | x in s ensures x == y || x in r { }
    if r == {} {
      assert IsMin(s, y);
    } else {
      MinExists(r);
      var m :| IsMin(r, m);
      var bottom := if y < m then y else m;
      assert IsMin(s, bottom);
    }
  }

  /** The greatest member; unique, so it can be computed. */
  function Max(s: set<int>): (m: int)
    requires s != {}
    ensures m in s && forall x :: x in s ==> x <= m
  {
    MaxExists(s);
    var m :| IsMax(s, m); m
  }

  /** The least member; unique, so it can be computed. */
  function Min(s: set<int>): (m: int)
    requires s != {}
    ensures m in s && forall x :: x in s ==> m <= x
  {
    MinExists(s);
    var m :| IsMin(s, m); m
  }

  /** A set of one element is that element's singleton. */
  lemma Singleton(s: set<int>)
    requires |s| == 1
    ensures s == {Min(s)}
  {
    assert |s - {Min(s)}| == 0;
  }

  /** A subset as large as its superset is the superset. */
  lemma SubsetOfSameSize<T>(a: set<T>, b: set<T>)
    requires a <= b && |a| == |b|
    ensures a == b
  {
    assert |b - a| == 0;
  }
}

=== FILE: suitability_routes.dfy ===
/**
 * The suitability questionnaire as any logged-in user reads it (the
 * version in force, with its questions and their options), and a client's
 * answer history as the client's advisor reads it, newest first.
 */
module SuitabilityRoutes {
  import opened Wrappers
  import opened Requests
  import opened Models
  import Sets
  import ClientPortalRoutes

  // ------------------------------------------------- the active questionnaire

  /**
   * The version with the latest DataVigencia; among versions in force from
   * the same day, the one with the lowest id.
   */
  function LatestVersion(vs: map<int, QuestionarioVersao>): (r: Option<int>)
    ensures r.None? <==> vs == map[]
    ensures r.Some? ==> r.value in vs && forall k :: k in vs ==> vs[k].dataVigencia <= vs[r.value].dataVigencia
    ensures r.Some? ==> forall k :: k in vs && vs[k].dataVigencia == vs[r.value].dataVigencia ==> r.value <= k
  {
    var dates := set k | k in vs :: vs[k].dataVigencia;
    assert forall k :: k in vs ==> vs[k].dataVigencia in dates;
    if dates == {} then
      None
    else
      var latest := Sets.Max(dates);
      var ks := set k | k in vs && vs[k].dataVigencia == latest;
      assert forall k :: k in vs && vs[k].dataVigencia == latest ==> k in ks;
      assert ks != {} by {
        var k :| k in vs && vs[k].dataVigencia == latest;
        assert k in ks;
      }
      Some(Sets.Min(ks))
  }

  /** The questionnaire as the route returns it: a version, its questions and their options. */
  datatype QuestionnaireView = QuestionnaireView(versaoId: int, versao: QuestionarioVersao,
                                                 perguntas: map<int, Pergunta>, opcoes: map<int, OpcaoResposta>)

  /**
   * `GET /suitability/questionario/ativo`: 404 when there is no version;
   * otherwise the version in force (no version starts later), all of its
   * questions and all of their options, and nothing else.
   */
  function ActiveQuestionnaire(t: Tables): (r: Checked<QuestionnaireView>)
    ensures r.Fail? <==> t.versoes == map[]
    ensures r.Fail? ==> r.status == NOT_FOUND
    ensures r.Pass? ==> r.value.versaoId in t.versoes && r.value.versao == t.versoes[r.value.versaoId]
    ensures r.Pass? ==> forall k :: k in t.versoes ==> t.versoes[k].dataVigencia <= r.value.versao.dataVigencia
    ensures r.Pass? ==> forall k :: k in r.value.perguntas <==> k in t.perguntas && t.perguntas[k].versaoId == r.value.versaoId
    ensures r.Pass? ==> forall k :: k in r.value.perguntas ==> r.value.perguntas[k] == t.perguntas[k]
    ensures r.Pass? ==> forall k :: k in r.value.opcoes <==> k in t.opcoes && t.opcoes[k].perguntaId in r.value.perguntas
    ensures r.Pass? ==> forall k :: k in r.value.opcoes ==> r.value.opcoes[k] == t.opcoes[k]
  {
    match LatestVersion(t.versoes)
    case None => Fail(NOT_FOUND)
    case Some(v) =>
      var ps := map k | k in t.perguntas && t.perguntas[k].versaoId == v :: t.perguntas[k];
      var os := map k | k in t.opcoes && t.opcoes[k].perguntaId in ps :: t.opcoes[k];
      Pass(QuestionnaireView(v, t.versoes[v], ps, os))
  }

  /**
   * The questions shown are exactly the questions a submission must answer
   * to be complete for that version, and (in valid tables) every option
   * shown answers one of them.
   */
  lemma ActiveQuestionsAreTheVersions(t: Tables)
    requires t.Valid()
    ensures var r := ActiveQuestionnaire(t);
            r.Pass? ==> r.value.perguntas.Keys == ClientPortalRoutes.QuestionsOfVersion(t.perguntas, r.value.versaoId)
    ensures var r := ActiveQuestionnaire(t);
            r.Pass? ==> forall k :: k in t.opcoes && t.perguntas[t.opcoes[k].perguntaId].versaoId == r.value.versaoId
                                    ==> k in r.value.opcoes
  {
  }

  // ------------------------------------------------------------ the history

  /**
   * The newest of the answers `ks` of `rs`: the latest timestamp, the lowest
   * id among equal timestamps.
   */
  function Newest(rs: map<int, RespostaSuitability>, ks: set<int>): (k: int)
    requires ks != {} && ks <= rs.Keys
    ensures k in ks && forall j :: j in ks ==> rs[j].dataResposta <= rs[k].dataResposta
  {
    var dates := set j | j in ks :: rs[j].dataResposta;
    assert forall j :: j in ks ==> rs[j].dataResposta in dates;
    assert dates != {} by {
      var j :| j in ks;
      assert rs[j].dataResposta in dates;
    }
    var latest := Sets.Max(dates);
    var newest := set j | j in ks && rs[j].dataResposta == latest;
    assert newest != {} by {
      var j :| j in ks && rs[j].dataResposta == latest;
      assert j in newest;
    }
    Sets.Min(newest)
  }

  /**
   * The answers `ks` of `rs` ordered by `DataResposta` descending: each
   * answer exactly once, and no answer after an older one.
   */
  function NewestFirst(rs: map<int, RespostaSuitability>, ks: set<int>): (s: seq<int>)
    requires ks <= rs.Keys
    ensures forall i :: 0 <= i < |s| ==> s[i] in ks
    ensures forall k :: k in ks ==> k in s
    ensures forall i, j :: 0 <= i < j < |s| ==> s[i] != s[j]
    ensures forall i, j :: 0 <= i < j < |s| ==> rs[s[j]].dataResposta <= rs[s[i]].dataResposta
    decreases ks
  {
    if ks == {} then []
    else
      var k := Newest(rs, ks);
      assert forall j :: j in ks && j != k ==> j in ks - {k};
      [k] + NewestFirst(rs, ks - {k})
  }

  /** The answers of client `c`. */
  function AnswersOf(rs: map<int, RespostaSuitability>, c: int): (r: set<int>)
    ensures forall k :: k in r <==> k in rs && rs[k].clienteId == c
  {
    set k | k in rs && rs[k].clienteId == c
  }

  /**
   * `GET /clientes/<id>/suitability/historico`: an identity that is not an
   * integer is caught by the route itself (401); a client that is not the
   * advisor's is 404; otherwise the ids of that client's answers, newest
   * first, each once.
   */
  function History(t: Tables, claims: Claims, clienteId: int): (r: Checked<seq<int>>)
    ensures r == Fail(UNAUTHORIZED) <==> claims.identity.None?
    ensures r == Fail(NOT_FOUND) <==> claims.identity.Some? && !AdvisesClient(t.clientes, claims.identity.value, clienteId)
    ensures r.Fail? ==> r.status in {UNAUTHORIZED, NOT_FOUND}
    ensures r.Pass? ==> forall k :: k in r.value <==> k in t.respostas && t.respostas[k].clienteId == clienteId
    ensures r.Pass? ==> forall i :: 0 <= i < |r.value| ==> r.value[i] in t.respostas
    ensures r.Pass? ==> forall i, j :: 0 <= i < j < |r.value| ==> r.value[i] != r.value[j]
    ensures r.Pass? ==> forall i, j :: 0 <= i < j < |r.value| ==>
                          t.respostas[r.value[j]].dataResposta <= t.respostas[r.value[i]].dataResposta
  {
    if claims.identity.None? then Fail(UNAUTHORIZED)
    else if !AdvisesClient(t.clientes, claims.identity.value, clienteId) then Fail(NOT_FOUND)
    else Pass(NewestFirst(t.respostas, AnswersOf(t.respostas, clienteId)))
  }

  /**
   * After an answer of client `c` stamped later than all of that client's
   * earlier answers is inserted (as a submission through the client portal
   * inserts one, `ClientPortalRoutes.RecordAnswersScores`), the advisor's
   * history of the client starts with it, followed by exactly the earlier
   * answers.
   */
  lemma NewerAnswerComesFirst(t: Tables, claims: Claims, c: int, n: int, a: RespostaSuitability)
    requires n !in t.respostas && a.clienteId == c
    requires forall k :: k in t.respostas && t.respostas[k].clienteId == c ==> t.respostas[k].dataResposta < a.dataResposta
    requires claims.identity.Some? && AdvisesClient(t.clientes, claims.identity.value, c)
    ensures var h := History(t.(respostas := t.respostas[n := a]), claims, c);
      && h.Pass? && |h.value| > 0 && h.value[0] == n
      && forall k :: k in h.value[1..] <==> k in t.respostas && t.respostas[k].clienteId == c
  {
    var rs := t.respostas[n := a];
    var mine := AnswersOf(rs, c);
    assert n in mine;
    forall j | j in mine && j != n
      ensures rs[j].dataResposta < rs[n].dataResposta
    {
      assert j in t.respostas && t.respostas[j].clienteId == c;
    }
    forall k
      ensures k in mine && k != n <==> k in t.respostas && t.respostas[k].clienteId == c
    {
    }
    NewestFirstHead(rs, mine, n);
    assert History(t.(respostas := rs), claims, c) == Pass(NewestFirst(rs, mine));
  }

  /** An answer strictly newer than all others comes first, followed by all the others. */
  lemma NewestFirstHead(rs: map<int, RespostaSuitability>, ks: set<int>, n: int)
    requires ks <= rs.Keys && n in ks
    requires forall j :: j in ks && j != n ==> rs[j].dataResposta < rs[n].dataResposta
    ensures var h := NewestFirst(rs, ks);
            |h| > 0 && h[0] == n && forall k :: k in h[1..] <==> k in ks && k != n
  {
    var h := NewestFirst(rs, ks);
    assert h[0] == Newest(rs, ks);
    forall k
      ensures k in h[1..] <==> k in ks && k != n
    {
      if k in h[1..] {
        var i :| 1 <= i < |h| && h[i] == k;
        assert h[0] != h[i];
      }
      if k in ks && k != n {
        var i :| 0 <= i < |h| && h[i] == k;
        assert h[1..][i - 1] == k;
      }
    }
  }
}

=== FILE: text.dfy ===
/**
 * The string operations the routes apply to request data: Python's
 * `str.strip()` and `str.capitalize()` (used to normalise an order type) and
 * the `f"C-{id:07d}"` account-number format.
 */
module Text {

  /** The characters Python's `str.strip()` removes (Unicode whitespace). */
  predicate IsSpace(c: char) {
    ('\t' <= c <= '\r') || ('\U{1c}' <= c <= '\U{1f}') || c == ' ' || c == '\U{85}' || c == '\U{a0}'
    || c == '\U{1680}' || ('\U{2000}' <= c <= '\U{200a}') || c == '\U{2028}' || c == '\U{2029}'
    || c == '\U{202f}' || c == '\U{205f}' || c == '\U{3000}'
  }

  /** `s.lstrip()`: the longest suffix of `s` that does not start with whitespace. */
  function TrimStart(s: string): (r: string)
    ensures |r| <= |s| && r == s[|s| - |r|..]
    ensures r == [] || !IsSpace(r[0])
    ensures forall i :: 0 <= i < |s| - |r| ==> IsSpace(s[i])
  {
    if s != [] && IsSpace(s[0]) then TrimStart(s[1..]) else s
  }

  /** `s.rstrip()`: the longest prefix of `s` that does not end with whitespace. */
  function TrimEnd(s: string): (r: string)
    ensures |r| <= |s| && r == s[..|r|]
    ensures r == [] || !IsSpace(r[|r| - 1])
    ensures forall i :: |r| <= i < |s| ==> IsSpace(s[i])
  {
    if s != [] && IsSpace(s[|s| - 1]) then TrimEnd(s[..|s| - 1]) else s
  }

  /** `s.strip()`: `s` with leading and trailing whitespace removed. */
  function Strip(s: string): (r: string)
    ensures |r| <= |s|
    ensures r == [] || (!IsSpace(r[0]) && !IsSpace(r[|r| - 1]))
    ensures r == [] ==> forall i :: 0 <= i < |s| ==> IsSpace(s[i])
    ensures r <= s[|s| - |TrimStart(s)|..]
    ensures forall i :: |s| - |TrimStart(s)| + |r| <= i < |s| ==> IsSpace(s[i])
  {
    TrimEnd(TrimStart(s))
  }

  function UpperChar(c: char): char {
    if 'a' <= c <= 'z' then (c as int - 32) as char else c
  }

  function LowerChar(c: char): char {
    if 'A' <= c <= 'Z' then (c as int + 32) as char else c
  }

  /** `s.lower()` on ASCII letters. */
  function Lower(s: string): (r: string)
    ensures |r| == |s| && forall i :: 0 <= i < |s| ==> r[i] == LowerChar(s[i])
  {
    seq(|s|, i requires 0 <= i < |s| => LowerChar(s[i]))
  }

  /** `s.capitalize()` on ASCII letters: first character upper case, the rest lower case. */
  function Capitalize(s: string): (r: string)
    ensures |r| == |s|
    ensures s != [] ==> r[0] == UpperChar(s[0])
    ensures forall i :: 0 < i < |s| ==> r[i] == LowerChar(s[i])
  {
    if s == [] then [] else [UpperChar(s[0])] + Lower(s[1..])
  }

  /** `s.strip().capitalize()`, the normalisation applied to an order type. */
  function NormalizeWord(s: string): string {
    Capitalize(Strip(s))
  }

  /** A word written as `capitalize()` leaves it: an upper-case ASCII letter followed by lower-case ones. */
  predicate IsCapitalizedWord(w: string) {
    |w| > 0 && 'A' <= w[0] <= 'Z' && forall i :: 0 < i < |w| ==> 'a' <= w[i] <= 'z'
  }

  /** Upper-casing `c` gives the upper-case letter `u` exactly when lower-casing `c` gives its lower case. */
  lemma UpperCaseMatches(c: char, u: char)
    requires 'A' <= u <= 'Z'
    ensures UpperChar(c) == u <==> LowerChar(c) == LowerChar(u)
  {
  }

  /**
   * Normalising `s` yields the capitalised word `w` exactly when the stripped
   * input spells `w` ignoring case: "  compra ", "COMPRA" and "Compra" all
   * become "Compra", while "Com pra" or "Compras" do not.
   */
  lemma NormalizeWordMatches(s: string, w: string)
    requires IsCapitalizedWord(w)
    ensures NormalizeWord(s) == w <==> Lower(Strip(s)) == Lower(w)
  {
    var x := Strip(s);
    if |x| == |w| {
      UpperCaseMatches(x[0], w[0]);
      CapitalizeMatches(x, w);
    }
  }

  lemma {:induction false} CapitalizeMatches(x: string, w: string)
    requires IsCapitalizedWord(w) && |x| == |w|
    requires UpperChar(x[0]) == w[0] <==> LowerChar(x[0]) == LowerChar(w[0])
    ensures Capitalize(x) == w <==> Lower(x) == Lower(w)
  {
    if Capitalize(x) == w {
      forall i | 0 <= i < |x| ensures Lower(x)[i] == Lower(w)[i] {
        if i > 0 { assert LowerChar(x[i]) == w[i]; }
      }
    }
    if Lower(x) == Lower(w) {
      forall i | 0 <= i < |x| ensures Capitalize(x)[i] == w[i] {
        assert LowerChar(x[i]) == LowerChar(w[i]);
      }
    }
  }

  /** The character of a decimal digit. */
  function DigitChar(d: nat): (c: char)
    requires d < 10
    ensures '0' <= c <= '9' && c as int - '0' as int == d
  {
    (d + '0' as int) as char
  }

  predicate AllDigits(s: string) {
    forall i :: 0 <= i < |s| ==> '0' <= s[i] <= '9'
  }

  /** The number a string of decimal digits denotes (leading zeros allowed). */
  function DigitsValue(s: string): nat
    requires AllDigits(s)
  {
    if s == [] then 0 else DigitsValue(s[..|s| - 1]) * 10 + (s[|s| - 1] as int - '0' as int)
  }

  /** `str(n)` for a natural number: its decimal digits without leading zeros. */
  function Digits(n: nat): (r: string)
    ensures |r| >= 1 && AllDigits(r)
    ensures r[0] != '0' || n == 0
    ensures n == 0 ==> r == "0"
    ensures DigitsValue(r) == n
  {
    if n < 10 then [DigitChar(n)]
    else
      var p := Digits(n / 10);
      var r := p + [DigitChar(n % 10)];
      assert r[..|r| - 1] == p;
      r
  }

  /** Leading zeros do not change the value of a digit string. */
  lemma {:induction false} LeadingZerosValue(k: nat, s: string)
    requires AllDigits(s)
    ensures AllDigits(Zeros(k) + s) && DigitsValue(Zeros(k) + s) == DigitsValue(s)
    decreases |s|
  {
    var z := Zeros(k) + s;
    assert AllDigits(z);
    if s == [] {
      assert z == Zeros(k);
      ZerosValue(k);
    } else {
      assert z[..|z| - 1] == Zeros(k) + s[..|s| - 1];
      LeadingZerosValue(k, s[..|s| - 1]);
    }
  }

  lemma {:induction false} ZerosValue(k: nat)
    ensures AllDigits(Zeros(k)) && DigitsValue(Zeros(k)) == 0
  {
    if k > 0 {
      assert Zeros(k)[..k - 1] == Zeros(k - 1);
      ZerosValue(k - 1);
    }
  }

  function Zeros(k: nat): (r: string)
    ensures |r| == k && forall i :: 0 <= i < k ==> r[i] == '0'
  {
    seq(k, _ => '0')
  }

  /** Python's `f"{n:0{width}d}"` for a natural number: digits left-padded with zeros to `width`. */
  function ZeroPad(n: nat, width: nat): (r: string)
    ensures AllDigits(r) && DigitsValue(r) == n
    ensures |r| == if |Digits(n)| < width then width else |Digits(n)|
  {
    var d := Digits(n);
    var r := if |d| < width then Zeros(width - |d|) + d else d;
    LeadingZerosValue(if |d| < width then width - |d| else 0, d);
    assert |d| >= width ==> r == Zeros(0) + d;
    r
  }

  /** The account number generated for a new client: `f"C-{ClienteID:07d}"`. */
  function AccountNumber(id: nat): (r: string)
    ensures |r| >= 9 && r[..2] == "C-"
    ensures id < 10000000 ==> |r| == 9
  {
    DigitsBound(id, 7);
    "C-" + ZeroPad(id, 7)
  }

  /** A number below 10^k has at most k digits. */
  lemma {:induction false} DigitsBound(n: nat, k: nat)
    ensures n < Pow10(k) ==> |Digits(n)| <= if k == 0 then 1 else k
  {
    if n >= 10 && n < Pow10(k) {
      assert Pow10(0) == 1 && Pow10(1) == 10;
      assert k >= 2;
      DigitsBound(n / 10, k - 1);
    }
  }

  function Pow10(k: nat): (r: nat)
    ensures r >= 1
  {
    if k == 0 then 1 else 10 * Pow10(k - 1)
  }

  /** The client id can be read back from its account number. */
  lemma AccountNumberRoundTrip(id: nat)
    ensures AllDigits(AccountNumber(id)[2..]) && DigitsValue(AccountNumber(id)[2..]) == id
  {
    assert AccountNumber(id)[2..] == ZeroPad(id, 7);
  }

  /** Distinct clients get distinct account numbers. */
  lemma AccountNumberInjective(a: nat, b: nat)
    requires AccountNumber(a) == AccountNumber(b)
    ensures a == b
  {
    AccountNumberRoundTrip(a);
    AccountNumberRoundTrip(b);
  }
}

=== FILE: valuation.dfy ===
/**
 * Marking a portfolio to market, as `get_my_portfolio` and
 * `get_portfolio_valorizado` both do: each position is valued at its latest
 * closing price and the totals are accumulated in one loop.
 */
module Valuation {
  import opened Models
  import Rows
  import Sets

  /** A position together with the two fields the valuation loop attaches to it. */
  datatype ValuedPosition = ValuedPosition(posicao: Posicao, valorMercado: real, resultadoFinanceiro: real)

  /** What the position cost: quantity times average cost. */
  function CostOf(p: Posicao): real {
    p.quantidade * p.custoMedio
  }

  function MarketValueOf(v: ValuedPosition): real {
    v.valorMercado
  }

  function ResultOf(v: ValuedPosition): real {
    v.resultadoFinanceiro
  }

  function CostOfValued(v: ValuedPosition): real {
    CostOf(v.posicao)
  }

  /** The valuation of one position at `price`: market value and profit over cost. */
  ghost predicate ValuedAt(v: ValuedPosition, p: Posicao, price: real) {
    && v.posicao == p
    && v.valorMercado == p.quantidade * price
    && v.resultadoFinanceiro == v.valorMercado - CostOf(p)
  }

  /** Every position of `po` valued at the price `precos` gives its product (0 when it gives none). */
  ghost predicate IsValuation(valued: map<int, ValuedPosition>, po: map<int, Posicao>, precos: map<int, real>) {
    && valued.Keys == po.Keys
    && forall k :: k in valued ==> ValuedAt(valued[k], po[k], PriceIn(precos, po[k].produtoId))
  }

  /** The products held in `po`: `[p.ProdutoID for p in posicoes]`. */
  function ProductsOf(po: map<int, Posicao>): (r: set<int>)
    ensures forall k :: k in po ==> po[k].produtoId in r
  {
    set k | k in po :: po[k].produtoId
  }

  /**
   * Valued with the latest-price map of the products held, every position is
   * valued at its product's latest closing price, or 0 without history.
   */
  lemma LatestValuation(valued: map<int, ValuedPosition>, po: map<int, Posicao>, pr: map<int, HistoricoPreco>)
    requires IsValuation(valued, po, LatestPrices(pr, ProductsOf(po)))
    ensures forall k :: k in valued ==> ValuedAt(valued[k], po[k], PriceOrZero(pr, po[k].produtoId))
  {
  }

  /**
   * The valuation loop.  The market-value total is the sum of the positions'
   * market values, and the result total (market value minus total cost) is the
   * sum of the positions' results; both are 0 for an empty portfolio.
   */
  method ValuePortfolio(po: map<int, Posicao>, precos: map<int, real>)
    returns (valued: map<int, ValuedPosition>, valorMercadoTotal: real, resultadoTotal: real)
    ensures IsValuation(valued, po, precos)
    ensures valorMercadoTotal == Rows.SumBy(valued, MarketValueOf)
    ensures resultadoTotal == valorMercadoTotal - Rows.SumBy(po, CostOf)
    ensures resultadoTotal == Rows.SumBy(valued, ResultOf)
    ensures po == map[] ==> valorMercadoTotal == 0.0 && resultadoTotal == 0.0
  {
    valued := map[];
    valorMercadoTotal := 0.0;
    var custoTotal := 0.0;
    var todo := po.Keys;
    while todo != {}
      invariant todo <= po.Keys
      invariant valued.Keys == po.Keys - todo
      invariant ValuedSoFar(valued, po, precos)
      invariant valorMercadoTotal == Rows.SumBy(valued, MarketValueOf)
      invariant custoTotal == Rows.SumBy(valued, CostOfValued)
      decreases todo
    {
      var k := Sets.Min(todo);
      var p := po[k];
      var custo := p.quantidade * p.custoMedio;
      var preco := PriceIn(precos, p.produtoId);
      var valor := p.quantidade * preco;
      var v := ValuedPosition(p, valor, valor - custo);
      ValuationStep(valued, po, precos, k, v);
      valued := valued[k := v];
      valorMercadoTotal := valorMercadoTotal + valor;
      custoTotal := custoTotal + custo;
      todo := todo - {k};
    }
    resultadoTotal := valorMercadoTotal - custoTotal;
    ValuationTotals(valued, po, precos);
  }

  /** The positions valued so far each carry their valuation. */
  ghost predicate ValuedSoFar(valued: map<int, ValuedPosition>, po: map<int, Posicao>, precos: map<int, real>) {
    forall k :: k in valued ==> k in po && ValuedAt(valued[k], po[k], PriceIn(precos, po[k].produtoId))
  }

  /** One iteration of the valuation loop: one more position valued, and its values added to the running sums. */
  lemma ValuationStep(valued: map<int, ValuedPosition>, po: map<int, Posicao>, precos: map<int, real>, k: int, v: ValuedPosition)
    requires ValuedSoFar(valued, po, precos) && k in po && k !in valued
    requires ValuedAt(v, po[k], PriceIn(precos, po[k].produtoId))
    ensures ValuedSoFar(valued[k := v], po, precos)
    ensures Rows.SumBy(valued[k := v], MarketValueOf) == Rows.SumBy(valued, MarketValueOf) + v.valorMercado
    ensures Rows.SumBy(valued[k := v], CostOfValued) == Rows.SumBy(valued, CostOfValued) + CostOf(po[k])
  {
    Rows.SumByAdd(valued, MarketValueOf, k, v);
    Rows.SumByAdd(valued, CostOfValued, k, v);
  }

  /** Over a valuation, total cost is the portfolio's cost and the results add up to value minus cost. */
  lemma ValuationTotals(valued: map<int, ValuedPosition>, po: map<int, Posicao>, precos: map<int, real>)
    requires IsValuation(valued, po, precos)
    ensures Rows.SumBy(valued, CostOfValued) == Rows.SumBy(po, CostOf)
    ensures Rows.SumBy(valued, ResultOf) == Rows.SumBy(valued, MarketValueOf) - Rows.SumBy(po, CostOf)
  {
    Rows.SumByCongruent(valued, CostOfValued, po, CostOf);
    Rows.SumByDifference(valued, MarketValueOf, CostOfValued, ResultOf);
  }

  // ------------------------------------------------------- a stored portfolio

  /** What both valuation routes answer: the portfolio, its valued positions and the two totals. */
  datatype PortfolioView = PortfolioView(portfolioId: int, portfolio: Portfolio,
                                         posicoes: map<int, ValuedPosition>,
                                         valorMercadoTotal: real, resultadoTotalFinanceiro: real)

  /**
   * `v` shows portfolio `pid` marked to market with the latest-price map of
   * the products it holds, and its market-value total is the sum of the
   * positions' values and its result total that sum minus what they cost.
   */
  ghost predicate ValuedView(t: Tables, pid: int, v: PortfolioView) {
    && pid in t.portfolios
    && v.portfolioId == pid && v.portfolio == t.portfolios[pid]
    && var po := PositionsOf(t.posicoes, pid);
       && IsValuation(v.posicoes, po, LatestPrices(t.precos, ProductsOf(po)))
       && v.valorMercadoTotal == Rows.SumBy(v.posicoes, MarketValueOf)
       && v.resultadoTotalFinanceiro == v.valorMercadoTotal - Rows.SumBy(po, CostOf)
  }

  /**
   * Values portfolio `pid`: without positions both totals are 0 and nothing
   * is looked up; otherwise the latest prices of the products held are read
   * and the valuation loop runs.
   */
  method ValueStoredPortfolio(t: Tables, pid: int) returns (v: PortfolioView)
    requires pid in t.portfolios
    ensures ValuedView(t, pid, v)
  {
    var posicoes := PositionsOf(t.posicoes, pid);
    if posicoes == map[] {
      return PortfolioView(pid, t.portfolios[pid], map[], 0.0, 0.0);
    }
    var mapaPrecos := LatestPrices(t.precos, ProductsOf(posicoes));
    var valued, valorMercado, resultado := ValuePortfolio(posicoes, mapaPrecos);
    return PortfolioView(pid, t.portfolios[pid], valued, valorMercado, resultado);
  }

  /**
   * A valued view shows every position of the portfolio, each at its
   * product's latest closing price, or 0 when the product has no history.
   */
  lemma ValuedViewPrices(t: Tables, pid: int, v: PortfolioView)
    requires ValuedView(t, pid, v)
    ensures v.posicoes.Keys == PositionsOf(t.posicoes, pid).Keys
    ensures forall k :: k in v.posicoes ==>
              ValuedAt(v.posicoes[k], t.posicoes[k], PriceOrZero(t.precos, t.posicoes[k].produtoId))
  {
    LatestValuation(v.posicoes, PositionsOf(t.posicoes, pid), t.precos);
  }

  /**
   * A valued view's result total is the sum of its positions' results, and
   * both totals are 0 for a portfolio without positions.
   */
  lemma ValuedViewTotals(t: Tables, pid: int, v: PortfolioView)
    requires ValuedView(t, pid, v)
    ensures v.resultadoTotalFinanceiro == Rows.SumBy(v.posicoes, ResultOf)
    ensures PositionsOf(t.posicoes, pid) == map[] ==> v.valorMercadoTotal == 0.0 && v.resultadoTotalFinanceiro == 0.0
  {
    var po := PositionsOf(t.posicoes, pid);
    ValuationTotals(v.posicoes, po, LatestPrices(t.precos, ProductsOf(po)));
    if po == map[] {
      assert v.posicoes == map[];
    }
  }

  // ------------------------------------------------- positions at one price

  /** The quantity held in a position. */
  function QuantityOf(p: Posicao): real {
    p.quantidade
  }
}

=== FILE: wrappers.dfy ===
/** Optional values: a nullable column, a row that a query may not find. */
module Wrappers {

  datatype Option<+T> = None | Some(value: T) {

    /** The value, or `default` when there is none (Python's `d.get(k, default)`). */
    function GetOr(default: T): T {
      match this
      case Some(v) => v
      case None => default
    }
  }
}
